=== FILE: README.md ===
# fTutteS reactive core in Dafny

This project models the core of fTutteS, a TypeScript UI framework. It has
three parts:

- **The reactive state engine.** `Provider` is a lazily initialised state
  cell with an insertion-ordered listener set and a map of upstream
  dependencies. The `ProviderObserver` singleton records dependencies and an
  append-only update history. `Notifier` and `NotifierProvider` are built on
  `Provider`.
- **The view lifecycle that reacts to the engine.** `View.assemble`,
  `rebuild`, `assembleComplete` and `dispose`, the scopes `ProviderScope` and
  `LimitedProviderScope`, and the entry point `assembleView`.
- **The style helpers with real rules.** `Padding`, `Margin`, `BorderCSS`,
  `Scaffold` and `RelativePositions`.

How the JavaScript program is represented:

- The heap is a `World` value (world.dfy). It holds these arenas, indexed by
  handles:
  - provider cells;
  - notifiers;
  - view objects;
  - DOM elements.
- The `World` also holds:
  - the observer's state;
  - a trace of observable events (lifecycle hooks, listener calls);
  - counters for fresh closures and fresh UUIDs.
- Closures supplied by an application are ids into a `Program` record. This
  covers factories, update functions, `ref.watch` combiners, `builder`
  functions and the large-object test.
- The listener closures the framework creates are a datatype:
  - a `Dependency` link;
  - a scope's `rebuild`;
  - the `NotifierProvider` bridge;
  - an application listener, which either records what it receives or throws.

  Each such closure carries a fresh token, so that two closures are the same
  `Set` member exactly when JavaScript would consider them the same function.
- A JavaScript exception is the `Throw` case of `Outcome`. Effects made before
  a throw persist, as they do in the source.
- Unbounded recursion is cut off by a `fuel` argument, standing for the
  JavaScript stack. Such recursion comes from a dependency cycle, a factory
  that reads itself, or a view that contains itself. When the fuel runs out,
  the call throws the stack-overflow error.

Every operation is a pure function from the old `World` to the new one, in
the modules `Cells`, `Propagation` and `Views`. The class `Runtime.Page` holds
the same state in mutable fields. Each of its methods performs the operation
step by step, with the source's loops, and proves that its new state and
result are those of the function. The observer is the class
`Observer.ProviderObserver`, with a map and a sequence as fields; its methods
are proved against functions on `ObserverState`. The style helpers are
functions from a style map to a style map.

Behaviour of the source a reader may not expect:

- `ProviderScope` (src/tiperes/interface/providerScope.ts:18-37) does not
  override `build`. The `child` passed to a `ProviderScope` is therefore never
  shown: the scope assembles an empty element
  (`ScopeProps.ScopeShowsNothing`), and its `rebuild` empties the live element
  (`ScopeProps.ScopeRebuildEmpties`).
- `rebuild` calls `assembleViewData(this.viewChild, this.viewCache)` directly
  (src/core/interface/view.ts:276). It fills `viewCache` itself, not a copy of
  it.
- `assembleComplete` (src/core/interface/view.ts:296-308) calls
  `onAssembleComplete` only on the views below the one it runs on.
  `assembleView` calls it on the root (src/core/logic/assembleView.ts:37), so
  the root view's own `onAssembleComplete` is never called
  (`AssembleViewProps.RootNotCompleted`).
- For `Padding` and `Margin`, an `all` prop that is not undefined overrides the
  four sides, even when it is the empty string
  (src/taterials/components/padding.ts:82-101,
  src/taterials/components/margin.ts:76-96). This contradicts their doc
  comments (src/taterials/components/padding.ts:23), which say that individual
  sides take priority.

## Model

| member | source | states |
|---|---|---|
| Values.DistinctCons | src/tiperes/logic/provider.ts:139 | A sequence is duplicate-free exactly when its head is not in its tail and its tail is duplicate-free, both directions. |
| Values.SetAdd | src/tiperes/logic/provider.ts:209 | `Set.add`: the members afterwards are the old ones plus `x`; a member is not duplicated; a new member goes last, an existing one leaves the set as it was. |
| Values.SetDelete | src/tiperes/logic/provider.ts:216 | `Set.delete`: the members afterwards are exactly the old ones other than `x`; deleting a non-member changes nothing. |
| Values.SetDeleteAdded | src/tiperes/logic/provider.ts:208-218 | Deleting a member that was just added restores the set exactly, order included. |
| Dom.CreateElement | src/core/interface/view.ts:190 | `createElement` appends a fresh, detached, childless element and leaves every existing element unchanged. |
| Dom.Without | src/core/interface/view.ts:279 | Removing a child from a list keeps exactly the other entries, each as often as before, and drops every copy of the removed one. |
| Dom.WithoutAppend | src/core/interface/view.ts:279 | Removal keeps the order of the remaining entries: it distributes over concatenation, and a single entry goes exactly when it is the removed one. |
| Dom.Detach | src/core/interface/view.ts:390 | After detaching, the element has no parent and the arena has the same size. |
| Dom.DetachEffect | src/core/interface/view.ts:390 | Detaching `c`: `c` loses its parent, its old parent loses `c` from its children and nothing else, and every other element is unchanged. |
| Dom.AppendChild | src/core/interface/view.ts:390 | `appendChild` keeps the arena's size; with an invalid or self reference the surface is unchanged. |
| Dom.AppendChildEffect | src/core/interface/view.ts:390 | `p.appendChild(c)`: `c` becomes `p`'s last child (leaving `p`'s list first if it was there) with `p` as parent; a different old parent loses `c`; every other element is unchanged. |
| Dom.RemoveFirstChild | src/core/interface/view.ts:279 | `removeChild(firstChild)` drops exactly the first entry of the child list. |
| Dom.RemoveAllChildren | src/core/interface/view.ts:278-280 | The `while (firstChild)` loop leaves the element childless. |
| Dom.CloneNode | src/core/interface/view.ts:178 | `cloneNode` appends one new element and leaves the existing ones unchanged. |
| Dom.Stamp | src/core/interface/view.ts:403-409 | Sets the `id` attribute and the `viewClassName` dataset entry of the given element, and changes nothing else: every other element is unchanged and the arena keeps its size. |
| Dom.FindLive | src/core/interface/view.ts:271 | Returns the first element connected to the document with the given id, and None exactly when there is none. |
| Dom.GetElementById | src/core/interface/view.ts:271 | `getElementById` returns a connected element carrying the id; None means no connected element carries it; the empty id finds nothing. |
| World.GrowsTransitive | src/tiperes/logic/provider.ts:137-148 | Arena growth composes: entries keep their identity and kind across any sequence of steps. |
| World.Emit | src/core/interface/view.ts:169-176 | An observable event is appended to the trace and nothing else is lost. |
| World.SetCell | src/tiperes/logic/provider.ts:285-295 | Replacing a cell changes only that cell and keeps its kind. |
| World.SetView | src/core/interface/view.ts:155-158 | Replacing a view's fields changes only that view and keeps its class and id. |
| World.SetDom | src/core/interface/view.ts:156-157 | Replacing the document keeps every existing element handle valid. |
| World.CellNames | src/tiperes/logic/observer.ts:230-232 | The names the observer reports are the cells' names, position by position. |
| Cells.CreateProvider | src/tiperes/logic/provider.ts:161-174 | `createProvider` appends one uninitialised cell with no listeners, no dependencies and logging on, named by its name or else a random name; nothing else changes. |
| Cells.Read | src/tiperes/logic/provider.ts:184-192 | An initialised cell returns its stored value without effect; a `NotifierProvider` returns its notifier; a successful read leaves the cell initialised and storing the returned value; an invalid handle throws. |
| Cells.RunFactory | src/tiperes/logic/provider.ts:185-189 | The first `read` of a plain provider runs its factory; when the factory returns, the cell is initialised and stores the value returned, and the arenas only grow. |
| Cells.FactoryResult | src/tiperes/logic/provider.ts:187-188 | When the factory's statements and the factory itself return, the value is stored and the cell becomes initialised; an exception from either escapes before anything is stored. |
| Cells.RunSteps | src/tiperes/logic/provider.ts:244-265 | A factory body, run statement by statement, returns one value per `ref.read`, after the values already read. |
| Cells.RefWatch | src/tiperes/logic/provider.ts:256-262 | `ref.watch(parent, fn)` tells the observer of the dependency; for a valid parent, it stores a new `Dependency` under `parent`, replacing any earlier one without unsubscribing it, and subscribes its fresh listener to the parent without calling it. The new world is stated exactly: only the observer, the token counter, the parent's listener set and `c`'s link map change. |
| Cells.Subscribe | src/tiperes/logic/provider.ts:208-210 | The listener joins the provider's set; nothing else changes. |
| Cells.Unwatch | src/tiperes/logic/provider.ts:215-217 | The returned function removes only that listener from the set; nothing else changes. |
| Cells.UnsubscribedDependency | src/tiperes/logic/provider.ts:267-278 | For a registered parent, the link's listener leaves the parent, the entry is deleted and, with logging on, the observer forgets the dependency; for an unregistered parent nothing changes. The new world is stated exactly: the parent's other listeners keep their order (`SetDelete`), `c` loses only that key, and nothing else changes. |
| Cells.SetIsActivedLog | src/tiperes/logic/provider.ts:280-282 | Only the cell's logging switch changes. |
| Propagation.Update | src/tiperes/logic/provider.ts:229-238 | `update` on an invalid handle throws and changes nothing; otherwise the arenas only grow. |
| Propagation.Record | src/tiperes/logic/provider.ts:233-235 | The observer gets one `logUpdate` record exactly when the cell's logging is on; nothing else changes. |
| Propagation.Notify | src/tiperes/logic/provider.ts:240-242 | Calling the listeners only grows the arenas. |
| Propagation.Fire | src/tiperes/logic/provider.ts:240-242 | A recording listener leaves exactly one trace entry with the value it received; a throwing application listener throws and changes nothing. |
| Propagation.Bridged | src/tiperes/logic/notifier.ts:390-395 | The `NotifierProvider` listener only grows the arenas. |
| Propagation.Watch | src/tiperes/logic/provider.ts:208-218 | `watch` with `immediate:false` only subscribes; on an invalid handle it throws and changes nothing. |
| Propagation.RefUpdate | src/tiperes/logic/provider.ts:250-255 | `ref.update` only grows the arenas. |
| Propagation.NewNotifier | src/tiperes/logic/notifier.ts:202-206 | A notifier appends one uninitialised provider named after its class, or else a random name, whose factory is the class's `build`, and records that provider as its own. |
| Propagation.NewNotifierProvider | src/tiperes/logic/notifier.ts:384-396 | The provider is allocated first and its handle is returned on success; the notifier and the notifier's provider follow it. |
| Propagation.NotifierProviderCreateProvider | src/tiperes/logic/notifier.ts:403-405 | `NotifierProvider.createProvider` always throws an `Error`. |
| ProviderProps.ReadOnceThenCached | src/tiperes/logic/provider.ts:184-192 | After a successful first `read`, a second `read` has no effect and returns the same value. |
| ProviderProps.FirstReadRunsFactory | src/tiperes/logic/provider.ts:186-188 | The first `read` of an uninitialised cell runs its factory: its outcome is that of the factory body. |
| ProviderProps.ReadKeepsThrowingUninit | src/tiperes/logic/provider.ts:186-188 | No `read` initialises a cell whose factory throws, and reading that cell throws. |
| ProviderProps.RunStepsKeepsThrowingUninit | src/tiperes/logic/provider.ts:244-265 | No factory body initialises a cell whose factory throws. |
| ProviderProps.ThrowingFactoryRetries | src/tiperes/logic/provider.ts:186-188 | A throwing factory leaves the cell uninitialised, the exception reaches the caller, and the next `read` runs the factory again. |
| ProviderProps.SubscribeIdempotent | src/tiperes/logic/provider.ts:209 | Watching the same function twice keeps one set entry. |
| ProviderProps.UnwatchIdempotent | src/tiperes/logic/provider.ts:215-217 | Calling the unsubscribe function twice equals calling it once. |
| ProviderProps.WatchThenUnwatch | src/tiperes/logic/provider.ts:208-218 | Subscribing a new listener and calling the returned function restores the provider exactly. |
| ProviderProps.WatchRecordFiresOnce | src/tiperes/logic/provider.ts:208-218 | `watch` with the default `immediate` on an initialised provider subscribes the listener and calls it exactly once, with the current value. |
| ProviderProps.NotifyQuiet | src/tiperes/logic/provider.ts:240-242 | `notifyListeners(v)` calls every listener exactly once with `v`, in insertion order, when the listeners only leave a trace. |
| ProviderProps.NotifyOne | src/tiperes/logic/provider.ts:240-242 | `notifyListeners(v)` with a single listener is that listener's call, preceded by its trace entry; an exception from it propagates. |
| ProviderProps.AfterStore | src/tiperes/logic/provider.ts:229-238 | The page as `update(f)` leaves it just before notifying: the cell stores `f(current)`, the store is traced, and the observer gains a record only when logging is on. |
| ProviderProps.UpdateStoresBeforeNotifying | src/tiperes/logic/provider.ts:229-242 | On an initialised provider, `update(f)` is exactly: reach `AfterStore` (the optional observer record and the stored `f(current)`), and only then notify the listeners present at that moment with the new value. |
| ProviderProps.UpdateQuiet | src/tiperes/logic/provider.ts:229-242 | With quiet listeners, `update(f)`'s whole effect is: nothing but the exception when `f` throws; otherwise the stored value, the optional record, and one call of each listener in order. |
| ProviderProps.NotifyStopsAtThrow | src/tiperes/logic/provider.ts:240-242 | An application listener that throws stops `forEach`: the quiet listeners before it are called once each, in order, then it is called, and no listener after it is called; the exception propagates. |
| ProviderProps.UpdateStopsAtThrowingListener | src/tiperes/logic/provider.ts:229-242 | When a listener throws during `update(f)`, the new value is already stored, the earlier listeners have run, the later ones never run, and `update` throws. |
| ProviderProps.RefUpdateLogsTwice | src/tiperes/logic/provider.ts:250-255 | For an `f` that returns, `ref.update(f)` stores `f(current)` once and, with logging on, appends two observer records: one from `update` and one from `ref.update`. |
| ProviderProps.RefWatchTwiceKeepsBothListeners | src/tiperes/logic/provider.ts:256-262 | Watching the same parent twice replaces the stored link, but the parent keeps both listeners. |
| ProviderProps.DependencyPropagates | src/tiperes/logic/provider.ts:313-322 | When neither `f` nor `combine` throws, an update of the parent to `v` updates the child to `combine(v, childCurrent)`. |
| ProviderProps.UnsubscribedParentNoLongerReachesChild | src/tiperes/logic/provider.ts:267-278 | After `unsubscribedDependency(parent)`, an update of the parent (with an `f` that returns) leaves the child unchanged. |
| Observer.EmptyIsValid | src/tiperes/logic/observer.ts:141-148 | The state after the first construction is well formed. |
| Observer.OutLogs | src/tiperes/logic/observer.ts:150-152 | `outLogs` changes only the console switch, never the graph or the history. |
| Observer.DependencyAdded | src/tiperes/logic/observer.ts:154-160 | `addDependency` creates the child's set if absent and adds the parent; other children's sets and the history are unchanged; well-formedness is kept. |
| Observer.AddDependencyIdempotent | src/tiperes/logic/observer.ts:154-160 | Adding the same dependency twice equals adding it once. |
| Observer.DependencyDeleted | src/tiperes/logic/observer.ts:162-167 | `deleteDependency` removes the parent from a known child's set, keeps every key, and changes nothing for an unknown child. |
| Observer.AddThenDeleteKeepsKey | src/tiperes/logic/observer.ts:154-167 | Deleting a just-added dependency of a new child leaves that child with an empty but present set. |
| Observer.ForLog | src/tiperes/logic/observer.ts:183-197 | A large value is logged as the large-object marker; otherwise an object with `props.id` is logged as class name + `__viewId:` + id; anything else as is. |
| Observer.UpdateLogged | src/tiperes/logic/observer.ts:179-210 | `logUpdate` appends exactly one record under the provider's name and leaves earlier records and the graph untouched. |
| Observer.Filter | src/tiperes/logic/observer.ts:224-228 | The filtered history holds exactly the records made under the name. |
| Observer.FilterAppend | src/tiperes/logic/observer.ts:224-228 | Filtering distributes over concatenation, so the order of the original history is kept. |
| Observer.LogUpdateExtendsFilter | src/tiperes/logic/observer.ts:179-228 | After `logUpdate`, the filtered history of the logged name gains exactly the new record, and every other name's is unchanged. |
| Observer.Names | src/tiperes/logic/observer.ts:212-218 | The parents' names, position by position. |
| Observer.GraphOfDomain | src/tiperes/logic/observer.ts:212-218 | The graph's keys are exactly the children's names. |
| Observer.GraphOfLookup | src/tiperes/logic/observer.ts:212-218 | A child's name maps to the list of its parents' names, unless a later child has the same name. |
| Observer.NamesAppend | src/tiperes/logic/observer.ts:212-218 | Mapping names over a parent list appended with one parent appends that parent's name. |
| Observer.ProviderObserver.constructor | src/tiperes/logic/observer.ts:141-148 | The first construction starts with an empty graph and history. |
| Observer.ProviderObserver.SetOutLogs | src/tiperes/logic/observer.ts:150-152 | The new state is `OutLogs` of the old one. |
| Observer.ProviderObserver.AddDependency | src/tiperes/logic/observer.ts:154-160 | The new state is `DependencyAdded` of the old one. |
| Observer.ProviderObserver.DeleteDependency | src/tiperes/logic/observer.ts:162-167 | The new state is `DependencyDeleted` of the old one. |
| Observer.ProviderObserver.LogUpdate | src/tiperes/logic/observer.ts:179-210 | The new state is `UpdateLogged` of the old one. |
| Observer.ProviderObserver.GetAllUpdateHistory | src/tiperes/logic/observer.ts:220-222 | Returns the whole history. |
| Observer.ProviderObserver.GetFilteredUpdateHistory | src/tiperes/logic/observer.ts:224-228 | The loop returns exactly the records under the name, in order. |
| Observer.ProviderObserver.GetDependencyGraph | src/tiperes/logic/observer.ts:212-218 | The loop over the keys builds the graph `DependencyGraph` describes. |
| Observer.ObserverSlot.constructor | src/tiperes/logic/observer.ts:135-136 | Before any construction there is no instance. |
| Observer.ObserverSlot.Construct | src/tiperes/logic/observer.ts:141-148 | Every construction after the first returns the first instance unchanged; the first creates a fresh, empty one. |
| Observer.ObserverSlot.ClearInstance | src/tiperes/logic/observer.ts:251-253 | `clearInstance` resets the singleton. |
| NotifierProps.NotifierBuildsLazily | src/tiperes/logic/notifier.ts:198-206 | A new notifier has not run `build`; the first `state` runs it once, and a later `state` returns the stored state without effect. |
| NotifierProps.NotifierUpdateState | src/tiperes/logic/notifier.ts:220-222 | After `update(f)` with an `f` that returns, `state` is `f` of the previous state. |
| NotifierProps.NotifierWatchFiresOnce | src/tiperes/logic/notifier.ts:228-230 | `watch(l)` subscribes `l` and calls it once with the state. |
| NotifierProps.NotifierProviderRead | src/tiperes/logic/notifier.ts:412-415 | `read` of a `NotifierProvider` returns its notifier, stores it, and runs no factory. |
| NotifierProps.NotifierProviderConstruction | src/tiperes/logic/notifier.ts:384-396 | The whole page after construction: exactly two new cells (the provider, logging off and storing the notifier; the notifier's state, built once, with the bridge as its only listener), one new notifier and one closure token; the trace shows `build` running once, the bridge called once, and the provider storing its notifier; no observer records; the handle of the provider is returned. |
| NotifierProps.ConstructionWatches | src/tiperes/logic/notifier.ts:384-396 | The constructor's steps up to `watch` (provider cell, notifier, logging off, bridge token), after which its outcome is that of `watch`. |
| NotifierProps.WatchBuildsNotifier | src/tiperes/logic/notifier.ts:390-395 | The immediate `watch` subscribes the bridge, runs `build` once, then calls the bridge with its result. |
| NotifierProps.ReadBuildsNotifier | src/tiperes/logic/notifier.ts:198-206 | The `read` inside that `watch` runs `build` once and stores its result. |
| NotifierProps.BridgedNotifiesTwice | src/tiperes/logic/notifier.ts:390-395 | The bridge calls each of the provider's listeners twice with the notifier: from `update(identity)`, then from `notifyListeners`. |
| NotifierProps.NotifyThroughBridge | src/tiperes/logic/notifier.ts:390-395 | Notifying the notifier's provider runs the bridge once, with that double call. |
| NotifierProps.NotifierProviderFiresTwice | src/tiperes/logic/notifier.ts:220-222 | Each notifier `update` whose function returns stores the new state and calls an application listener of the `NotifierProvider` twice. |
| Views.StyledElement | src/core/interface/view.ts:229-240 | `styledView` changes an element's style and text only, never its children, parent, tag or id. |
| Views.NewBaseView | src/core/interface/view.ts:163-167 | Constructing `View` directly throws a TypeError after its two field elements are created. |
| Views.NewView | src/core/interface/view.ts:155-167 | A new view gets the next handle, a fresh UUID, the two field elements, no child; only a `Scaffold` or a scope can throw; a `Scaffold` whose header is not a `Header` throws with no effect; only scopes subscribe. |
| Views.IterateProviders | src/tiperes/interface/providerScope.ts:25-36 | `_iterateProviders` touches only cells and tokens, and on success uses one fresh listener per entry. |
| Views.IterateProvidersStep | src/tiperes/interface/providerScope.ts:25-36 | One turn of the loop subscribes a fresh `rebuild` listener to the next provider. |
| Views.Instantiate | src/core/interface/view.ts:261-263 | Constructing a build result leaves the trace alone, and an existing view is returned as is. |
| Views.InstantiateAll | src/core/interface/view.ts:261-263 | Constructing an array yields one view per entry. |
| Views.InstantiateOpts | src/core/interface/view.ts:394-401 | An array with falsy entries keeps them falsy and its length. |
| Views.Somes | src/core/interface/view.ts:394-401 | Every entry of a constructed array is present. |
| Views.ReadAll | src/tiperes/components/limitedProviderScope.ts:18-22 | Reading the providers yields one value per provider, after the values already read. |
| Views.Build | src/core/interface/view.ts:261-263 | `build` is recorded before anything else it does. |
| Views.AssembleWrap | src/core/interface/view.ts:229-252 | The wrapper is one new element; it throws a TypeError naming the first hook that returns a non-element, and succeeds exactly when none does. |
| Views.Assemble | src/core/interface/view.ts:169-183 | On success the returned element is the view's `_view` and carries its UUID and class name; an invalid handle throws. |
| Views.Wrapped | src/core/interface/view.ts:176-183 | The part after `terminate`: the same guarantees for the returned element. |
| Views.ViewData | src/core/interface/view.ts:373-386 | After `assembleViewData`, `_view` is the given element, stamped with the view's id and class name, whatever the child's shape. |
| Views.Finish | src/core/interface/view.ts:403-409 | Only `_view` changes among the view's fields, and the element is stamped. |
| Views.Multi | src/core/interface/view.ts:394-401 | `assembleMultiView` only grows the arenas. |
| Views.Rebuild | src/core/interface/view.ts:268-272 | `rebuild` runs `preBuild` and, when no live element has the view's id, stops there with no other effect. |
| Views.RebuildLive | src/core/interface/view.ts:274-294 | The rest of `rebuild` only grows the arenas. |
| Views.Replace | src/core/interface/view.ts:278-294 | Emptying the live element and appending the new children only grows the arenas. |
| Views.AppendViews | src/core/interface/view.ts:282-289 | Appending the children's elements touches only the document. |
| Views.AppendAll | src/core/interface/view.ts:285-288 | The same for each entry of an array child. |
| Views.AssembleComplete | src/core/interface/view.ts:296-308 | `assembleComplete` changes only the trace, by appending to it. |
| Views.CompleteAll | src/core/interface/view.ts:300-305 | The same over a list of children. |
| Views.Dispose | src/core/interface/view.ts:362-371 | `dispose` changes only the trace, by appending to it. |
| Views.DisposeAll | src/core/interface/view.ts:364-368 | The same over a list of children. |
| Views.AssembleView | src/core/logic/assembleView.ts:27-40 | `assembleView` only grows the arenas; the container id defaults to `"fTutteS-Container"`. |
| Views.Place | src/core/logic/assembleView.ts:32-39 | The steps after `assemble` only grow the arenas. |
| ViewProps.InstantiateNeverThrows | src/core/interface/view.ts:261-263 | Constructing leaves and columns never throws. |
| ViewProps.InstantiateAllNeverThrows | src/core/interface/view.ts:261-263 | Nor does constructing an array of them. |
| ViewProps.InstantiateOptsNeverThrows | src/core/interface/view.ts:261-263 | Nor one with falsy entries. |
| ViewProps.BuildCustomReturns | src/core/interface/view.ts:261-263 | An application view's `build` returns. |
| ViewProps.LeafAssembleEffect | src/core/interface/view.ts:169-183 | `assemble` of a leaf runs initialize, preBuild, build, postBuild, terminate, then the wrapper hooks, in order; it creates the styled wrapper and its stamped copy, which becomes `viewCache` and `_view` and is returned. |
| ViewProps.BrokenHookThrows | src/core/interface/view.ts:248-252 | A wrapper hook that returns a non-element makes `assemble` throw a TypeError naming that hook. |
| ViewProps.WithoutAbsent | src/core/interface/view.ts:279 | Removing an absent child changes nothing. |
| ViewProps.AppendChildAppends | src/core/interface/view.ts:390 | Appending a non-child makes it the last child. |
| ViewProps.ElemsOfAllViews | src/core/interface/view.ts:285-288 | The children's elements depend on the views only. |
| ViewProps.AppendableTail | src/core/interface/view.ts:285-288 | After one append, the remaining entries can still be appended. |
| ViewProps.AppendAllInOrder | src/core/interface/view.ts:285-288 | The appends at the end of `rebuild` put the children's elements after the existing ones, in array order. |
| ViewProps.ReplaceChildren | src/core/interface/view.ts:278-294 | After `rebuild`'s replacement, the live element's children are exactly the new children's elements, in build order. |
| ViewProps.AppendDetached | src/core/interface/view.ts:390 | Appending a detached element makes it the last child and changes no other element. |
| ViewProps.EntriesTail | src/core/interface/view.ts:394-401 | Dropping the first entry keeps the rest leaf entries. |
| ViewProps.MultiLeaves | src/core/interface/view.ts:394-401 | `assembleMultiView` over leaves never throws and leaves the world computed entry by entry. |
| ViewProps.MultiLeavesInOrder | src/core/interface/view.ts:394-401 | Each present entry is assembled fully before the next; falsy entries are skipped; elements are appended in array order; other views are untouched. |
| ViewProps.LeavesAppendedFrame | src/core/interface/view.ts:394-401 | The cells, the views outside the array and the earlier elements are untouched. |
| ViewProps.LeavesAppendedTrace | src/core/interface/view.ts:394-401 | The leaves' hooks run entry after entry. |
| ViewProps.DistinctTail | src/core/interface/view.ts:394-401 | Distinct entries stay distinct after the first, which does not recur. |
| ViewProps.LeavesAppendedInOrder | src/core/interface/view.ts:394-401 | The entries' elements end up as the last children of the element, in array order. |
| ViewProps.ElemsOfAllAgree | src/core/interface/view.ts:394-401 | The children's elements depend only on the entries' views. |
| ViewProps.ColumnAssemble | src/core/interface/view.ts:169-183 | `assemble` of a `Column` runs its own hooks, then fills the wrapper's copy with its children, then returns the stamped copy. |
| ViewProps.ColumnLeavesFilled | src/core/interface/view.ts:394-401 | After its own hooks, a column of leaves fills its copy with the leaves' elements, in order, with the leaves' hooks in order. |
| ViewProps.ColumnOfLeaves | src/core/interface/view.ts:169-183 | `assemble` of a column of leaves returns an element whose children are the leaves' elements, in order, with every hook in order. |
| ViewProps.AssembleCompleteIsPostOrder | src/core/interface/view.ts:296-308 | `assembleComplete` calls `onAssembleComplete` on every descendant in post-order and does nothing else. |
| ViewProps.CompleteAllIsPostOrder | src/core/interface/view.ts:300-305 | The same for the remaining children. |
| ViewProps.DisposeIsPostOrder | src/core/interface/view.ts:362-371 | `dispose` calls `onDispose` on the whole subtree in post-order, the view itself last; a falsy entry makes it throw. |
| ViewProps.DisposeAllIsPostOrder | src/core/interface/view.ts:364-368 | The same for the remaining children. |
| ScopeProps.SubscribeNext | src/tiperes/interface/providerScope.ts:31-36 | One `_watch` adds a fresh `rebuild` listener to the provider and uses one token. |
| ScopeProps.IterateProvidersOk | src/tiperes/interface/providerScope.ts:25-29 | Construction succeeds exactly when every provider is valid. |
| ScopeProps.IterateProvidersFrame | src/tiperes/interface/providerScope.ts:25-36 | Only the providers' listener sets change, and only those of the listed providers. |
| ScopeProps.IterateProvidersKeeps | src/tiperes/interface/providerScope.ts:31-36 | No listener is removed; the unsubscribe handles are discarded. |
| ScopeProps.IterateProvidersOnlyScope | src/tiperes/interface/providerScope.ts:31-36 | Every new listener is this scope's `rebuild`, with the token of the entry it was made for. |
| ScopeProps.ProviderPrefix | src/tiperes/interface/providerScope.ts:25-29 | The loop reaches exactly the entries before the first invalid provider. |
| ScopeProps.IterateProvidersAdds | src/tiperes/interface/providerScope.ts:25-36 | Each reached entry, in array order, gets its own `rebuild` listener, so a provider listed twice gets two. |
| ScopeProps.ScopeConstructionSubscribes | src/tiperes/interface/providerScope.ts:19-36 | Constructing a scope calls no listener and no rebuild; on success it subscribes one `rebuild` per array entry; a `LimitedProviderScope` subscribes the same way. |
| ScopeProps.ScopeShowsNothing | src/tiperes/interface/providerScope.ts:18-37 | A `ProviderScope` has no `build`, so it assembles an empty element, stamped with its id. |
| ScopeProps.ScopeRebuildEmpties | src/core/interface/view.ts:268-294 | A live `ProviderScope`'s `rebuild` empties its element and changes no cell. |
| ScopeProps.CurrentValues | src/tiperes/components/limitedProviderScope.ts:18-22 | The current values, position by position. |
| ScopeProps.ReadAllInitialized | src/tiperes/components/limitedProviderScope.ts:18-22 | Reading initialised providers has no effect and yields their values, in array order. |
| ScopeProps.LimitedScopeBuild | src/tiperes/components/limitedProviderScope.ts:18-24 | `build` passes `builder` the providers' values, in order, and returns exactly what it returns. |
| ScopeProps.LimitedBuildAfterReads | src/tiperes/components/limitedProviderScope.ts:18-24 | Once the reads are done, `build`'s result is the builder's. |
| AssembleViewProps.AppendChildLast | src/core/logic/assembleView.ts:35 | `appendChild` makes the element the last child, sets its parent, and keeps every id and class name. |
| AssembleViewProps.PlaceAfter | src/core/logic/assembleView.ts:32-39 | Given an element that `assemble` returned as it promises, the steps after it place that element as `AssembleViewPlaces` states. |
| AssembleViewProps.AssembleViewPlaces | src/core/logic/assembleView.ts:27-40 | A throw from `assemble` propagates; otherwise the root's element is returned and becomes the last child of the container when one exists; with no container the document is left as `assemble` made it, with no error. |
| AssembleViewProps.DefaultContainerPlaces | src/core/logic/assembleView.ts:27-35 | `assembleView(root)` with no id places the root under the element with id `"fTutteS-Container"`, as `AssembleViewPlaces` describes. |
| AssembleViewProps.AssembleViewCompletes | src/core/logic/assembleView.ts:37 | `assembleComplete` runs once, whether or not the root was attached, and adds the descendants' completions in post-order. |
| AssembleViewProps.Size | src/core/logic/assembleView.ts:37 | A view tree has at least one node. |
| AssembleViewProps.KidSmaller | src/core/interface/view.ts:296-308 | A child's subtree is no larger than its parent's children. |
| AssembleViewProps.ShapedUnique | src/core/interface/view.ts:296-308 | The `viewChild` links determine the tree below a view. |
| AssembleViewProps.NoCompletionOf | src/core/interface/view.ts:296-308 | A view whose tree is at least as large does not complete below a smaller tree. |
| AssembleViewProps.NoCompletionOfFrom | src/core/interface/view.ts:300-305 | The same for the remaining children. |
| AssembleViewProps.RootNotCompleted | src/core/logic/assembleView.ts:37 | `assembleComplete` never calls the `onAssembleComplete` of the view it runs on, so the root's never runs. |
| Runtime.Page.constructor | src/core/interface/view.ts:155-158 | A page with no providers, notifiers or views, and the given document. |
| Runtime.Page.CreateProvider | src/tiperes/logic/provider.ts:161-174 | The new fields and handle are `Cells.CreateProvider`'s. |
| Runtime.Page.Read | src/tiperes/logic/provider.ts:184-192 | The new fields and outcome are `Cells.Read`'s. |
| Runtime.Page.RunFactory | src/tiperes/logic/provider.ts:185-189 | The new fields and outcome are `Cells.RunFactory`'s. |
| Runtime.Page.FactoryResult | src/tiperes/logic/provider.ts:187-188 | The new fields and outcome are `Cells.FactoryResult`'s. |
| Runtime.Page.RunSteps | src/tiperes/logic/provider.ts:244-265 | The loop over the factory body ends in `Cells.RunSteps`'s state and outcome. |
| Runtime.Page.RefWatch | src/tiperes/logic/provider.ts:256-262 | The new fields and outcome are `Cells.RefWatch`'s. |
| Runtime.Page.Subscribe | src/tiperes/logic/provider.ts:208-210 | The new fields are `Cells.Subscribe`'s. |
| Runtime.Page.Unwatch | src/tiperes/logic/provider.ts:215-217 | The new fields are `Cells.Unwatch`'s. |
| Runtime.Page.UnsubscribedDependency | src/tiperes/logic/provider.ts:267-278 | The new fields are `Cells.UnsubscribedDependency`'s. |
| Runtime.Page.SetIsActivedLog | src/tiperes/logic/provider.ts:280-282 | The new fields are `Cells.SetIsActivedLog`'s. |
| Runtime.Page.Update | src/tiperes/logic/provider.ts:229-238 | The new fields and outcome are `Propagation.Update`'s. |
| Runtime.Page.Notify | src/tiperes/logic/provider.ts:240-242 | The `forEach` loop over the listeners ends in `Propagation.Notify`'s state and outcome. |
| Runtime.Page.Fire | src/tiperes/logic/provider.ts:240-242 | One listener call, as `Propagation.Fire`. |
| Runtime.Page.FireLink | src/tiperes/logic/provider.ts:313-322 | A `Dependency` or `NotifierProvider` listener call, as `Propagation.Fire` with fuel left. |
| Runtime.Page.Bridged | src/tiperes/logic/notifier.ts:390-395 | The bridge listener, as `Propagation.Bridged`. |
| Runtime.Page.Watch | src/tiperes/logic/provider.ts:208-218 | As `Propagation.Watch`. |
| Runtime.Page.RefUpdate | src/tiperes/logic/provider.ts:250-255 | As `Propagation.RefUpdate`. |
| Runtime.Page.NewNotifier | src/tiperes/logic/notifier.ts:202-206 | As `Propagation.NewNotifier`. |
| Propagation.NotifierState | src/tiperes/logic/notifier.ts:198-200 | `state` delegates to the notifier's provider. An unknown notifier throws "not a provider" and changes nothing. Once the provider holds a value, `state` returns it without running `build`. Any value returned is the one the provider now holds. `NotifierProps.NotifierBuildsLazily` states the rest: `build` runs on the first read only. |
| Propagation.NotifierUpdate | src/tiperes/logic/notifier.ts:220-222 | `update(f)` delegates to the notifier's provider. An unknown notifier throws and changes nothing. `NotifierProps.NotifierUpdateState` states the result: the new state is `f` of the old one. |
| Propagation.NotifierWatch | src/tiperes/logic/notifier.ts:228-230 | `watch(l)` delegates to `watch` on the notifier's provider, with the default `immediate`. An unknown notifier throws and changes nothing. `NotifierProps.NotifierWatchFiresOnce` states the result: `l` is subscribed and called once with the state. |
| Runtime.Page.NotifierState | src/tiperes/logic/notifier.ts:198-200 | As `Propagation.NotifierState`. |
| Runtime.Page.NotifierUpdate | src/tiperes/logic/notifier.ts:220-222 | As `Propagation.NotifierUpdate`. |
| Runtime.Page.NotifierWatch | src/tiperes/logic/notifier.ts:228-230 | As `Propagation.NotifierWatch`. |
| Runtime.Page.NewNotifierProvider | src/tiperes/logic/notifier.ts:384-396 | As `Propagation.NewNotifierProvider`. |
| Runtime.Page.NewBaseView | src/core/interface/view.ts:163-167 | As `Views.NewBaseView`. |
| Runtime.Page.NewView | src/core/interface/view.ts:155-167 | As `Views.NewView`. |
| Runtime.Page.IterateProviders | src/tiperes/interface/providerScope.ts:25-36 | The `forEach` loop ends in `Views.IterateProviders`'s state and outcome. |
| Runtime.Page.Instantiate | src/core/interface/view.ts:261-263 | As `Views.Instantiate`. |
| Runtime.Page.InstantiateAll | src/core/interface/view.ts:261-263 | As `Views.InstantiateAll`. |
| Runtime.Page.InstantiateOpts | src/core/interface/view.ts:394-401 | As `Views.InstantiateOpts`. |
| Runtime.Page.ReadAll | src/tiperes/components/limitedProviderScope.ts:18-22 | The `map` over the providers ends in `Views.ReadAll`'s state and outcome. |
| Runtime.Page.Build | src/core/interface/view.ts:261-263 | As `Views.Build`. |
| Runtime.Page.BuildBody | src/tiperes/components/limitedProviderScope.ts:18-24 | The part of `build` after the hook is recorded, as `Views.Build`. |
| Runtime.Page.AssembleWrap | src/core/interface/view.ts:229-252 | As `Views.AssembleWrap`. |
| Runtime.Page.Assemble | src/core/interface/view.ts:169-183 | As `Views.Assemble`. |
| Runtime.Page.Wrapped | src/core/interface/view.ts:176-183 | As `Views.Wrapped`. |
| Runtime.Page.ViewData | src/core/interface/view.ts:373-386 | As `Views.ViewData`. |
| Runtime.Page.Finish | src/core/interface/view.ts:403-409 | As `Views.Finish`. |
| Runtime.Page.Multi | src/core/interface/view.ts:394-401 | The `forEach` loop ends in `Views.Multi`'s state and outcome. |
| Runtime.Page.Rebuild | src/core/interface/view.ts:268-294 | As `Views.Rebuild`. |
| Runtime.Page.RebuildLive | src/core/interface/view.ts:274-294 | As `Views.RebuildLive`. |
| Runtime.Page.Replace | src/core/interface/view.ts:278-294 | As `Views.Replace`. |
| Runtime.Page.RemoveAllChildren | src/core/interface/view.ts:278-280 | The `while` loop leaves the document as `Dom.RemoveAllChildren` does. |
| Runtime.Page.AppendViews | src/core/interface/view.ts:282-289 | As `Views.AppendViews`. |
| Runtime.Page.AppendAll | src/core/interface/view.ts:285-288 | The loop ends in `Views.AppendAll`'s state. |
| Runtime.Page.AssembleComplete | src/core/interface/view.ts:296-308 | As `Views.AssembleComplete`. |
| Runtime.Page.CompleteAll | src/core/interface/view.ts:300-305 | The loop ends in `Views.CompleteAll`'s state. |
| Runtime.Page.Dispose | src/core/interface/view.ts:362-371 | As `Views.Dispose`. |
| Runtime.Page.DisposeAll | src/core/interface/view.ts:364-368 | The loop ends in `Views.DisposeAll`'s state. |
| Runtime.Page.AssembleView | src/core/logic/assembleView.ts:27-40 | As `Views.AssembleView`. |
| Styles.Set | src/taterials/components/padding.ts:103-110 | Assigning a style property sets it, or removes it when the value is empty, and leaves every other property unchanged. |
| Styles.SetAllEffect | src/taterials/components/padding.ts:103-110 | Assigning declarations with distinct keys sets each one and leaves every other key unchanged. |
| BoxSides.OrZero | src/taterials/components/padding.ts:83-88 | A side left null or undefined becomes `"0px"`; a given side, even `""`, is kept. |
| BoxSides.Resolve | src/taterials/components/padding.ts:82-101 | When `all` is not undefined, even `""`, all four sides are `all`; otherwise each side is its own prop or `"0px"`; no side is left undefined. |
| BoxSides.AllBeatsIndividualSide | src/taterials/components/margin.ts:76-96 | `all` overrides a differing individual side. |
| BoxSides.Declarations | src/taterials/components/padding.ts:103-110 | The four side declarations (the component's prefix followed by Top, Right, Bottom, Left) have distinct keys. |
| BoxSides.StyledView | src/taterials/components/margin.ts:98-105 | `styledView` of either component sets exactly its four side properties to the resolved sides and leaves every other property unchanged. |
| Padding.StyledView | src/taterials/components/padding.ts:103-110 | `styledView` sets exactly paddingTop/Right/Bottom/Left to the resolved sides and leaves every other property unchanged. |
| Margin.StyledView | src/taterials/components/margin.ts:98-105 | `styledView` sets exactly marginTop/Right/Bottom/Left to the resolved sides and leaves every other property unchanged. |
| BorderCss.New | src/cssKit/borderCSS.ts:13-33 | Each argument is handled separately: a given argument is stored as is and read back unchanged by its getter; an omitted one takes its own default (`"0px"`, `"solid"`, `"transparent"`, no radius, every side on). |
| BorderCss.DefaultBorder | src/cssKit/borderCSS.ts:13-33 | The defaults are `"0px"`, `"solid"`, `"transparent"`, no radius and all four sides on; they assemble to `"0px solid transparent"`. |
| BorderCss.AssembleCSS | src/cssKit/borderCSS.ts:35-37 | The shorthand is as long as its three parts and two spaces. |
| BorderCss.Words | src/cssKit/borderCSS.ts:35-37 | Splitting at spaces yields at least one word. |
| BorderCss.WordsOfWord | src/cssKit/borderCSS.ts:35-37 | A string without spaces is one word. |
| BorderCss.WordsCons | src/cssKit/borderCSS.ts:35-37 | A word, a space and a rest split into the word and the rest's words. |
| BorderCss.AssembleCSSSplits | src/cssKit/borderCSS.ts:35-37 | The shorthand splits back into size, property and color. |
| BorderCss.ApplyCSS | src/cssKit/borderCSS.ts:39-50 | Each enabled side's border is the shorthand and each disabled side is untouched; `borderRadius` is set exactly when the radius is truthy; nothing else changes. |
| Scaffold.Children | src/taterials/components/scaffold.ts:96-108 | The header if present, then the child, then the footer if present: always the child, one to three entries. |
| Scaffold.CheckHeader | src/taterials/components/scaffold.ts:79-84 | The constructor throws a TypeError exactly when a header is present and is not a `Header`. |
| Scaffold.StyledView | src/taterials/components/scaffold.ts:90-94 | Width and height become `"100%"`; nothing else changes. |
| RelativePositions.Switch | src/taterials/enums/relativePositions.ts:26-90 | The case table: for each position, the vertical anchor and offset, the horizontal anchor and offset, and the transform. |
| RelativePositions.ApplyCSS | src/taterials/enums/relativePositions.ts:26-90 | Position becomes `"absolute"`; exactly one vertical and one horizontal anchor are set, with the transform; the opposite anchors and every other property are unchanged. |
| RelativePositions.CornersSitOnTheirEdges | src/taterials/enums/relativePositions.ts:42-83 | The four corners set both anchors to `"0"` and the transform to `"translate(0, 0)"`. |
| RelativePositions.PositionsAreDistinguishable | src/taterials/enums/relativePositions.ts:14-90 | No two of the nine positions produce the same declarations. |

## Left out

- Propagation.Update, Propagation.Notify, Propagation.Bridged, Propagation.RefUpdate: the functions' own contracts state only the frame (arenas grow, invalid handles throw). Their behaviour is stated by the lemmas in `ProviderProps` and `NotifierProps`, under the conditions those lemmas name (quiet listeners, a single dependency).
- Views.Multi, Views.RebuildLive, Views.Replace, Views.AssembleView: the same. Their behaviour is stated in `ViewProps`, `ScopeProps` and `AssembleViewProps` for leaves, columns of leaves, scopes and shaped view trees. It is not stated for arbitrary nested application views.
- Notification iterates a snapshot of the listener set. JavaScript's `Set.forEach` also visits listeners added during the iteration, and the model does not.
- A `LimitedProviderScope` rebuild triggered by an update sees the value that `update` stored before notifying (`ProviderProps.UpdateStoresBeforeNotifying`). No single lemma chains an update through an on-page scope's whole `rebuild`. The same holds for "k updates cause k rebuilds".
- `preBuild`/`postBuild` of `LimitedProviderScope` are trace events of their own. The default no-op `onPreBuild`/`onPostBuild` hooks are not modelled separately.
- Recursion depth: `fuel` stands for the JavaScript stack. A dependency cycle or a self-reading factory throws when the fuel runs out, not at the engine's real stack limit.
- Timestamps, stack traces and console output of `ProviderObserver` are side channels and are left out. The large-object test is an application-supplied predicate; the `Blob`/JSON sizing is left out.
- UUIDs, random provider names and random colors come from a fresh-value counter or are parameters.
- The devMode `generateTestNode` decoration and `setupDevMode` are left out.
- The DOM is an arena of elements with an id, a class-name entry, a parent, a child list and a style map. `cloneNode(true)` copies an element whose child list is empty at that point. `appendChild` never raises a hierarchy error.
- `getElementById` returns the connected element with the lowest arena index. This is document order when ids are unique, which UUIDs make them.
- Error message texts are reduced to the kind of error and the hook or operation that raised it.
- The `BorderCSS` constructor's destructuring defaults apply only to `undefined`. An argument passed explicitly as `null` is stored as `null` in the source. The model has no null strings, so a missing argument is always an omitted one.
- The `drawer` and `floatingActionButton` props of `Scaffold` are never used by `build`, so they are not part of the model.
- The `default` branch of `RelativePositions.applyCSS` is unreachable: the private constructor allows only the nine static values, which are the nine cases of a datatype here.
- `dispose` has no caller in the framework. It is modelled and proved but nothing triggers it.
- The presentational components other than `Column`, the leaves, the scopes, `Padding`, `Margin` and `Scaffold` are not part of this model. These include hover, transform, canvas, the form inputs, image, link, card, row, grid and stack. Neither are `fontCSS.ts`, `textCSS.ts` and `baseCSS.ts`, which copy fields onto a style unchanged.
- `viewBase.ts`, the command-line entry point and the re-export index are not part of this model.
- One page holds all providers and views, so aliasing between pages does not arise.
- Application code is reduced to what the engine reacts to. An update function or a combiner either returns or throws, decided by its arguments (`updaterThrows`, `combinerThrows`). An application listener either records the value it gets (`Record`) or throws (`Throwing`). A factory body is a straight list of `ref.read` and `ref.watch` statements followed by a result or a throw. Factories, listeners, builders and update functions never call `update` on a provider themselves and have no control flow that depends on the values they read.
- `ref.update` inside a running factory is not a factory statement here. In the source it calls `read` on the provider that is not yet initialised, which runs the factory again until the stack overflows.
- The observer is one state for the whole page. In the source, `update` constructs `ProviderObserver` on every call, while a `ref` captures the instance once when the factory starts. After `clearInstance`, such an earlier `ref` keeps logging and recording dependencies into the old instance while `update` logs into the new one. The model does not capture this split. `Observer.ObserverSlot` models construction and `clearInstance` on their own, apart from the page.

=== FILE: assemble_view_props.dfy ===
/**
 * Properties of `assembleView` (assembleView.ts): what it returns, where the
 * element goes, and which `onAssembleComplete` hooks it triggers.
 */
module AssembleViewProps {
  import opened Values
  import opened Dom
  import opened World
  import opened Views
  import ViewProps

  /**
   * `p.appendChild(c)` for two distinct elements: `c` leaves `p`'s list if it was
   * there and becomes its last child, `p` becomes its parent, and no element's
   * id or class name changes.
   */
  lemma AppendChildLast(dom: seq<Element>, p: ElemRef, c: ElemRef)
    requires p < |dom| && c < |dom| && p != c
    ensures var d := AppendChild(dom, p, c);
      && d[p].children == (if dom[c].parent == Some(p) then Without(dom[p].children, c) else dom[p].children) + [c]
      && d[c].parent == Some(p)
      && forall x :: 0 <= x < |dom| ==> d[x].idAttr == dom[x].idAttr && d[x].viewClass == dom[x].viewClass
  {
  }

  /**
   * How the result `r` of `assembleView(root, idName)` follows from the result
   * `a` of `assemble(root)`: an exception propagates before anything else
   * happens. Otherwise the root's element is returned; when an element carries
   * `idName` it gains the root's element as its last child, and when none does
   * the surface is left as `assemble` made it. Only the surface and the trace
   * change after `assemble`.
   */
  predicate Placed(a: Res<ElemRef>, r: Res<ElemRef>, v: ViewRef, idName: string)
  {
    && (a.out.Throw? ==> r == Res(a.w, Throw(a.out.error)))
    && (a.out.Ok? ==>
          var e := a.out.value;
          var box := GetElementById(a.w.dom, IdOf(idName));
          && r.w.views == a.w.views && r.w.cells == a.w.cells && |r.w.dom| == |a.w.dom|
          && (r.out.Ok? ==> v < |r.w.views| && e < |r.w.dom| && r.out.value == e && e == r.w.views[v].elem
                            && r.w.dom[e].idAttr == Uuid(r.w.views[v].uid))
          && (box.None? ==> r.w.dom == a.w.dom)
          && (box.Some? ==>
                && box.value != e && box.value < |a.w.dom| && e < |a.w.dom|
                && r.w.dom[box.value].children
                     == (if a.w.dom[e].parent == Some(box.value) then Without(a.w.dom[box.value].children, e)
                         else a.w.dom[box.value].children) + [e]
                && r.w.dom[e].parent == Some(box.value)))
  }

  /** `assembleView(root, idName)` places the root as `Placed` describes. */
  lemma AssembleViewPlaces(p: Program, w: World, v: ViewRef, idName: string, fuel: nat)
    ensures Placed(Assemble(p, w, v, fuel), AssembleView(p, w, v, fuel, idName), v, idName)
  {
    PlaceAfter(Assemble(p, w, v, fuel), v, idName, fuel);
  }

  /** What `assemble(root)` promises when it returns: the root's element, carrying the root's id. */
  predicate Assembled(a: Res<ElemRef>, v: ViewRef)
  {
    a.out.Ok? ==> v < |a.w.views| && a.out.value == a.w.views[v].elem && a.out.value < |a.w.dom|
                  && a.w.dom[a.out.value].idAttr == Uuid(a.w.views[v].uid)
  }

  /** Once `assemble` has returned as it promises, the rest of `assembleView` places the element as `Placed` describes. */
  lemma PlaceAfter(a: Res<ElemRef>, v: ViewRef, idName: string, fuel: nat)
    requires Assembled(a, v)
    ensures Placed(a, Place(a, v, idName, fuel), v, idName)
  {
    if a.out.Ok? {
      var e := a.out.value;
      var box := GetElementById(a.w.dom, IdOf(idName));
      if box.Some? {
        assert a.w.dom[box.value].idAttr.Named?;
        AppendChildLast(a.w.dom, box.value, e);
      }
    }
  }

  /**
   * `assembleView(root)` without an id uses the container `"fTutteS-Container"`:
   * the root's element goes under the element carrying that id, if there is one.
   */
  lemma DefaultContainerPlaces(p: Program, w: World, v: ViewRef, fuel: nat)
    ensures Placed(Assemble(p, w, v, fuel), AssembleView(p, w, v, fuel), v, "fTutteS-Container")
  {
    AssembleViewPlaces(p, w, v, "fTutteS-Container", fuel);
  }

  /**
   * `assembleView` runs `assembleComplete` once on the root after placing it: the
   * trace then grows by the `onAssembleComplete` calls of every view below the
   * root, in post-order.
   */
  lemma AssembleViewCompletes(p: Program, w: World, v: ViewRef, idName: string, fuel: nat, t: ViewProps.ViewTree)
    requires Assemble(p, w, v, fuel).out.Ok?
    requires t.view == v && ViewProps.Shaped(Assemble(p, w, v, fuel).w.views, t) && ViewProps.Deep(t, fuel)
    ensures var a := Assemble(p, w, v, fuel);
            var r := AssembleView(p, w, v, fuel, idName);
            r.out == a.out && r.w.trace == a.w.trace + ViewProps.Completions(t)
  {
    var a := Assemble(p, w, v, fuel);
    var box := GetElementById(a.w.dom, IdOf(idName));
    var w1 := if box.Some? then SetDom(a.w, AppendChild(a.w.dom, box.value, a.out.value)) else a.w;
    assert w1.views == a.w.views;
    ViewProps.AssembleCompleteIsPostOrder(w1, t, fuel);
  }

  // ---------------------------------------------------------------------------
  // The root's own onAssembleComplete is never called
  // ---------------------------------------------------------------------------

  /** The number of present nodes in a view tree. */
  function Size(t: ViewProps.ViewTree): (n: nat)
    ensures n >= 1
    decreases t, 1
  {
    1 + SizeFrom(t, 0)
  }

  function SizeFrom(t: ViewProps.ViewTree, i: nat): nat
    requires i <= |t.kids|
    decreases t, 0, |t.kids| - i
  {
    if i == |t.kids| then 0
    else (if t.kids[i].Some? then Size(t.kids[i].value) else 0) + SizeFrom(t, i + 1)
  }

  /** A present subtree is no larger than the kids from any earlier entry on. */
  lemma {:induction false} KidSmaller(t: ViewProps.ViewTree, i: nat, j: nat)
    requires j <= i < |t.kids| && t.kids[i].Some?
    ensures Size(t.kids[i].value) <= SizeFrom(t, j)
    decreases i - j
  {
    if j < i {
      KidSmaller(t, i, j + 1);
    }
  }

  /** The `viewChild` links determine the tree below a view: two trees they spell out from one view are equal. */
  lemma {:induction false} ShapedUnique(views: seq<ViewNode>, t1: ViewProps.ViewTree, t2: ViewProps.ViewTree)
    requires ViewProps.Shaped(views, t1) && ViewProps.Shaped(views, t2) && t1.view == t2.view
    ensures t1 == t2
    decreases t1
  {
    forall i | 0 <= i < |t1.kids| ensures t1.kids[i] == t2.kids[i] {
      if t1.kids[i].Some? {
        ShapedUnique(views, t1.kids[i].value, t2.kids[i].value);
      }
    }
  }

  /**
   * No `onAssembleComplete` of view `x` occurs below `t` when every tree the links
   * spell out from `x` has at least `n` nodes and `t` has at most `n`.
   */
  lemma {:induction false} NoCompletionOf(views: seq<ViewNode>, t: ViewProps.ViewTree, x: ViewRef, n: nat)
    requires ViewProps.Shaped(views, t) && Size(t) <= n
    requires forall d :: ViewProps.Shaped(views, d) && d.view == x ==> Size(d) >= n
    ensures HookRan(x, Hook.AssembleComplete) !in ViewProps.Completions(t)
    decreases t, 1
  {
    NoCompletionOfFrom(views, t, 0, x, n);
  }

  lemma {:induction false} NoCompletionOfFrom(views: seq<ViewNode>, t: ViewProps.ViewTree, i: nat, x: ViewRef, n: nat)
    requires ViewProps.Shaped(views, t) && Size(t) <= n && i <= |t.kids|
    requires forall d :: ViewProps.Shaped(views, d) && d.view == x ==> Size(d) >= n
    ensures HookRan(x, Hook.AssembleComplete) !in ViewProps.CompletionsFrom(t, i)
    decreases t, 0, |t.kids| - i
  {
    if i < |t.kids| {
      NoCompletionOfFrom(views, t, i + 1, x, n);
      if t.kids[i].Some? {
        var k := t.kids[i].value;
        KidSmaller(t, i, 0);
        NoCompletionOf(views, k, x, n);
        assert k.view != x;
      }
    }
  }

  /**
   * `assembleComplete` never calls the `onAssembleComplete` of the view it runs
   * on, so `assembleView` never calls the root's.
   */
  lemma RootNotCompleted(views: seq<ViewNode>, t: ViewProps.ViewTree)
    requires ViewProps.Shaped(views, t)
    ensures HookRan(t.view, Hook.AssembleComplete) !in ViewProps.Completions(t)
  {
    forall d | ViewProps.Shaped(views, d) && d.view == t.view ensures Size(d) >= Size(t) {
      ShapedUnique(views, d, t);
    }
    NoCompletionOf(views, t, t.view, Size(t));
  }
}

=== FILE: border_css.dfy ===
/** The `BorderCSS` style helper: a border description applied to an element's style. */
module BorderCss {
  import opened Values
  import opened Styles

  /** Constructor arguments; `None` is an argument left out. */
  datatype BorderArgs = BorderArgs(
    borderSize: Option<string>, borderProperty: Option<string>, color: Option<string>,
    radius: Option<string>,
    isTop: Option<bool>, isLeft: Option<bool>, isRight: Option<bool>, isBottom: Option<bool>)

  const NoArgs := BorderArgs(None, None, None, None, None, None, None, None)

  /** The stored properties, read back through the getters. `radius == None` is null. */
  datatype BorderCSS = BorderCSS(
    borderSize: string, borderProperty: string, color: string, radius: Option<string>,
    isTop: bool, isLeft: bool, isRight: bool, isBottom: bool)

  /** The constructor: every argument left out takes its default. */
  function New(a: BorderArgs): (b: BorderCSS)
    ensures a.borderSize.Some? ==> b.borderSize == a.borderSize.value
    ensures a.borderProperty.Some? ==> b.borderProperty == a.borderProperty.value
    ensures a.color.Some? ==> b.color == a.color.value
    ensures b.radius == a.radius
    ensures a.isTop.Some? ==> b.isTop == a.isTop.value
    ensures a.isLeft.Some? ==> b.isLeft == a.isLeft.value
    ensures a.isRight.Some? ==> b.isRight == a.isRight.value
    ensures a.isBottom.Some? ==> b.isBottom == a.isBottom.value
    ensures a.borderSize.None? ==> b.borderSize == "0px"
    ensures a.borderProperty.None? ==> b.borderProperty == "solid"
    ensures a.color.None? ==> b.color == "transparent"
    ensures a.isTop.None? ==> b.isTop
    ensures a.isLeft.None? ==> b.isLeft
    ensures a.isRight.None? ==> b.isRight
    ensures a.isBottom.None? ==> b.isBottom
  {
    BorderCSS(Or(a.borderSize, "0px"), Or(a.borderProperty, "solid"), Or(a.color, "transparent"), a.radius,
              Or(a.isTop, true), Or(a.isLeft, true), Or(a.isRight, true), Or(a.isBottom, true))
  }

  /** With no arguments the border is "0px solid transparent" on every side, with no radius. */
  lemma DefaultBorder()
    ensures New(NoArgs) == BorderCSS("0px", "solid", "transparent", None, true, true, true, true)
    ensures AssembleCSS(New(NoArgs)) == "0px solid transparent"
  {
  }

  /** `assembleCSS`: size, property and colour separated by single spaces. */
  function AssembleCSS(b: BorderCSS): (r: string)
    ensures |r| == |b.borderSize| + |b.borderProperty| + |b.color| + 2
  {
    b.borderSize + " " + b.borderProperty + " " + b.color
  }

  /** Splits a string at every space (as `s.split(" ")` does). */
  function Words(s: string): (r: seq<string>)
    ensures |r| >= 1
    decreases |s|
  {
    if s == [] then [""]
    else
      var rest := Words(s[1..]);
      if s[0] == ' ' then [""] + rest else [[s[0]] + rest[0]] + rest[1..]
  }

  lemma {:induction false} WordsOfWord(a: string)
    requires ' ' !in a
    ensures Words(a) == [a]
    decreases |a|
  {
    if a != [] {
      WordsOfWord(a[1..]);
      assert a == [a[0]] + a[1..];
    }
  }

  lemma {:induction false} WordsCons(a: string, t: string)
    requires ' ' !in a
    ensures Words(a + " " + t) == [a] + Words(t)
    decreases |a|
  {
    var s := a + " " + t;
    if a == [] {
      assert s == " " + t;
      assert s[1..] == t;
    } else {
      assert s[1..] == a[1..] + " " + t;
      WordsCons(a[1..], t);
      assert a == [a[0]] + a[1..];
    }
  }

  /**
   * The three parts can be read back from the assembled value whenever none of
   * them contains a space.
   */
  lemma AssembleCSSSplits(b: BorderCSS)
    requires ' ' !in b.borderSize && ' ' !in b.borderProperty && ' ' !in b.color
    ensures Words(AssembleCSS(b)) == [b.borderSize, b.borderProperty, b.color]
  {
    var r := AssembleCSS(b);
    assert r == b.borderSize + " " + (b.borderProperty + " " + b.color);
    WordsCons(b.borderSize, b.borderProperty + " " + b.color);
    WordsCons(b.borderProperty, b.color);
    WordsOfWord(b.color);
  }

  const Keys: set<string> := {"borderTop", "borderRight", "borderBottom", "borderLeft", "borderRadius"}

  /** A JavaScript string is truthy when it is not empty; null is falsy. */
  predicate Truthy(radius: Option<string>)
  {
    radius.Some? && radius.value != ""
  }

  /**
   * `applyCSS`: every enabled side gets the assembled border, the radius is set
   * only when truthy, and nothing else in the style changes.
   */
  function ApplyCSS(b: BorderCSS, s: Style): (r: Style)
    ensures b.isTop ==> Declared(r, "borderTop", AssembleCSS(b)) && "borderTop" in r
    ensures b.isRight ==> Declared(r, "borderRight", AssembleCSS(b)) && "borderRight" in r
    ensures b.isBottom ==> Declared(r, "borderBottom", AssembleCSS(b)) && "borderBottom" in r
    ensures b.isLeft ==> Declared(r, "borderLeft", AssembleCSS(b)) && "borderLeft" in r
    ensures !b.isTop ==> Same(s, r, "borderTop")
    ensures !b.isRight ==> Same(s, r, "borderRight")
    ensures !b.isBottom ==> Same(s, r, "borderBottom")
    ensures !b.isLeft ==> Same(s, r, "borderLeft")
    ensures Truthy(b.radius) ==> "borderRadius" in r && r["borderRadius"] == b.radius.value
    ensures !Truthy(b.radius) ==> Same(s, r, "borderRadius")
    ensures forall k :: k !in Keys ==> Same(s, r, k)
  {
    var v := AssembleCSS(b);
    var s1 := if b.isTop then Set(s, "borderTop", v) else s;
    var s2 := if b.isRight then Set(s1, "borderRight", v) else s1;
    var s3 := if b.isBottom then Set(s2, "borderBottom", v) else s2;
    var s4 := if b.isLeft then Set(s3, "borderLeft", v) else s3;
    if Truthy(b.radius) then Set(s4, "borderRadius", b.radius.value) else s4
  }
}

=== FILE: box_sides.dfy ===
/**
 * Resolution of the four box sides from the props of `Padding` and `Margin`
 * (padding.ts and margin.ts share the same constructor logic).
 */
module BoxSides {
  import opened Styles

  datatype SideProps = SideProps(all: Prop, top: Prop, right: Prop, bottom: Prop, left: Prop)

  /** The resolved sides, in the order top, right, bottom, left. */
  datatype Sides = Sides(top: Prop, right: Prop, bottom: Prop, left: Prop)

  /** `prop ?? "0px"`: null and undefined fall back to "0px". */
  function OrZero(p: Prop): (r: Prop)
    ensures r.Given?
    ensures p.Given? ==> r == p
    ensures !p.Given? ==> r == Given("0px")
  {
    if p.Given? then p else Given("0px")
  }

  /**
   * The constructor: each side defaults to "0px", and then, when `all !== undefined`,
   * `Object.assign` overwrites all four sides with `all`, even when `all` is "" and
   * even when a side was given.
   */
  function Resolve(p: SideProps): (r: Sides)
    ensures p.all != PropUndefined ==> r.top == p.all && r.right == p.all && r.bottom == p.all && r.left == p.all
    ensures p.all == PropUndefined ==>
      r.top == OrZero(p.top) && r.right == OrZero(p.right) && r.bottom == OrZero(p.bottom) && r.left == OrZero(p.left)
    ensures r.top != PropUndefined && r.right != PropUndefined && r.bottom != PropUndefined && r.left != PropUndefined
  {
    var sides := Sides(OrZero(p.top), OrZero(p.right), OrZero(p.bottom), OrZero(p.left));
    if p.all != PropUndefined then sides.(top := p.all, right := p.all, bottom := p.all, left := p.all)
    else sides
  }

  /**
   * The documented priority ("individual sides win over `all`") does not hold: a
   * given `top` is overridden by any `all` that is not undefined.
   */
  lemma AllBeatsIndividualSide(p: SideProps)
    requires p.all.Given? && p.top.Given? && p.top != p.all
    ensures Resolve(p).top != p.top
  {
  }

  /** The four properties a box-sides component owns: `prefix` followed by Top, Right, Bottom and Left. */
  function SideKeys(prefix: string): set<string>
  {
    {prefix + "Top", prefix + "Right", prefix + "Bottom", prefix + "Left"}
  }

  /** The four declarations `styledView` makes, in the order top, right, bottom, left. */
  function Declarations(prefix: string, sides: Sides): (d: seq<(string, string)>)
    ensures DistinctKeys(d)
  {
    var d := [(prefix + "Top", CssText(sides.top)), (prefix + "Right", CssText(sides.right)),
              (prefix + "Bottom", CssText(sides.bottom)), (prefix + "Left", CssText(sides.left))];
    assert forall i :: 0 <= i < |d| ==> |d[i].0| > |prefix| && d[i].0[|prefix|] == "TRBL"[i];
    d
  }

  /** `styledView` of `Padding` and `Margin`: sets exactly the four side declarations. */
  function StyledView(s: Style, prefix: string, sides: Sides): (r: Style)
    ensures Declared(r, prefix + "Top", CssText(sides.top)) && Declared(r, prefix + "Right", CssText(sides.right))
    ensures Declared(r, prefix + "Bottom", CssText(sides.bottom)) && Declared(r, prefix + "Left", CssText(sides.left))
    ensures forall k :: k !in SideKeys(prefix) ==> Same(s, r, k)
  {
    var d := Declarations(prefix, sides);
    assert d[0].0 == prefix + "Top" && d[1].0 == prefix + "Right" && d[2].0 == prefix + "Bottom" && d[3].0 == prefix + "Left";
    assert forall k :: k !in SideKeys(prefix) ==> forall i :: 0 <= i < |d| ==> d[i].0 != k;
    SetAllEffect(s, d);
    SetAll(s, d)
  }
}

=== FILE: cells.dfy ===
/**
 * `Provider` (provider.ts): lazy initialisation, the listener set, dependency
 * links made through `ref.watch`, and their removal. Updates and notification,
 * which can reach the views, are in module Propagation.
 */
module Cells {
  import opened Values
  import opened Observer
  import opened World

  /** What a call on a handle outside the cell arena throws. */
  const NotAProvider := TypeError("provider")

  /**
   * `Provider.createProvider(factory, name)`: a new uninitialised cell whose core
   * value is null, with logging on; a falsy name is replaced by `randomName`, the
   * value `Math.random` would have produced.
   */
  function CreateProvider(w: World, f: Factory, name: string, randomName: string): (r: (World, CellRef))
    ensures r.1 == |w.cells| && |r.0.cells| == |w.cells| + 1 && r.0.cells[..|w.cells|] == w.cells
    ensures r.0.cells[r.1] == Cell(if name != "" then name else randomName, Plain(f), Null, false, [], map[], true)
    ensures r.0 == w.(cells := r.0.cells) && Grows(w, r.0)
  {
    var cell := Cell(if name != "" then name else randomName, Plain(f), Null, false, [], map[], true);
    (w.(cells := w.cells + [cell]), |w.cells|)
  }

  /**
   * `read`. A `NotifierProvider` stores and returns its notifier. Any other cell
   * returns its stored value once initialised; otherwise its factory runs (after
   * `FactoryRun` is recorded), and only when the factory returns is the value
   * stored and the cell marked initialised. A factory that throws leaves the cell
   * uninitialised; effects it made before throwing remain. Running out of fuel is
   * the JavaScript stack overflow of a cyclic factory.
   */
  function Read(p: Program, w: World, c: CellRef, fuel: nat): (r: Res<Value>)
    ensures Grows(w, r.w)
    ensures c < |w.cells| && w.cells[c].kind.Plain? && w.cells[c].initialized ==> r == Res(w, Ok(w.cells[c].value))
    ensures c < |w.cells| && w.cells[c].kind.NotifierBacked? ==> r.out == Ok(NotifierInst(w.cells[c].kind.notifier))
    ensures c < |w.cells| && r.out.Ok? ==> r.w.cells[c].value == r.out.value
    ensures c < |w.cells| && w.cells[c].kind.Plain? && r.out.Ok? ==> r.w.cells[c].initialized
    ensures c >= |w.cells| ==> r == Res(w, Throw(NotAProvider))
    decreases fuel, 1
  {
    if c >= |w.cells| then Res(w, Throw(NotAProvider))
    else match w.cells[c].kind
      case NotifierBacked(n) =>
        Res(SetCell(w, c, w.cells[c].(value := NotifierInst(n))), Ok(NotifierInst(n)))
      case Plain(f) =>
        if w.cells[c].initialized then Res(w, Ok(w.cells[c].value))
        else if fuel == 0 then Res(w, Throw(RangeError))
        else RunFactory(p, w, c, f, fuel)
  }

  /**
   * The first `read` of plain provider `c`: the factory runs, and unless it
   * throws, the value it yields is stored and the provider counts as initialised.
   */
  function RunFactory(p: Program, w: World, c: CellRef, f: Factory, fuel: nat): (r: Res<Value>)
    requires c < |w.cells| && fuel > 0
    ensures Grows(w, r.w)
    ensures r.out.Ok? ==> r.w.cells[c].value == r.out.value && r.w.cells[c].initialized
    decreases fuel, 0
  {
    FactoryResult(p, RunSteps(p, Emit(w, FactoryRun(c)), c, f.steps, [], fuel - 1), c, f)
  }

  /**
   * The end of a factory run whose statements gave `s`: an exception from them or
   * from the factory itself escapes; otherwise the value is stored and returned.
   */
  function FactoryResult(p: Program, s: Res<seq<Value>>, c: CellRef, f: Factory): (r: Res<Value>)
    requires c < |s.w.cells|
    ensures Grows(s.w, r.w)
    ensures r.out.Ok? ==> r.w.cells[c].value == r.out.value && r.w.cells[c].initialized
  {
    if s.out.Throw? then Res(s.w, Throw(s.out.error))
    else if f.throws then Res(s.w, Throw(Thrown("factory")))
    else
      var v := p.results(f.result)(s.out.value);
      Res(SetCell(s.w, c, s.w.cells[c].(value := v, initialized := true)), Ok(v))
  }

  /**
   * The statements of cell `c`'s factory, in order: `ref.read` collects the value
   * read, `ref.watch` links `c` to a parent. The first exception stops the factory.
   */
  function RunSteps(p: Program, w: World, c: CellRef, steps: seq<RefStep>, acc: seq<Value>, fuel: nat): (r: Res<seq<Value>>)
    requires c < |w.cells|
    ensures Grows(w, r.w)
    ensures r.out.Ok? ==> acc <= r.out.value && |r.out.value| == |acc| + ReadCount(steps)
    decreases fuel, 2, |steps|
  {
    if steps == [] then Res(w, Ok(acc))
    else match steps[0]
      case RefRead(other) =>
        var rd := Read(p, w, other, fuel);
        if rd.out.Throw? then Res(rd.w, Throw(rd.out.error))
        else
          RunSteps(p, rd.w, c, steps[1..], acc + [rd.out.value], fuel)
      case RefWatch(parent, combine) =>
        var wt := RefWatch(w, c, parent, combine);
        if wt.out.Throw? then Res(wt.w, Throw(wt.out.error))
        else RunSteps(p, wt.w, c, steps[1..], acc, fuel)
  }

  /** The number of `ref.read` statements in a factory body. */
  function ReadCount(steps: seq<RefStep>): nat
  {
    if steps == [] then 0 else (if steps[0].RefRead? then 1 else 0) + ReadCount(steps[1..])
  }

  /**
   * `ref.watch(parent, combine)` inside the factory of `c`: the observer records
   * the dependency first; then a new `Dependency` subscribes a fresh listener to
   * the parent with `immediate: false` and is stored under the parent, replacing
   * any earlier link without unsubscribing it.
   */
  function RefWatch(w: World, c: CellRef, parent: CellRef, combine: nat): (r: Res<Unit>)
    requires c < |w.cells|
    ensures Grows(w, r.w) && r.w.trace == w.trace
    ensures r.w.obs == DependencyAdded(w.obs, c, parent)
    ensures parent >= |w.cells| ==> r.out.Throw? && r.w == w.(obs := r.w.obs)
    ensures parent < |w.cells| ==> r.out.Ok? && r.w.tokens == w.tokens + 1
    ensures parent < |w.cells| ==>
      var l := Propagate(w.tokens, c, combine);
      && r.w.cells[parent].listeners == SetAdd(w.cells[parent].listeners, l)
      && r.w.cells[c].deps == w.cells[c].deps[parent := Link(parent, l)]
    ensures parent < |w.cells| ==>
      var l := Propagate(w.tokens, c, combine);
      var cs := w.cells[parent := w.cells[parent].(listeners := SetAdd(w.cells[parent].listeners, l))];
      r.w == w.(obs := DependencyAdded(w.obs, c, parent), tokens := w.tokens + 1,
                cells := cs[c := cs[c].(deps := w.cells[c].deps[parent := Link(parent, l)])])
  {
    var w1 := w.(obs := DependencyAdded(w.obs, c, parent));
    if parent >= |w1.cells| then Res(w1, Throw(NotAProvider))
    else
      var l := Propagate(w1.tokens, c, combine);
      var w2 := SetCell(w1, parent, w1.cells[parent].(listeners := SetAdd(w1.cells[parent].listeners, l)));
      var w3 := w2.(tokens := w2.tokens + 1);
      Res(SetCell(w3, c, w3.cells[c].(deps := w3.cells[c].deps[parent := Link(parent, l)])), Ok(Unit))
  }

  /** The registration part of `watch`: the listener joins the set unless it is already a member. */
  function Subscribe(w: World, c: CellRef, l: Listener): (r: World)
    ensures Grows(w, r) && r.trace == w.trace
    ensures c < |w.cells| ==> r == w.(cells := w.cells[c := w.cells[c].(listeners := SetAdd(w.cells[c].listeners, l))])
    ensures c >= |w.cells| ==> r == w
  {
    if c < |w.cells| then SetCell(w, c, w.cells[c].(listeners := SetAdd(w.cells[c].listeners, l))) else w
  }

  /** The function `watch` returns: removes that listener from the set, if it is still there. */
  function Unwatch(w: World, c: CellRef, l: Listener): (r: World)
    ensures Grows(w, r) && r.trace == w.trace
    ensures c < |w.cells| ==> r == w.(cells := w.cells[c := w.cells[c].(listeners := SetDelete(w.cells[c].listeners, l))])
    ensures c >= |w.cells| ==> r == w
  {
    if c < |w.cells| then SetCell(w, c, w.cells[c].(listeners := SetDelete(w.cells[c].listeners, l))) else w
  }

  /**
   * `unsubscribedDependency(parent)`: when `c` has a link to `parent`, its listener
   * leaves the parent's set and the link is deleted; the observer is told only when
   * logging is on. Without a link nothing changes.
   */
  function UnsubscribedDependency(w: World, c: CellRef, parent: CellRef): (r: World)
    ensures Grows(w, r) && r.trace == w.trace
    ensures c >= |w.cells| || parent !in w.cells[c].deps ==> r == w
    ensures c < |w.cells| && parent in w.cells[c].deps ==> parent !in r.cells[c].deps
    ensures c < |w.cells| && parent in w.cells[c].deps ==>
      var link := w.cells[c].deps[parent];
      link.parent < |w.cells| ==> link.listener !in r.cells[link.parent].listeners
    ensures r.obs == if c < |w.cells| && parent in w.cells[c].deps && w.cells[c].logOn
                     then DependencyDeleted(w.obs, c, parent) else w.obs
    ensures c < |w.cells| && parent in w.cells[c].deps ==>
      var link := w.cells[c].deps[parent];
      var cs := if link.parent < |w.cells|
                then w.cells[link.parent := w.cells[link.parent].(listeners := SetDelete(w.cells[link.parent].listeners, link.listener))]
                else w.cells;
      r == w.(cells := cs[c := cs[c].(deps := w.cells[c].deps - {parent})], obs := r.obs)
  {
    if c < |w.cells| && parent in w.cells[c].deps then
      var link := w.cells[c].deps[parent];
      var w1 := Unwatch(w, link.parent, link.listener);
      var w2 := SetCell(w1, c, w1.cells[c].(deps := w1.cells[c].deps - {parent}));
      if w2.cells[c].logOn then w2.(obs := DependencyDeleted(w2.obs, c, parent)) else w2
    else w
  }

  /** `setIsActivedLog`. */
  function SetIsActivedLog(w: World, c: CellRef, on: bool): (r: World)
    ensures c < |w.cells| ==> r == w.(cells := w.cells[c := w.cells[c].(logOn := on)])
    ensures c >= |w.cells| ==> r == w
  {
    if c < |w.cells| then w.(cells := w.cells[c := w.cells[c].(logOn := on)]) else w
  }
}

=== FILE: dom.dfy ===
/**
 * The render surface: an arena of elements standing in for the browser DOM.
 * Element 0 is the document root; an element is live ("connected") when its
 * chain of parents reaches the root.
 */
module Dom {
  import opened Values
  import opened Styles

  type ElemRef = nat

  /** The `id` attribute of an element. View ids are UUIDs drawn from a fresh-value oracle. */
  datatype DomId = NoId | Uuid(n: nat) | Named(s: string)

  /** The `id` attribute that a string names; the empty string names no element. */
  function IdOf(s: string): DomId
  {
    if s == "" then NoId else Named(s)
  }

  datatype Element = Element(
    tag: string,
    idAttr: DomId,
    viewClass: string,          // dataset.viewClassName
    style: Style,
    text: string,               // textContent of a leaf
    children: seq<ElemRef>,
    parent: Option<ElemRef>)

  const DocumentRoot: ElemRef := 0

  function Blank(tag: string): Element
  {
    Element(tag, NoId, "", map[], "", [], None)
  }

  /** `document.createElement(tag)`: a new detached element at the end of the arena. */
  function CreateElement(dom: seq<Element>, tag: string): (r: (seq<Element>, ElemRef))
    ensures r.1 == |dom| && |r.0| == |dom| + 1 && r.0[..|dom|] == dom
    ensures r.0[r.1] == Blank(tag)
  {
    (dom + [Blank(tag)], |dom|)
  }

  /** `s` with every occurrence of `x` removed. */
  function Without(s: seq<ElemRef>, x: ElemRef): (r: seq<ElemRef>)
    ensures forall y :: y in r <==> y in s && y != x
    ensures |r| <= |s|
    ensures multiset(r) == multiset(s)[x := 0]
  {
    if s == [] then []
    else
      assert s == [s[0]] + s[1..];
      (if s[0] == x then [] else [s[0]]) + Without(s[1..], x)
  }

  /**
   * Removal keeps the order of the other entries: it works piece by piece, and a
   * single entry is dropped exactly when it is `x`.
   */
  lemma {:induction false} WithoutAppend(a: seq<ElemRef>, b: seq<ElemRef>, x: ElemRef)
    ensures Without(a + b, x) == Without(a, x) + Without(b, x)
    ensures |a| == 1 ==> Without(a, x) == if a[0] == x then [] else a
    decreases |a|
  {
    if a != [] {
      var h := if a[0] == x then [] else [a[0]];
      assert (a + b)[0] == a[0] && (a + b)[1..] == a[1..] + b;
      WithoutAppend(a[1..], b, x);
      assert Without(a + b, x) == h + (Without(a[1..], x) + Without(b, x));
      Regroup(h, Without(a[1..], x), Without(b, x), Without(a[1..], x) + Without(b, x));
    } else {
      assert a + b == b;
    }
  }

  /** Detaches `c` from its current parent, if it has one. */
  function Detach(dom: seq<Element>, c: ElemRef): (d: seq<Element>)
    requires c < |dom|
    ensures |d| == |dom| && d[c].parent == None
  {
    match dom[c].parent
    case None => dom
    case Some(p) =>
      var d := if p < |dom| then dom[p := dom[p].(children := Without(dom[p].children, c))] else dom;
      d[c := d[c].(parent := None)]
  }

  /**
   * What `Detach` does to the whole arena: `c` loses its parent, that old parent
   * loses `c` from its children (and nothing else), and every other element is
   * as it was.
   */
  lemma DetachEffect(dom: seq<Element>, c: ElemRef)
    requires c < |dom|
    ensures var d := Detach(dom, c);
      && d[c] == (if dom[c].parent == Some(c) then dom[c].(children := Without(dom[c].children, c)) else dom[c]).(parent := None)
      && forall e :: 0 <= e < |dom| && e != c ==>
           d[e] == if dom[c].parent == Some(e) then dom[e].(children := Without(dom[e].children, c)) else dom[e]
  {
  }

  /**
   * `p.appendChild(c)`: `c` leaves its old parent and becomes the last child of `p`.
   * References outside the arena leave the surface unchanged.
   */
  function AppendChild(dom: seq<Element>, p: ElemRef, c: ElemRef): (d: seq<Element>)
    ensures |d| == |dom|
    ensures !(p < |dom| && c < |dom| && p != c) ==> d == dom
  {
    if p < |dom| && c < |dom| && p != c then
      var d1 := Detach(dom, c);
      var d2 := d1[p := d1[p].(children := d1[p].children + [c])];
      d2[c := d2[c].(parent := Some(p))]
    else dom
  }

  /**
   * What `p.appendChild(c)` does to the whole arena: `c` becomes the last child of
   * `p` (leaving `p`'s list first if it was there) and has `p` as its parent; a
   * different old parent loses `c` from its children; every other element is as
   * it was.
   */
  lemma AppendChildEffect(dom: seq<Element>, p: ElemRef, c: ElemRef)
    requires p < |dom| && c < |dom| && p != c
    ensures var d := AppendChild(dom, p, c);
      && d[p] == dom[p].(children := (if dom[c].parent == Some(p) then Without(dom[p].children, c) else dom[p].children) + [c])
      && d[c] == (if dom[c].parent == Some(c) then dom[c].(children := Without(dom[c].children, c)) else dom[c]).(parent := Some(p))
      && forall e :: 0 <= e < |dom| && e != p && e != c ==>
           d[e] == if dom[c].parent == Some(e) then dom[e].(children := Without(dom[e].children, c)) else dom[e]
  {
    DetachEffect(dom, c);
  }

  /** `p.removeChild(p.firstChild)`. */
  function RemoveFirstChild(dom: seq<Element>, p: ElemRef): (d: seq<Element>)
    requires p < |dom| && dom[p].children != []
    ensures |d| == |dom| && d[p].children == dom[p].children[1..]
  {
    var c := dom[p].children[0];
    var d := dom[p := dom[p].(children := dom[p].children[1..])];
    if c < |d| && c != p && d[c].parent == Some(p) then d[c := d[c].(parent := None)] else d
  }

  /** `while (p.firstChild) p.removeChild(p.firstChild)`. */
  function RemoveAllChildren(dom: seq<Element>, p: ElemRef): (d: seq<Element>)
    requires p < |dom|
    ensures |d| == |dom| && d[p].children == []
    decreases |dom[p].children|
  {
    if dom[p].children == [] then dom else RemoveAllChildren(RemoveFirstChild(dom, p), p)
  }

  /**
   * `e.cloneNode(true)` of an element produced by `createWrapView`: such an element has
   * no element children in this model, so the deep copy keeps its attributes, styles and text.
   */
  function CloneNode(dom: seq<Element>, e: ElemRef): (r: (seq<Element>, ElemRef))
    requires e < |dom|
    ensures r.1 == |dom| && |r.0| == |dom| + 1 && r.0[..|dom|] == dom
  {
    (dom + [dom[e].(children := [], parent := None)], |dom|)
  }

  /** Sets the `id` attribute and `dataset.viewClassName` of `e`. */
  function Stamp(dom: seq<Element>, e: ElemRef, id: DomId, viewClass: string): (d: seq<Element>)
    ensures |d| == |dom|
    ensures e < |dom| ==> d[e] == dom[e].(idAttr := id, viewClass := viewClass)
    ensures forall j :: 0 <= j < |dom| && j != e ==> d[j] == dom[j]
  {
    if e < |dom| then dom[e := dom[e].(idAttr := id, viewClass := viewClass)] else dom
  }

  /** Whether the parent chain of `e` reaches the document root within `fuel` steps. */
  predicate Connected(dom: seq<Element>, e: ElemRef, fuel: nat)
    decreases fuel
  {
    e == DocumentRoot ||
    (fuel > 0 && e < |dom| && dom[e].parent.Some? && Connected(dom, dom[e].parent.value, fuel - 1))
  }

  predicate Live(dom: seq<Element>, e: ElemRef)
  {
    Connected(dom, e, |dom|)
  }

  /** The first live element at or after index `i` whose id is `id`. */
  function FindLive(dom: seq<Element>, id: DomId, i: nat): (r: Option<ElemRef>)
    requires i <= |dom|
    ensures r.Some? ==> i <= r.value < |dom| && dom[r.value].idAttr == id && Live(dom, r.value)
    ensures r.Some? ==> forall j :: i <= j < r.value ==> !(dom[j].idAttr == id && Live(dom, j))
    ensures r.None? ==> forall j :: i <= j < |dom| ==> !(dom[j].idAttr == id && Live(dom, j))
    decreases |dom| - i
  {
    if i == |dom| then None
    else if dom[i].idAttr == id && Live(dom, i) then Some(i)
    else FindLive(dom, id, i + 1)
  }

  /**
   * `document.getElementById(id)`: the live element carrying `id`, or None. Document
   * order is replaced by arena order; the two agree whenever at most one live element
   * carries the id, which is the case for view UUIDs.
   */
  function GetElementById(dom: seq<Element>, id: DomId): (r: Option<ElemRef>)
    ensures r.Some? ==> id != NoId && r.value < |dom| && dom[r.value].idAttr == id && Live(dom, r.value)
    ensures r.None? && id != NoId ==> forall j :: 0 <= j < |dom| ==> !(dom[j].idAttr == id && Live(dom, j))
  {
    if id == NoId then None else FindLive(dom, id, 0)
  }
}

=== FILE: margin.dfy ===
/** The `Margin` component: the four `margin` declarations of its box sides. */
module Margin {
  import opened Styles
  import BoxSides

  const Prefix := "margin"

  /** `styledView`: sets exactly the four margin declarations to the resolved sides. */
  function StyledView(s: Style, sides: BoxSides.Sides): (r: Style)
    ensures Declared(r, "marginTop", CssText(sides.top)) && Declared(r, "marginRight", CssText(sides.right))
    ensures Declared(r, "marginBottom", CssText(sides.bottom)) && Declared(r, "marginLeft", CssText(sides.left))
    ensures forall k :: k !in {"marginTop", "marginRight", "marginBottom", "marginLeft"} ==> Same(s, r, k)
  {
    assert Prefix + "Top" == "marginTop" && Prefix + "Right" == "marginRight";
    assert Prefix + "Bottom" == "marginBottom" && Prefix + "Left" == "marginLeft";
    BoxSides.StyledView(s, Prefix, sides)
  }
}

=== FILE: notifier_props.dfy ===
/**
 * Properties of `Notifier` and `NotifierProvider`: the state is built lazily by
 * `build()`, `update` and `watch` act on the notifier's own provider, and a
 * `NotifierProvider` forwards every change of its notifier to its own listeners,
 * which are called twice per change (once by its `update(cur => cur)` and once by
 * its explicit `notifyListeners(read())`).
 */
module NotifierProps {
  import opened Values
  import opened Observer
  import opened World
  import Cells
  import opened Propagation
  import opened ProviderProps

  /**
   * A new notifier has no state until `state` is first read; that read runs
   * `build()` once, and later reads return the stored state without effect.
   */
  lemma NotifierBuildsLazily(p: Program, w: World, className: string, build: nat, randomName: string, fuel: nat, fuel': nat)
    requires fuel > 0
    ensures var (w1, n) := NewNotifier(w, className, build, false, randomName);
            var s := NotifierState(p, w1, n, fuel);
            && !w1.cells[|w.cells|].initialized
            && s.out == Ok(p.results(build)([]))
            && s.w.trace == w.trace + [FactoryRun(|w.cells|)]
            && NotifierState(p, s.w, n, fuel') == Res(s.w, s.out)
  {
    var (w1, n) := NewNotifier(w, className, build, false, randomName);
    assert NotifierCell(w1, n) == |w.cells|;
    var s := NotifierState(p, w1, n, fuel);
    assert Cells.RunSteps(p, Emit(w1, FactoryRun(|w.cells|)), |w.cells|, [], [], fuel - 1)
      == Res(Emit(w1, FactoryRun(|w.cells|)), Ok([]));
    ReadOnceThenCached(p, w1, |w.cells|, fuel, fuel');
  }

  /**
   * `update(f)` of a notifier whose state exists and whose listeners only leave a
   * trace: the next `state` is `f` of the previous one.
   */
  lemma NotifierUpdateState(p: Program, w: World, n: NotifierRef, f: nat, fuel: nat, fuel': nat)
    requires n < |w.notifiers| && HasValue(w, w.notifiers[n].cell)
    requires QuietListeners(w, w.cells[w.notifiers[n].cell].listeners)
    requires !p.updaterThrows(f)(w.cells[w.notifiers[n].cell].value)
    ensures var before := NotifierState(p, w, n, fuel).out;
            var u := NotifierUpdate(p, w, n, f, fuel);
            && before.Ok? && u.out.Ok?
            && NotifierState(p, u.w, n, fuel').out == Ok(p.updaters(f)(before.value))
  {
    var c := w.notifiers[n].cell;
    UpdateQuiet(p, w, c, Apply(f), fuel);
  }

  /** `watch(l)` of a notifier with a state: `l` is subscribed and called once with the state. */
  lemma NotifierWatchFiresOnce(p: Program, w: World, n: NotifierRef, tag: nat, fuel: nat)
    requires n < |w.notifiers| && HasValue(w, w.notifiers[n].cell)
    ensures var c := w.notifiers[n].cell;
            var v := w.cells[c].value;
            var r := NotifierWatch(p, w, n, Record(tag), fuel);
            && r.out == Ok(Unit)
            && r.w.cells[c].listeners == SetAdd(w.cells[c].listeners, Record(tag))
            && r.w.trace == w.trace + [Fired(c, Record(tag), v), Received(tag, v)]
  {
    WatchRecordFiresOnce(p, w, w.notifiers[n].cell, tag, fuel);
  }

  /** `read` of a `NotifierProvider` returns its notifier and never runs a factory. */
  lemma NotifierProviderRead(p: Program, w: World, np: CellRef, fuel: nat)
    requires np < |w.cells| && w.cells[np].kind.NotifierBacked?
    ensures var r := Cells.Read(p, w, np, fuel);
            && r.out == Ok(NotifierInst(w.cells[np].kind.notifier))
            && r.w.trace == w.trace && r.w.obs == w.obs
            && r.w.cells == w.cells[np := w.cells[np].(value := NotifierInst(w.cells[np].kind.notifier))]
  {
  }

  /**
   * `new NotifierProvider(() => new N())` with a `build` that returns: the
   * provider comes first (so its handle is returned), the notifier's provider
   * second; the provider's logging is off; watching the notifier immediately
   * builds its state and calls the new listener once, which updates the provider
   * with the identity, storing the notifier. The observer is not told anything.
   */
  lemma NotifierProviderConstruction(p: Program, w: World, className: string, build: nat, randomName: string, fuel: nat)
    ensures var np := |w.cells|;
            var nc := |w.cells| + 1;
            var n := |w.notifiers|;
            var l := Bridge(w.tokens, np);
            var val := p.results(build)([]);
            var provider := Cell("", NotifierBacked(n), NotifierInst(n), false, [], map[], false);
            var notifier := Cell(if className != "" then className else randomName, Plain(Factory([], build, false)), val, true, [l], map[], true);
            NewNotifierProvider(p, w, className, build, false, randomName, fuel + 1)
              == Res(w.(cells := w.cells + [provider, notifier], notifiers := w.notifiers + [NotifierObj(className, nc)],
                        tokens := w.tokens + 1, trace := w.trace + [FactoryRun(nc), Fired(nc, l, val), Stored(np, NotifierInst(n))]),
                     Ok(np))
  {
    var np := |w.cells|;
    var nc := |w.cells| + 1;
    var n := |w.notifiers|;
    var ni := NotifierInst(n);
    var l := Bridge(w.tokens, np);
    var val := p.results(build)([]);
    var w8 := WatchCalled(p, w, className, build, randomName);
    assert QuietNotifierProvider(w8, np) && w8.cells[np].kind.notifier == n && w8.cells[np].listeners == [];
    var d := Echoes(np, w8.cells[np].listeners, ni);
    assert d == [];
    var w9 := w8.(cells := w8.cells[np := w8.cells[np].(value := ni)], trace := w8.trace + [Stored(np, ni)] + d + d);
    assert w9.cells == w.cells + [Cell("", NotifierBacked(n), ni, false, [], map[], false),
      Cell(if className != "" then className else randomName, Plain(Factory([], build, false)), val, true, [l], map[], true)];
    assert w9.trace == w.trace + [FactoryRun(nc), Fired(nc, l, val), Stored(np, ni)];
    assert w9 == w.(cells := w9.cells, notifiers := w.notifiers + [NotifierObj(className, nc)], tokens := w.tokens + 1, trace := w9.trace);
    BridgedNotifiesTwice(p, w8, np, fuel);
    WatchBuildsNotifier(p, w, className, build, randomName, fuel);
    ConstructionWatches(p, w, className, build, randomName, fuel + 1);
  }

  /**
   * The page inside `new NotifierProvider(...)` just before `watch`: the provider
   * and the notifier's provider exist, the provider's logging is off and the
   * listener's token is taken.
   */
  function BeforeWatch(w: World, className: string, build: nat, randomName: string): World
  {
    var n := |w.notifiers|;
    w.(cells := w.cells + [Cell("", NotifierBacked(n), Null, false, [], map[], false),
                           Cell(if className != "" then className else randomName, Plain(Factory([], build, false)), Null, false, [], map[], true)],
       notifiers := w.notifiers + [NotifierObj(className, |w.cells| + 1)],
       tokens := w.tokens + 1)
  }

  /** The page once `watch` has subscribed the listener, run `build` and is about to call the listener. */
  function WatchCalled(p: Program, w: World, className: string, build: nat, randomName: string): World
  {
    var b := BeforeWatch(w, className, build, randomName);
    var nc := |w.cells| + 1;
    var l := Bridge(w.tokens, |w.cells|);
    var val := p.results(build)([]);
    b.(cells := b.cells[nc := b.cells[nc].(value := val, initialized := true, listeners := [l])],
       trace := b.trace + [FactoryRun(nc), Fired(nc, l, val)])
  }

  /** The constructor's steps before `watch`, and the handle it returns. */
  lemma ConstructionWatches(p: Program, w: World, className: string, build: nat, randomName: string, fuel: nat)
    ensures var wt := Watch(p, BeforeWatch(w, className, build, randomName), |w.cells| + 1, Bridge(w.tokens, |w.cells|), true, fuel);
            NewNotifierProvider(p, w, className, build, false, randomName, fuel)
              == Res(wt.w, if wt.out.Throw? then Throw(wt.out.error) else Ok(|w.cells|))
  {
    var np := |w.cells|;
    var n := |w.notifiers|;
    var w1 := w.(cells := w.cells + [Cell("", NotifierBacked(n), Null, false, [], map[], true)]);
    var (w2, n') := NewNotifier(w1, className, build, false, randomName);
    var w3 := Cells.SetIsActivedLog(w2, np, false);
    assert w3.(tokens := w3.tokens + 1) == BeforeWatch(w, className, build, randomName);
  }

  /** `watch` with `immediate` on the new notifier: subscribe, run `build`, then call the listener with its result. */
  lemma WatchBuildsNotifier(p: Program, w: World, className: string, build: nat, randomName: string, fuel: nat)
    ensures var wb := BeforeWatch(w, className, build, randomName);
            Watch(p, wb, |w.cells| + 1, Bridge(w.tokens, |w.cells|), true, fuel + 1)
              == Bridged(p, WatchCalled(p, w, className, build, randomName), |w.cells|, fuel)
  {
    ReadBuildsNotifier(p, w, className, build, randomName, fuel);
  }

  /** The `read` inside that `watch`: the new notifier's `build` runs once and its result is stored. */
  lemma ReadBuildsNotifier(p: Program, w: World, className: string, build: nat, randomName: string, fuel: nat)
    ensures var nc := |w.cells| + 1;
            var l := Bridge(w.tokens, |w.cells|);
            var rd := Cells.Read(p, Cells.Subscribe(BeforeWatch(w, className, build, randomName), nc, l), nc, fuel + 1);
            var val := p.results(build)([]);
            rd.out == Ok(val) && Emit(rd.w, Fired(nc, l, val)) == WatchCalled(p, w, className, build, randomName)
  {
    var wb := BeforeWatch(w, className, build, randomName);
    var nc := |w.cells| + 1;
    var l := Bridge(w.tokens, |w.cells|);
    var w5 := Cells.Subscribe(wb, nc, l);
    assert w5.cells[nc].listeners == [l];
    var w6 := Emit(w5, FactoryRun(nc));
    var val := p.results(build)([]);
    assert Emit(SetCell(w6, nc, w6.cells[nc].(value := val, initialized := true)), Fired(nc, l, val))
      == WatchCalled(p, w, className, build, randomName);
    assert Cells.RunSteps(p, w6, nc, [], [], fuel) == Res(w6, Ok([]));
  }

  /** A `NotifierProvider` whose logging is off and whose listeners only leave a trace. */
  predicate QuietNotifierProvider(w: World, np: CellRef)
  {
    np < |w.cells| && w.cells[np].kind.NotifierBacked? && !w.cells[np].logOn
    && forall l :: l in w.cells[np].listeners ==> l.Record?
  }

  /**
   * The listener a `NotifierProvider` puts on its notifier: the provider stores its
   * notifier again, and each listener of the provider is called twice, first
   * from the provider's `update(cur => cur)` and then from its
   * `notifyListeners(read())`. The provider's logging is off, so the observer is
   * not told.
   */
  lemma BridgedNotifiesTwice(p: Program, w: World, np: CellRef, fuel: nat)
    requires QuietNotifierProvider(w, np)
    ensures var ni := NotifierInst(w.cells[np].kind.notifier);
            var d := Echoes(np, w.cells[np].listeners, ni);
            Bridged(p, w, np, fuel)
              == Res(w.(cells := w.cells[np := w.cells[np].(value := ni)], trace := w.trace + [Stored(np, ni)] + d + d), Ok(Unit))
  {
    var ni := NotifierInst(w.cells[np].kind.notifier);
    var ls := w.cells[np].listeners;
    var d := Echoes(np, ls, ni);
    var w0 := SetCell(w, np, w.cells[np].(value := ni));
    assert Cells.Read(p, w, np, fuel) == Res(w0, Ok(ni));
    assert SetCell(w0, np, w0.cells[np].(value := ni)) == w0 by {
      assert w0.cells[np := w0.cells[np].(value := ni)] == w0.cells;
    }
    var w1 := Emit(w0, Stored(np, ni));
    assert w1.cells[np].listeners == ls;
    NotifyQuiet(p, w1, np, ni, ls, fuel);
    var w2 := w1.(trace := w1.trace + d);
    assert Update(p, w, np, Identity, fuel) == Notify(p, w1, np, ni, ls, fuel);
    assert Cells.Read(p, w2, np, fuel) == Res(w2, Ok(ni)) by {
      assert w2.cells[np := w2.cells[np].(value := ni)] == w2.cells;
    }
    NotifyQuiet(p, w2, np, ni, ls, fuel);
    assert w2.trace + d == w.trace + [Stored(np, ni)] + d + d;
  }

  /** `notifyListeners(v)` on a notifier's provider whose only listener is the link to a `NotifierProvider`. */
  lemma NotifyThroughBridge(p: Program, w: World, nc: CellRef, v: Value, np: CellRef, t: nat, fuel: nat)
    requires QuietNotifierProvider(w, np)
    ensures var ni := NotifierInst(w.cells[np].kind.notifier);
            var d := Echoes(np, w.cells[np].listeners, ni);
            var r := Notify(p, w, nc, v, [Bridge(t, np)], fuel + 1);
            r.out == Ok(Unit) && r.w.trace == w.trace + [Fired(nc, Bridge(t, np), v), Stored(np, ni)] + d + d
  {
    var w1 := Emit(w, Fired(nc, Bridge(t, np), v));
    BridgedNotifiesTwice(p, w1, np, fuel);
    NotifyOne(p, w, nc, v, Bridge(t, np), fuel + 1);
    AppendPair(w.trace, Fired(nc, Bridge(t, np), v), Stored(np, NotifierInst(w.cells[np].kind.notifier)));
  }

  /**
   * Once a `NotifierProvider` is linked to its notifier, each `update` of the
   * notifier stores the new state, calls the link once, and through it calls an
   * application listener of the provider twice with the notifier.
   */
  lemma NotifierProviderFiresTwice(p: Program, w: World, n: NotifierRef, np: CellRef, t: nat, tag: nat, f: nat, fuel: nat)
    requires n < |w.notifiers| && np < |w.cells|
    requires var nc := w.notifiers[n].cell;
             && HasValue(w, nc) && nc != np && w.cells[nc].listeners == [Bridge(t, np)] && !p.updaterThrows(f)(w.cells[nc].value)
             && w.cells[np].kind == NotifierBacked(n) && !w.cells[np].logOn && w.cells[np].listeners == [Record(tag)]
    ensures var nc := w.notifiers[n].cell;
            var next := p.updaters(f)(w.cells[nc].value);
            var d := [Fired(np, Record(tag), NotifierInst(n)), Received(tag, NotifierInst(n))];
            var r := NotifierUpdate(p, w, n, f, fuel + 1);
            && r.out == Ok(Unit)
            && r.w.trace == w.trace + [Stored(nc, next), Fired(nc, Bridge(t, np), next), Stored(np, NotifierInst(n))] + d + d
  {
    var nc := w.notifiers[n].cell;
    var next := p.updaters(f)(w.cells[nc].value);
    var w2 := AfterStore(p, w, nc, Apply(f));
    Regroup(w.trace, [Stored(nc, next)], [Fired(nc, Bridge(t, np), next), Stored(np, NotifierInst(n))],
      [Stored(nc, next), Fired(nc, Bridge(t, np), next), Stored(np, NotifierInst(n))]);
    assert Echoes(np, [Record(tag)], NotifierInst(n)) == [Fired(np, Record(tag), NotifierInst(n)), Received(tag, NotifierInst(n))];
    NotifyThroughBridge(p, w2, nc, next, np, t, fuel);
    UpdateStoresBeforeNotifying(p, w, nc, Apply(f), fuel + 1);
  }
}

=== FILE: observer.dfy ===
/**
 * `ProviderObserver`: the process-wide registry of provider dependencies and of
 * the update history. Providers are named by their handles in the cell arena.
 */
module Observer {
  import opened Values

  type CellRef = nat

  /** One entry of the update history; timestamps and stack traces are not kept. */
  datatype UpdateRecord = UpdateRecord(provider: string, oldValue: Value, newValue: Value)

  /**
   * The observer's data. `graph` maps a child provider to its parents (a set kept in
   * insertion order); `keys` lists the children in the order they entered the map.
   */
  datatype ObserverState = ObserverState(
    graph: map<CellRef, seq<CellRef>>,
    keys: seq<CellRef>,
    history: seq<UpdateRecord>,
    outLogs: bool)

  /** `keys` enumerates the map's keys once each, and every parent set is duplicate-free. */
  predicate Valid(s: ObserverState)
  {
    && Distinct(s.keys)
    && (forall k :: k in s.graph ==> k in s.keys)
    && (forall k :: k in s.keys ==> k in s.graph)
    && (forall k :: k in s.graph ==> Distinct(s.graph[k]))
  }

  /** The state the first construction installs: no dependencies, no history, console output on. */
  const Empty := ObserverState(map[], [], [], true)

  lemma EmptyIsValid()
    ensures Valid(Empty)
  {
  }

  /** `outLogs`: only the console switch changes. */
  function OutLogs(s: ObserverState, on: bool): (r: ObserverState)
    ensures r.graph == s.graph && r.keys == s.keys && r.history == s.history && r.outLogs == on
  {
    s.(outLogs := on)
  }

  /** `addDependency`: creates the child's set when absent, then adds the parent to it. */
  function DependencyAdded(s: ObserverState, child: CellRef, parent: CellRef): (r: ObserverState)
    ensures Valid(s) ==> Valid(r)
    ensures child in r.graph && parent in r.graph[child]
    ensures forall q :: q in r.graph[child] <==> q == parent || (child in s.graph && q in s.graph[child])
    ensures forall k :: k != child ==> (k in r.graph <==> k in s.graph) && (k in s.graph ==> r.graph[k] == s.graph[k])
    ensures r.keys == if child in s.graph then s.keys else s.keys + [child]
    ensures r.history == s.history && r.outLogs == s.outLogs
  {
    var parents := if child in s.graph then s.graph[child] else [];
    s.(graph := s.graph[child := SetAdd(parents, parent)],
       keys := if child in s.graph then s.keys else s.keys + [child])
  }

  /** Adding the same dependency twice is the same as adding it once. */
  lemma AddDependencyIdempotent(s: ObserverState, child: CellRef, parent: CellRef)
    ensures DependencyAdded(DependencyAdded(s, child, parent), child, parent) == DependencyAdded(s, child, parent)
  {
  }

  /**
   * `deleteDependency`: removes the parent from a known child's set and keeps the
   * child's key even when its set becomes empty; an unknown child changes nothing.
   */
  function DependencyDeleted(s: ObserverState, child: CellRef, parent: CellRef): (r: ObserverState)
    ensures Valid(s) ==> Valid(r)
    ensures r.keys == s.keys && r.graph.Keys == s.graph.Keys
    ensures child in s.graph ==> forall q :: q in r.graph[child] <==> q in s.graph[child] && q != parent
    ensures forall k :: k in s.graph && k != child ==> r.graph[k] == s.graph[k]
    ensures child !in s.graph ==> r == s
    ensures r.history == s.history && r.outLogs == s.outLogs
  {
    if child in s.graph then s.(graph := s.graph[child := SetDelete(s.graph[child], parent)]) else s
  }

  /** Deleting a dependency that was just added from a fresh child leaves an empty, still-present set. */
  lemma AddThenDeleteKeepsKey(s: ObserverState, child: CellRef, parent: CellRef)
    requires child !in s.graph
    ensures var r := DependencyDeleted(DependencyAdded(s, child, parent), child, parent);
      child in r.graph && r.graph[child] == [] && r.keys == s.keys + [child]
  {
    var a := DependencyAdded(s, child, parent);
    assert a.graph[child] == [parent];
    assert SetDelete([parent], parent) == SetDelete([], parent) == [];
  }

  const ViewIdInfix := "__viewId:"
  const LargeObject := "Large Object (simplified)"

  /**
   * How `logUpdate` records a value: an object with a truthy `props.id` becomes
   * "<ClassName>__viewId:<id>", and a value the size check finds large becomes the
   * large-object marker, which wins over the first rule.
   */
  function ForLog(v: Value, isLarge: Value -> bool): (r: Value)
    ensures isLarge(v) ==> r == Str(LargeObject)
    ensures !isLarge(v) && v.Obj? && v.propsId != "" ==> r == Str(v.className + ViewIdInfix + v.propsId)
    ensures !isLarge(v) && !(v.Obj? && v.propsId != "") ==> r == v
  {
    var r := if v.Obj? && v.propsId != "" then Str(v.className + ViewIdInfix + v.propsId) else v;
    if isLarge(v) then Str(LargeObject) else r
  }

  /** `logUpdate`: appends one record under the provider's name; earlier records stay as they were. */
  function UpdateLogged(s: ObserverState, name: string, oldValue: Value, newValue: Value, isLarge: Value -> bool): (r: ObserverState)
    ensures |r.history| == |s.history| + 1 && r.history[..|s.history|] == s.history
    ensures r.history[|s.history|] == UpdateRecord(name, ForLog(oldValue, isLarge), ForLog(newValue, isLarge))
    ensures r.graph == s.graph && r.keys == s.keys && r.outLogs == s.outLogs
  {
    s.(history := s.history + [UpdateRecord(name, ForLog(oldValue, isLarge), ForLog(newValue, isLarge))])
  }

  /** The records of `h` made under `name`, in their original order. */
  function Filter(h: seq<UpdateRecord>, name: string): (r: seq<UpdateRecord>)
    ensures |r| <= |h|
    ensures forall x :: x in r <==> x in h && x.provider == name
  {
    if h == [] then [] else Filter(h[..|h| - 1], name) + (if h[|h| - 1].provider == name then [h[|h| - 1]] else [])
  }

  /** Filtering distributes over concatenation, so later records never disturb earlier results. */
  lemma {:induction false} FilterAppend(h1: seq<UpdateRecord>, h2: seq<UpdateRecord>, name: string)
    ensures Filter(h1 + h2, name) == Filter(h1, name) + Filter(h2, name)
    decreases |h2|
  {
    if h2 == [] {
      assert h1 + h2 == h1;
    } else {
      var h2' := h2[..|h2| - 1];
      var last := h2[|h2| - 1];
      var tail := if last.provider == name then [last] else [];
      assert (h1 + h2)[..|h1 + h2| - 1] == h1 + h2';
      assert (h1 + h2)[|h1 + h2| - 1] == last;
      assert Filter(h1 + h2, name) == Filter(h1 + h2', name) + tail;
      FilterAppend(h1, h2', name);
      assert Filter(h2, name) == Filter(h2', name) + tail;
    }
  }

  /** After `logUpdate`, the filtered history of the logged name gains exactly the new record. */
  lemma LogUpdateExtendsFilter(s: ObserverState, name: string, oldValue: Value, newValue: Value, isLarge: Value -> bool, query: string)
    ensures var r := UpdateLogged(s, name, oldValue, newValue, isLarge);
      Filter(r.history, query) == Filter(s.history, query) + (if query == name then [r.history[|s.history|]] else [])
  {
    var r := UpdateLogged(s, name, oldValue, newValue, isLarge);
    assert r.history[..|r.history| - 1] == s.history;
  }

  /** `Array.map` of provider names over a parent list. */
  function Names(ps: seq<CellRef>, names: seq<string>): (r: seq<string>)
    ensures |r| == |ps|
    ensures forall i :: 0 <= i < |ps| ==> r[i] == NameOf(ps[i], names)
  {
    if ps == [] then [] else [NameOf(ps[0], names)] + Names(ps[1..], names)
  }

  /**
   * `getDependencyGraph` over the children `keys`: each child's name is mapped to its
   * parents' names; a later child with the same name overwrites the entry.
   */
  function GraphOf(s: ObserverState, keys: seq<CellRef>, names: seq<string>): (r: map<string, seq<string>>)
    requires forall k :: k in keys ==> k in s.graph
    decreases |keys|
  {
    if keys == [] then map[]
    else
      var k := keys[|keys| - 1];
      GraphOf(s, keys[..|keys| - 1], names)[NameOf(k, names) := Names(s.graph[k], names)]
  }

  function DependencyGraph(s: ObserverState, names: seq<string>): (r: map<string, seq<string>>)
    requires Valid(s)
  {
    GraphOf(s, s.keys, names)
  }

  /** The names of the dependency graph are exactly the names of the children. */
  lemma {:induction false} GraphOfDomain(s: ObserverState, keys: seq<CellRef>, names: seq<string>)
    requires forall k :: k in keys ==> k in s.graph
    ensures GraphOf(s, keys, names).Keys == set k | k in keys :: NameOf(k, names)
    decreases |keys|
  {
    if keys != [] {
      var init := keys[..|keys| - 1];
      var k := keys[|keys| - 1];
      assert keys == init + [k];
      GraphOfDomain(s, init, names);
      assert (set x | x in keys :: NameOf(x, names)) == (set x | x in init :: NameOf(x, names)) + {NameOf(k, names)};
    }
  }

  /**
   * A child whose name no later child shares is listed under its own name with
   * exactly its parents' names, in the order they were added.
   */
  lemma {:induction false} GraphOfLookup(s: ObserverState, keys: seq<CellRef>, names: seq<string>, i: nat)
    requires forall k :: k in keys ==> k in s.graph
    requires i < |keys|
    requires forall j :: i < j < |keys| ==> NameOf(keys[j], names) != NameOf(keys[i], names)
    ensures NameOf(keys[i], names) in GraphOf(s, keys, names)
    ensures GraphOf(s, keys, names)[NameOf(keys[i], names)] == Names(s.graph[keys[i]], names)
    decreases |keys|
  {
    if i < |keys| - 1 {
      var init := keys[..|keys| - 1];
      assert init[i] == keys[i];
      assert forall j :: i < j < |init| ==> init[j] == keys[j];
      GraphOfLookup(s, init, names, i);
    }
  }

  function NameOf(k: CellRef, names: seq<string>): string
  {
    if k < |names| then names[k] else ""
  }

  /** The imperative registry: the fields of one `ProviderObserver` instance. */
  class ProviderObserver {
    var graph: map<CellRef, seq<CellRef>>
    var keys: seq<CellRef>
    var history: seq<UpdateRecord>
    var outLogs: bool

    function State(): ObserverState
      reads this
    {
      ObserverState(graph, keys, history, outLogs)
    }

    /** First construction: empty graph and history. */
    constructor ()
      ensures State() == Empty
    {
      graph := map[];
      keys := [];
      history := [];
      outLogs := true;
    }

    method SetOutLogs(on: bool)
      modifies this
      ensures State() == OutLogs(old(State()), on)
    {
      outLogs := on;
    }

    method AddDependency(child: CellRef, parent: CellRef)
      modifies this
      ensures State() == DependencyAdded(old(State()), child, parent)
    {
      if child !in graph {
        graph := graph[child := []];
        keys := keys + [child];
      }
      graph := graph[child := SetAdd(graph[child], parent)];
    }

    method DeleteDependency(child: CellRef, parent: CellRef)
      modifies this
      ensures State() == DependencyDeleted(old(State()), child, parent)
    {
      if child in graph {
        graph := graph[child := SetDelete(graph[child], parent)];
      }
    }

    method LogUpdate(name: string, oldValue: Value, newValue: Value, isLarge: Value -> bool)
      modifies this
      ensures State() == UpdateLogged(old(State()), name, oldValue, newValue, isLarge)
    {
      var oldForLog := oldValue;
      var newForLog := newValue;
      if oldValue.Obj? && oldValue.propsId != "" {
        oldForLog := Str(oldValue.className + ViewIdInfix + oldValue.propsId);
      }
      if newValue.Obj? && newValue.propsId != "" {
        newForLog := Str(newValue.className + ViewIdInfix + newValue.propsId);
      }
      if isLarge(oldValue) {
        oldForLog := Str(LargeObject);
      }
      if isLarge(newValue) {
        newForLog := Str(LargeObject);
      }
      history := history + [UpdateRecord(name, oldForLog, newForLog)];
    }

    method GetAllUpdateHistory() returns (h: seq<UpdateRecord>)
      ensures h == history
    {
      h := history;
    }

    /** `getFilteredUpdateHistory`: the records under `name`, in order. */
    method GetFilteredUpdateHistory(name: string) returns (r: seq<UpdateRecord>)
      ensures r == Filter(history, name)
      ensures forall x :: x in r <==> x in history && x.provider == name
    {
      r := [];
      var i := 0;
      while i < |history|
        invariant 0 <= i <= |history|
        invariant r == Filter(history[..i], name)
      {
        assert history[..i + 1][..i] == history[..i];
        if history[i].provider == name {
          r := r + [history[i]];
        }
        i := i + 1;
      }
      assert history[..i] == history;
    }

    /** `getDependencyGraph`: one entry per child, in key order, later names overwriting earlier ones. */
    method GetDependencyGraph(names: seq<string>) returns (r: map<string, seq<string>>)
      requires Valid(State())
      ensures r == DependencyGraph(State(), names)
    {
      r := map[];
      var i := 0;
      while i < |keys|
        invariant 0 <= i <= |keys|
        invariant r == GraphOf(State(), keys[..i], names)
      {
        var k := keys[i];
        assert keys[..i + 1][..i] == keys[..i];
        var parentNames := [];
        var ps := graph[k];
        var j := 0;
        while j < |ps|
          invariant 0 <= j <= |ps|
          invariant parentNames == Names(ps[..j], names)
        {
          assert ps[..j + 1] == ps[..j] + [ps[j]];
          NamesAppend(ps[..j], ps[j], names);
          parentNames := parentNames + [NameOf(ps[j], names)];
          j := j + 1;
        }
        assert ps[..j] == ps;
        r := r[NameOf(k, names) := parentNames];
        i := i + 1;
      }
      assert keys[..i] == keys;
    }
  }

  lemma NamesAppend(ps: seq<CellRef>, p: CellRef, names: seq<string>)
    ensures Names(ps + [p], names) == Names(ps, names) + [NameOf(p, names)]
  {
  }

  /**
   * The static `instance` field. Every construction after the first returns the
   * first instance untouched; `clearInstance` empties the slot so that the next
   * construction installs a fresh, empty registry.
   */
  class ObserverSlot {
    var instance: ProviderObserver?

    constructor ()
      ensures instance == null
    {
      instance := null;
    }

    /** `new ProviderObserver()`. */
    method Construct() returns (o: ProviderObserver)
      modifies this
      ensures old(instance) != null ==> o == old(instance) && o.State() == old(o.State())
      ensures old(instance) == null ==> fresh(o) && o.State() == Empty
      ensures instance == o
    {
      if instance == null {
        o := new ProviderObserver();
        instance := o;
      } else {
        o := instance;
      }
    }

    /** `clearInstance`. */
    method ClearInstance()
      modifies this
      ensures instance == null
    {
      instance := null;
    }
  }
}

=== FILE: padding.dfy ===
/** The `Padding` component: the four `padding` declarations of its box sides. */
module Padding {
  import opened Styles
  import BoxSides

  const Prefix := "padding"

  /** `styledView`: sets exactly the four padding declarations to the resolved sides. */
  function StyledView(s: Style, sides: BoxSides.Sides): (r: Style)
    ensures Declared(r, "paddingTop", CssText(sides.top)) && Declared(r, "paddingRight", CssText(sides.right))
    ensures Declared(r, "paddingBottom", CssText(sides.bottom)) && Declared(r, "paddingLeft", CssText(sides.left))
    ensures forall k :: k !in {"paddingTop", "paddingRight", "paddingBottom", "paddingLeft"} ==> Same(s, r, k)
  {
    assert Prefix + "Top" == "paddingTop" && Prefix + "Right" == "paddingRight";
    assert Prefix + "Bottom" == "paddingBottom" && Prefix + "Left" == "paddingLeft";
    BoxSides.StyledView(s, Prefix, sides)
  }
}

=== FILE: propagation.dfy ===
/**
 * Updates and their fan-out (provider.ts `update`, `notifyListeners`, `watch`,
 * `ref.update`, the `Dependency` listener) and the notifier classes built on
 * them (notifier.ts).
 */
module Propagation {
  import opened Values
  import opened Observer
  import opened World
  import Cells
  import Views

  /** What an update function that throws raises, out of `update`. */
  const UpdateFnError := Thrown("updateFn")

  /** What an application listener that throws raises, out of `notifyListeners`. */
  const ListenerError := Thrown("listener")

  /**
   * `update(f)`: reads the current value (initialising the cell if needed), computes
   * `f(current)` (an exception from `f` escapes before anything is stored or logged), records the change with the observer when logging is on, stores
   * the new value, and then calls every listener of the set with it, in insertion
   * order (over the set as it is when notification starts).
   */
  function Update(p: Program, w: World, c: CellRef, f: UpdateFn, fuel: nat): (r: Res<Unit>)
    ensures Grows(w, r.w)
    ensures c >= |w.cells| ==> r == Res(w, Throw(Cells.NotAProvider))
    decreases fuel, 2
  {
    if c >= |w.cells| then Res(w, Throw(Cells.NotAProvider))
    else
      var rd := Cells.Read(p, w, c, fuel);
      if rd.out.Throw? then Res(rd.w, Throw(rd.out.error))
      else if UpdateThrows(p, f, rd.out.value) then Res(rd.w, Throw(UpdateFnError))
      else
        var next := ApplyUpdate(p, f, rd.out.value);
        var w1 := Record(p, rd.w, c, rd.out.value, next);
        var w2 := Emit(SetCell(w1, c, w1.cells[c].(value := next)), Stored(c, next));
        Notify(p, w2, c, next, w2.cells[c].listeners, fuel)
  }

  /** The observer record `update` makes: only when the cell's logging is on. */
  function Record(p: Program, w: World, c: CellRef, oldValue: Value, newValue: Value): (r: World)
    requires c < |w.cells|
    ensures r == w.(obs := r.obs) && Grows(w, r)
    ensures r.obs == if w.cells[c].logOn then UpdateLogged(w.obs, w.cells[c].name, oldValue, newValue, p.isLarge) else w.obs
  {
    if w.cells[c].logOn then w.(obs := UpdateLogged(w.obs, w.cells[c].name, oldValue, newValue, p.isLarge)) else w
  }

  /**
   * `notifyListeners(v)`: each listener of `ls` in order is called with `v` (the
   * call is recorded as `Fired`); an exception stops the remaining calls.
   */
  function Notify(p: Program, w: World, c: CellRef, v: Value, ls: seq<Listener>, fuel: nat): (r: Res<Unit>)
    ensures Grows(w, r.w)
    decreases fuel, 1, |ls|
  {
    if ls == [] then Res(w, Ok(Unit))
    else
      var f := Fire(p, Emit(w, Fired(c, ls[0], v)), ls[0], v, fuel);
      if f.out.Throw? then f else Notify(p, f.w, c, v, ls[1..], fuel)
  }

  /**
   * One listener call with value `v`. An application listener records `v`, or
   * throws, which stops `notifyListeners` before the later listeners. A
   * `Dependency` listener updates its child with `cur => combine(v, cur)`. A scope
   * listener rebuilds the scope. The `NotifierProvider` listener updates its
   * provider with the identity and then notifies the provider's listeners again
   * with `read()`, so they are called twice. A cycle of dependencies exhausts the fuel.
   */
  function Fire(p: Program, w: World, l: Listener, v: Value, fuel: nat): (r: Res<Unit>)
    ensures Grows(w, r.w)
    ensures l.Record? ==> r == Res(Emit(w, Received(l.tag, v)), Ok(Unit))
    ensures l.Throwing? ==> r == Res(w, Throw(ListenerError))
    decreases fuel, 0
  {
    match l
    case Record(tag) => Res(Emit(w, Received(tag, v)), Ok(Unit))
    case Throwing(_) => Res(w, Throw(ListenerError))
    case Rebuild(_, scope) => Views.Rebuild(p, w, scope, fuel)
    case Propagate(_, child, combine) =>
      if fuel == 0 then Res(w, Throw(RangeError))
      else Update(p, w, child, CombineWith(combine, v), fuel - 1)
    case Bridge(_, np) =>
      if fuel == 0 then Res(w, Throw(RangeError)) else Bridged(p, w, np, fuel - 1)
  }

  /** The `NotifierProvider` listener: `update(cur => cur)`, then `notifyListeners(read())`. */
  function Bridged(p: Program, w: World, np: CellRef, fuel: nat): (r: Res<Unit>)
    ensures Grows(w, r.w)
    decreases fuel, 3
  {
    var u := Update(p, w, np, Identity, fuel);
    if u.out.Throw? then u
    else
      var rd := Cells.Read(p, u.w, np, fuel);
      if rd.out.Throw? then Res(rd.w, Throw(rd.out.error))
      else Notify(p, rd.w, np, rd.out.value, rd.w.cells[np].listeners, fuel)
  }

  /**
   * `watch(l, {immediate})`: `l` joins the set (at most once); with `immediate` it is
   * then called once with `read()`. The returned unsubscribe function is
   * `Cells.Unwatch` on the same cell and listener.
   */
  function Watch(p: Program, w: World, c: CellRef, l: Listener, immediate: bool, fuel: nat): (r: Res<Unit>)
    ensures Grows(w, r.w)
    ensures c >= |w.cells| ==> r == Res(w, Throw(Cells.NotAProvider))
    ensures c < |w.cells| && !immediate ==> r == Res(Cells.Subscribe(w, c, l), Ok(Unit))
  {
    if c >= |w.cells| then Res(w, Throw(Cells.NotAProvider))
    else
      var w1 := Cells.Subscribe(w, c, l);
      if !immediate then Res(w1, Ok(Unit))
      else
        var rd := Cells.Read(p, w1, c, fuel);
        if rd.out.Throw? then Res(rd.w, Throw(rd.out.error))
        else Fire(p, Emit(rd.w, Fired(c, l, rd.out.value)), l, rd.out.value, fuel)
  }

  /**
   * `ref.update(f)` from a factory's `ref`: reads the old value, updates, reads the
   * new value, and records one more observer entry when logging is on.
   */
  function RefUpdate(p: Program, w: World, c: CellRef, f: UpdateFn, fuel: nat): (r: Res<Unit>)
    ensures Grows(w, r.w)
  {
    var o := Cells.Read(p, w, c, fuel);
    if o.out.Throw? then Res(o.w, Throw(o.out.error))
    else
      var u := Update(p, o.w, c, f, fuel);
      if u.out.Throw? then u
      else
        var n := Cells.Read(p, u.w, c, fuel);
        if n.out.Throw? then Res(n.w, Throw(n.out.error))
        else Res(Record(p, n.w, c, o.out.value, n.out.value), Ok(Unit))
  }

  // ---------------------------------------------------------------------------
  // Notifier and NotifierProvider
  // ---------------------------------------------------------------------------

  /**
   * `new N()` for a `Notifier` subclass `N`: a provider named after the class (or at
   * random when the name is empty) whose factory calls `build()`; `build` is the
   * result id of that factory and `throws` says whether it throws.
   */
  function NewNotifier(w: World, className: string, build: nat, throws: bool, randomName: string): (r: (World, NotifierRef))
    ensures r.1 == |w.notifiers| && r.0.notifiers == w.notifiers + [NotifierObj(className, |w.cells|)]
    ensures r.0.cells == w.cells + [Cell(if className != "" then className else randomName, Plain(Factory([], build, throws)), Null, false, [], map[], true)]
    ensures r.0.trace == w.trace && Grows(w, r.0)
  {
    var (w1, c) := Cells.CreateProvider(w, Factory([], build, throws), className, randomName);
    (w1.(notifiers := w1.notifiers + [NotifierObj(className, c)]), |w.notifiers|)
  }

  /** The provider behind a notifier. */
  function NotifierCell(w: World, n: NotifierRef): CellRef
  {
    if n < |w.notifiers| then w.notifiers[n].cell else |w.cells|
  }

  /** `state`: reads the notifier's provider. */
  function NotifierState(p: Program, w: World, n: NotifierRef, fuel: nat): (r: Res<Value>)
    ensures Grows(w, r.w)
    ensures n >= |w.notifiers| ==> r == Res(w, Throw(Cells.NotAProvider))
    ensures n < |w.notifiers| && w.notifiers[n].cell < |w.cells| && r.out.Ok? ==>
              r.w.cells[w.notifiers[n].cell].value == r.out.value
    ensures n < |w.notifiers| && w.notifiers[n].cell < |w.cells| ==>
              var c := w.notifiers[n].cell;
              w.cells[c].kind.Plain? && w.cells[c].initialized ==> r == Res(w, Ok(w.cells[c].value))
  {
    Cells.Read(p, w, NotifierCell(w, n), fuel)
  }

  /** `update(f)` of a notifier: `update` on its provider. */
  function NotifierUpdate(p: Program, w: World, n: NotifierRef, f: nat, fuel: nat): (r: Res<Unit>)
    ensures Grows(w, r.w)
    ensures n >= |w.notifiers| ==> r == Res(w, Throw(Cells.NotAProvider))
  {
    Update(p, w, NotifierCell(w, n), Apply(f), fuel)
  }

  /** `watch(l)` of a notifier: `watch` on its provider with the default `immediate`; no handle is returned. */
  function NotifierWatch(p: Program, w: World, n: NotifierRef, l: Listener, fuel: nat): (r: Res<Unit>)
    ensures Grows(w, r.w)
    ensures n >= |w.notifiers| ==> r == Res(w, Throw(Cells.NotAProvider))
  {
    Watch(p, w, NotifierCell(w, n), l, true, fuel)
  }

  /**
   * `new NotifierProvider(() => new N())`: the provider itself (its name stays "",
   * its `read` returns the notifier), then the notifier, then logging is switched
   * off, and finally the notifier is watched with a fresh listener that, being
   * called immediately, builds the notifier's state and notifies once.
   */
  function NewNotifierProvider(p: Program, w: World, className: string, build: nat, throws: bool, randomName: string, fuel: nat): (r: Res<CellRef>)
    ensures Grows(w, r.w)
    ensures |r.w.cells| >= |w.cells| + 2 && r.w.cells[|w.cells|].kind == NotifierBacked(|w.notifiers|)
    ensures |r.w.notifiers| > |w.notifiers| && r.w.notifiers[|w.notifiers|] == NotifierObj(className, |w.cells| + 1)
    ensures r.out.Ok? ==> r.out.value == |w.cells|
  {
    var np := |w.cells|;
    var w1 := w.(cells := w.cells + [Cell("", NotifierBacked(|w.notifiers|), Null, false, [], map[], true)]);
    var (w2, n) := NewNotifier(w1, className, build, throws, randomName);
    var w3 := Cells.SetIsActivedLog(w2, np, false);
    var l := Bridge(w3.tokens, np);
    var wt := NotifierWatch(p, w3.(tokens := w3.tokens + 1), n, l, fuel);
    Res(wt.w, if wt.out.Throw? then Throw(wt.out.error) else Ok(np))
  }

  /** `NotifierProvider.createProvider`: always throws; a notifier provider must be constructed directly. */
  function NotifierProviderCreateProvider(): (r: Outcome<CellRef>)
    ensures r.Throw? && r.error.Thrown?
  {
    Throw(Thrown("createProvider"))
  }
}

=== FILE: provider_props.dfy ===
/**
 * Properties of the provider engine: lazy initialisation and caching, the retry
 * of a throwing factory, the listener set under `watch` and its unsubscribe
 * function, the order of effects in `update`, and propagation along dependency
 * links made by `ref.watch`.
 */
module ProviderProps {
  import opened Values
  import opened Observer
  import opened World
  import Cells
  import Views
  import opened Propagation

  // ---------------------------------------------------------------------------
  // read: lazy initialisation, caching, retry after a throw
  // ---------------------------------------------------------------------------

  /** Provider `c` is a plain provider whose value exists: a `read` of it returns the stored value. */
  predicate HasValue(w: World, c: CellRef)
  {
    c < |w.cells| && w.cells[c].kind.Plain? && w.cells[c].initialized
  }

  /** After a successful first `read`, a second `read` changes nothing and returns the same value. */
  lemma ReadOnceThenCached(p: Program, w: World, c: CellRef, fuel: nat, fuel': nat)
    requires c < |w.cells| && w.cells[c].kind.Plain?
    requires Cells.Read(p, w, c, fuel).out.Ok?
    ensures var r := Cells.Read(p, w, c, fuel);
            Cells.Read(p, r.w, c, fuel') == Res(r.w, r.out)
  {
  }

  /** The first `read` of an uninitialised cell runs its factory before anything else happens. */
  lemma FirstReadRunsFactory(p: Program, w: World, c: CellRef, fuel: nat)
    requires c < |w.cells| && w.cells[c].kind.Plain? && !w.cells[c].initialized && fuel > 0
    ensures var r := Cells.Read(p, w, c, fuel);
            |r.w.trace| > |w.trace| && r.w.trace[|w.trace|] == FactoryRun(c)
  {
  }

  /** Cell `x` is an uninitialised provider whose factory throws. */
  predicate ThrowingUninit(w: World, x: CellRef)
  {
    x < |w.cells| && w.cells[x].kind.Plain? && w.cells[x].kind.factory.throws && !w.cells[x].initialized
  }

  /** No `read` can initialise a cell whose factory throws. */
  lemma {:induction false} ReadKeepsThrowingUninit(p: Program, w: World, c: CellRef, fuel: nat, x: CellRef)
    requires ThrowingUninit(w, x)
    ensures ThrowingUninit(Cells.Read(p, w, c, fuel).w, x)
    ensures c == x ==> Cells.Read(p, w, c, fuel).out.Throw?
    decreases fuel, 0
  {
    if c < |w.cells| && w.cells[c].kind.Plain? && !w.cells[c].initialized && fuel > 0 {
      var f := w.cells[c].kind.factory;
      RunStepsKeepsThrowingUninit(p, Emit(w, FactoryRun(c)), c, f.steps, [], fuel - 1, x);
    }
  }

  /** Nor can any factory body. */
  lemma {:induction false} RunStepsKeepsThrowingUninit(p: Program, w: World, c: CellRef, steps: seq<RefStep>, acc: seq<Value>, fuel: nat, x: CellRef)
    requires c < |w.cells| && ThrowingUninit(w, x)
    ensures ThrowingUninit(Cells.RunSteps(p, w, c, steps, acc, fuel).w, x)
    decreases fuel, 1, |steps|
  {
    if steps != [] {
      match steps[0]
      case RefRead(other) =>
        ReadKeepsThrowingUninit(p, w, other, fuel, x);
        var rd := Cells.Read(p, w, other, fuel);
        if rd.out.Ok? {
          RunStepsKeepsThrowingUninit(p, rd.w, c, steps[1..], acc + [rd.out.value], fuel, x);
        }
      case RefWatch(parent, combine) =>
        var wt := Cells.RefWatch(w, c, parent, combine);
        if wt.out.Ok? {
          RunStepsKeepsThrowingUninit(p, wt.w, c, steps[1..], acc, fuel, x);
        }
    }
  }

  /**
   * A factory that throws leaves its provider uninitialised, so the exception
   * reaches the caller and the next `read` runs the factory again.
   */
  lemma ThrowingFactoryRetries(p: Program, w: World, c: CellRef, fuel: nat, fuel': nat)
    requires ThrowingUninit(w, c) && fuel' > 0
    ensures var r := Cells.Read(p, w, c, fuel);
            && r.out.Throw? && !r.w.cells[c].initialized
            && var r' := Cells.Read(p, r.w, c, fuel');
               |r'.w.trace| > |r.w.trace| && r'.w.trace[|r.w.trace|] == FactoryRun(c) && r'.out.Throw?
  {
    ReadKeepsThrowingUninit(p, w, c, fuel, c);
    var r := Cells.Read(p, w, c, fuel);
    ReadKeepsThrowingUninit(p, r.w, c, fuel', c);
  }

  // ---------------------------------------------------------------------------
  // watch and its unsubscribe function
  // ---------------------------------------------------------------------------

  /** The listeners form a set: watching twice with the same function keeps one entry. */
  lemma SubscribeIdempotent(w: World, c: CellRef, l: Listener)
    ensures Cells.Subscribe(Cells.Subscribe(w, c, l), c, l) == Cells.Subscribe(w, c, l)
  {
  }

  /** Calling the unsubscribe function twice is the same as calling it once. */
  lemma UnwatchIdempotent(w: World, c: CellRef, l: Listener)
    ensures Cells.Unwatch(Cells.Unwatch(w, c, l), c, l) == Cells.Unwatch(w, c, l)
  {
  }

  /** Watching a new listener and calling the returned function restores the provider. */
  lemma WatchThenUnwatch(w: World, c: CellRef, l: Listener)
    requires c < |w.cells| && l !in w.cells[c].listeners
    ensures Cells.Unwatch(Cells.Subscribe(w, c, l), c, l) == w
  {
    SetDeleteAdded(w.cells[c].listeners, l);
    assert w.cells[c := w.cells[c]] == w.cells;
  }

  /**
   * `watch(l)` with the default `immediate` on an initialised provider: `l` joins
   * the set and is called exactly once, with the current value.
   */
  lemma WatchRecordFiresOnce(p: Program, w: World, c: CellRef, tag: nat, fuel: nat)
    requires HasValue(w, c)
    ensures var l := Record(tag);
            var v := w.cells[c].value;
            Watch(p, w, c, l, true, fuel)
              == Res(Cells.Subscribe(w, c, l).(trace := w.trace + [Fired(c, l, v), Received(tag, v)]), Ok(Unit))
  {
  }

  // ---------------------------------------------------------------------------
  // update and notifyListeners
  // ---------------------------------------------------------------------------

  /** The view is not on the page: `getElementById` finds no element carrying its id. */
  predicate Offstage(w: World, v: ViewRef)
  {
    v < |w.views| && Dom.GetElementById(w.dom, Views.ViewId(w, v)).None?
  }

  /**
   * Every listener of `ls` only leaves a trace: an application listener, or a
   * scope whose element is not on the page, so that its `rebuild` stops after
   * `preBuild`.
   */
  predicate QuietListeners(w: World, ls: seq<Listener>)
  {
    forall l :: l in ls ==> l.Record? || (l.Rebuild? && Offstage(w, l.scope))
  }

  /** What a quiet listener's call leaves in the trace. */
  function Echo(l: Listener, v: Value): Event
    requires l.Record? || l.Rebuild?
  {
    if l.Record? then Received(l.tag, v) else HookRan(l.scope, PreBuild)
  }

  /** What `notifyListeners(v)` on `c` leaves in the trace when every listener of `ls` is quiet. */
  function Echoes(c: CellRef, ls: seq<Listener>, v: Value): seq<Event>
    requires forall l :: l in ls ==> l.Record? || l.Rebuild?
  {
    if ls == [] then [] else [Fired(c, ls[0], v), Echo(ls[0], v)] + Echoes(c, ls[1..], v)
  }

  /**
   * When every listener only leaves a trace (an application listener, or a scope
   * whose element is not on the page, so that its `rebuild` stops after
   * `preBuild`), `notifyListeners` calls each of them once, in insertion order.
   */
  lemma {:induction false} NotifyQuiet(p: Program, w: World, c: CellRef, v: Value, ls: seq<Listener>, fuel: nat)
    requires QuietListeners(w, ls)
    ensures Notify(p, w, c, v, ls, fuel) == Res(w.(trace := w.trace + Echoes(c, ls, v)), Ok(Unit))
    decreases |ls|
  {
    if ls != [] {
      var w1 := Emit(w, Fired(c, ls[0], v));
      assert ls[0] in ls;
      var w2 := Emit(w1, Echo(ls[0], v));
      assert Fire(p, w1, ls[0], v, fuel) == Res(w2, Ok(Unit));
      forall l | l in ls[1..] ensures l.Record? || (l.Rebuild? && Offstage(w2, l.scope)) {
        assert l in ls;
      }
      NotifyQuiet(p, w2, c, v, ls[1..], fuel);
      RegroupPair(w.trace, Fired(c, ls[0], v), Echo(ls[0], v), Echoes(c, ls[1..], v), Echoes(c, ls, v));
    }
  }

  /** `notifyListeners(v)` with a single listener: that listener's call decides the outcome. */
  lemma NotifyOne(p: Program, w: World, c: CellRef, v: Value, l: Listener, fuel: nat)
    ensures var f := Fire(p, Emit(w, Fired(c, l, v)), l, v, fuel);
            Notify(p, w, c, v, [l], fuel) == if f.out.Throw? then f else Res(f.w, Ok(Unit))
  {
    assert [l][1..] == [];
  }

  /**
   * An application listener that throws stops `notifyListeners`: the quiet
   * listeners before it are called once each, in order, it is called, and the
   * exception escapes before any listener after it is called.
   */
  lemma {:induction false} NotifyStopsAtThrow(p: Program, w: World, c: CellRef, v: Value, pre: seq<Listener>, t: nat, post: seq<Listener>, fuel: nat)
    requires QuietListeners(w, pre)
    ensures Notify(p, w, c, v, pre + [Throwing(t)] + post, fuel)
              == Res(w.(trace := w.trace + Echoes(c, pre, v) + [Fired(c, Throwing(t), v)]), Throw(ListenerError))
    decreases |pre|
  {
    var ls := pre + [Throwing(t)] + post;
    if pre == [] {
      assert ls[0] == Throwing(t);
    } else {
      assert ls[0] == pre[0] && ls[1..] == pre[1..] + [Throwing(t)] + post;
      var w1 := Emit(w, Fired(c, pre[0], v));
      assert pre[0] in pre;
      var w2 := Emit(w1, Echo(pre[0], v));
      assert Fire(p, w1, pre[0], v, fuel) == Res(w2, Ok(Unit));
      forall l | l in pre[1..] ensures l.Record? || (l.Rebuild? && Offstage(w2, l.scope)) {
        assert l in pre;
      }
      NotifyStopsAtThrow(p, w2, c, v, pre[1..], t, post, fuel);
      RegroupPair(w.trace, Fired(c, pre[0], v), Echo(pre[0], v), Echoes(c, pre[1..], v), Echoes(c, pre, v));
    }
  }

  /**
   * `update(f)` on an initialised provider: when `f` throws, the exception escapes
   * and nothing has changed, not even the observer. Otherwise it records the change
   * with the observer (only when logging is on), stores `f(current)` and only then
   * notifies the listeners the provider has at that moment, with the new value.
   */
  lemma UpdateStoresBeforeNotifying(p: Program, w: World, c: CellRef, f: UpdateFn, fuel: nat)
    requires HasValue(w, c)
    ensures Update(p, w, c, f, fuel)
              == if UpdateThrows(p, f, w.cells[c].value) then Res(w, Throw(UpdateFnError))
                 else Notify(p, AfterStore(p, w, c, f), c, ApplyUpdate(p, f, w.cells[c].value), w.cells[c].listeners, fuel)
  {
  }

  /**
   * The page as `update(f)` leaves it just before notifying: the observer record
   * (only when logging is on), `f(current)` stored, and the `Stored` event.
   */
  function AfterStore(p: Program, w: World, c: CellRef, f: UpdateFn): (r: World)
    requires HasValue(w, c)
    ensures r.cells == w.cells[c := w.cells[c].(value := ApplyUpdate(p, f, w.cells[c].value))]
    ensures r.trace == w.trace + [Stored(c, ApplyUpdate(p, f, w.cells[c].value))]
    ensures r.obs == if w.cells[c].logOn then UpdateLogged(w.obs, w.cells[c].name, w.cells[c].value, ApplyUpdate(p, f, w.cells[c].value), p.isLarge) else w.obs
    ensures r == w.(obs := r.obs, cells := r.cells, trace := r.trace)
  {
    var cur := w.cells[c].value;
    var next := ApplyUpdate(p, f, cur);
    var obs := if w.cells[c].logOn then UpdateLogged(w.obs, w.cells[c].name, cur, next, p.isLarge) else w.obs;
    w.(obs := obs, cells := w.cells[c := w.cells[c].(value := next)], trace := w.trace + [Stored(c, next)])
  }

  /**
   * With quiet listeners the whole effect of `update(f)` is known: nothing but the
   * exception when `f` throws, and otherwise the stored value, the optional
   * observer record and one call of each listener, in order.
   */
  lemma UpdateQuiet(p: Program, w: World, c: CellRef, f: UpdateFn, fuel: nat)
    requires HasValue(w, c) && QuietListeners(w, w.cells[c].listeners)
    ensures var cur := w.cells[c].value;
            var next := ApplyUpdate(p, f, cur);
            var obs := if w.cells[c].logOn then UpdateLogged(w.obs, w.cells[c].name, cur, next, p.isLarge) else w.obs;
            Update(p, w, c, f, fuel)
              == if UpdateThrows(p, f, cur) then Res(w, Throw(UpdateFnError))
                 else Res(w.(obs := obs, cells := w.cells[c := w.cells[c].(value := next)],
                             trace := w.trace + [Stored(c, next)] + Echoes(c, w.cells[c].listeners, next)), Ok(Unit))
  {
    var next := ApplyUpdate(p, f, w.cells[c].value);
    var w2 := AfterStore(p, w, c, f);
    UpdateStoresBeforeNotifying(p, w, c, f, fuel);
    forall l | l in w.cells[c].listeners ensures l.Record? || (l.Rebuild? && Offstage(w2, l.scope)) {
      assert l.Record? || (l.Rebuild? && Offstage(w, l.scope));
    }
    NotifyQuiet(p, w2, c, next, w.cells[c].listeners, fuel);
  }

  /**
   * An application listener that throws during `update(f)`: the new value is
   * already stored, the quiet listeners before it have been called, and the
   * exception reaches the caller of `update` before any later listener runs.
   */
  lemma UpdateStopsAtThrowingListener(p: Program, w: World, c: CellRef, f: UpdateFn, pre: seq<Listener>, t: nat, post: seq<Listener>, fuel: nat)
    requires HasValue(w, c) && !UpdateThrows(p, f, w.cells[c].value)
    requires w.cells[c].listeners == pre + [Throwing(t)] + post && QuietListeners(w, pre)
    ensures var next := ApplyUpdate(p, f, w.cells[c].value);
            var r := Update(p, w, c, f, fuel);
            && r.out == Throw(ListenerError)
            && r.w.cells == w.cells[c := w.cells[c].(value := next)]
            && r.w.trace == w.trace + [Stored(c, next)] + Echoes(c, pre, next) + [Fired(c, Throwing(t), next)]
  {
    var next := ApplyUpdate(p, f, w.cells[c].value);
    var w2 := AfterStore(p, w, c, f);
    forall l | l in pre ensures l.Record? || (l.Rebuild? && Offstage(w2, l.scope)) {
      assert l.Record? || (l.Rebuild? && Offstage(w, l.scope));
    }
    NotifyStopsAtThrow(p, w2, c, next, pre, t, post, fuel);
    UpdateStoresBeforeNotifying(p, w, c, f, fuel);
  }

  /**
   * `ref.update(f)` on a provider without listeners: the value is stored once and
   * the observer is told twice, by `update` and by `ref.update`, when logging is on.
   */
  lemma RefUpdateLogsTwice(p: Program, w: World, c: CellRef, f: UpdateFn, fuel: nat)
    requires HasValue(w, c) && w.cells[c].listeners == [] && !UpdateThrows(p, f, w.cells[c].value)
    ensures var cur := w.cells[c].value;
            var next := ApplyUpdate(p, f, cur);
            var name := w.cells[c].name;
            var r := RefUpdate(p, w, c, f, fuel);
            && r.out == Ok(Unit)
            && r.w.cells == w.cells[c := w.cells[c].(value := next)]
            && r.w.trace == w.trace + [Stored(c, next)]
            && r.w.obs == if w.cells[c].logOn
                          then UpdateLogged(UpdateLogged(w.obs, name, cur, next, p.isLarge), name, cur, next, p.isLarge)
                          else w.obs
  {
    UpdateQuiet(p, w, c, f, fuel);
  }

  // ---------------------------------------------------------------------------
  // Dependencies made by ref.watch
  // ---------------------------------------------------------------------------

  /**
   * `ref.watch(parent, combine)` run twice replaces the stored link but leaves the
   * first listener subscribed, so the parent then has both.
   */
  lemma RefWatchTwiceKeepsBothListeners(w: World, c: CellRef, parent: CellRef, k1: nat, k2: nat)
    requires c < |w.cells| && parent < |w.cells|
    ensures var r1 := Cells.RefWatch(w, c, parent, k1);
            var r2 := Cells.RefWatch(r1.w, c, parent, k2);
            && r2.out.Ok?
            && Propagate(w.tokens, c, k1) in r2.w.cells[parent].listeners
            && Propagate(w.tokens + 1, c, k2) in r2.w.cells[parent].listeners
            && r2.w.cells[c].deps[parent] == Link(parent, Propagate(w.tokens + 1, c, k2))
  {
  }

  /**
   * An update of a parent reaches its child through the dependency: the child is
   * updated with `combine(parentValue, childValue)`.
   */
  lemma DependencyPropagates(p: Program, w: World, parent: CellRef, child: CellRef, t: nat, k: nat, f: UpdateFn, fuel: nat)
    requires HasValue(w, parent) && HasValue(w, child) && parent != child
    requires w.cells[parent].listeners == [Propagate(t, child, k)] && w.cells[child].listeners == []
    requires !UpdateThrows(p, f, w.cells[parent].value)
    requires !UpdateThrows(p, CombineWith(k, ApplyUpdate(p, f, w.cells[parent].value)), w.cells[child].value)
    ensures var pnext := ApplyUpdate(p, f, w.cells[parent].value);
            var r := Update(p, w, parent, f, fuel + 1);
            && r.out == Ok(Unit)
            && r.w.cells[parent].value == pnext
            && r.w.cells[child].value == p.combiners(k)(pnext, w.cells[child].value)
  {
    var pnext := ApplyUpdate(p, f, w.cells[parent].value);
    var l := Propagate(t, child, k);
    var w2 := AfterStore(p, w, parent, f);
    UpdateStoresBeforeNotifying(p, w, parent, f, fuel + 1);
    NotifyOne(p, w2, parent, pnext, l, fuel + 1);
    UpdateQuiet(p, Emit(w2, Fired(parent, l, pnext)), child, CombineWith(k, pnext), fuel);
  }

  /**
   * After `unsubscribedDependency(parent)` on the only link, an update of the
   * parent no longer changes the child.
   */
  lemma UnsubscribedParentNoLongerReachesChild(p: Program, w: World, parent: CellRef, child: CellRef, l: Listener, f: UpdateFn, fuel: nat)
    requires parent < |w.cells| && child < |w.cells| && parent != child
    requires HasValue(w, parent) && !UpdateThrows(p, f, w.cells[parent].value)
    requires parent in w.cells[child].deps && w.cells[child].deps[parent] == Link(parent, l)
    requires w.cells[parent].listeners == [l]
    ensures var w1 := Cells.UnsubscribedDependency(w, child, parent);
            var r := Update(p, w1, parent, f, fuel);
            r.out == Ok(Unit) && r.w.cells[child] == w1.cells[child] && parent !in r.w.cells[child].deps
  {
    var w1 := Cells.UnsubscribedDependency(w, child, parent);
    assert w1.cells[parent].listeners == [];
    UpdateQuiet(p, w1, parent, f, fuel);
  }
}

=== FILE: relative_positions.dfy ===
/** The `RelativePositions` enumeration: nine anchor positions inside a positioned parent. */
module RelativePositions {
  import opened Styles

  datatype RelativePosition =
    | Top | TopRight | Right | BottomRight | Bottom | BottomLeft | Left | TopLeft | Center

  /** The vertical anchor a position uses: "top" or "bottom". */
  function VerticalAnchor(p: RelativePosition): string
  {
    if p in {BottomRight, Bottom, BottomLeft} then "bottom" else "top"
  }

  /** The horizontal anchor a position uses: "left" or "right". */
  function HorizontalAnchor(p: RelativePosition): string
  {
    if p in {TopRight, Right, BottomRight} then "right" else "left"
  }

  /** Offsets are "0" on an edge the position touches and "50%" across the middle. */
  function VerticalOffset(p: RelativePosition): string
  {
    if p in {Right, Left, Center} then "50%" else "0"
  }

  function HorizontalOffset(p: RelativePosition): string
  {
    if p in {Top, Bottom, Center} then "50%" else "0"
  }

  /** The transform recentres the element along each axis that uses a 50% offset. */
  function Transform(p: RelativePosition): string
  {
    if p == Center then "translate(-50%, -50%)"
    else if p in {Top, Bottom} then "translateX(-50%)"
    else if p in {Right, Left} then "translateY(-50%)"
    else "translate(0, 0)"
  }

  const Keys: set<string> := {"position", "top", "bottom", "left", "right", "transform"}

  /**
   * The `switch` of `applyCSS`: per position, the vertical declaration, the
   * horizontal declaration and the transform it sets. Its contract ties each
   * case to the anchor and offset descriptions above.
   */
  function Switch(p: RelativePosition): (r: ((string, string), (string, string), string))
    ensures r.0 == (VerticalAnchor(p), VerticalOffset(p))
    ensures r.1 == (HorizontalAnchor(p), HorizontalOffset(p))
    ensures r.2 == Transform(p)
  {
    match p
    case Center => (("top", "50%"), ("left", "50%"), "translate(-50%, -50%)")
    case Top => (("top", "0"), ("left", "50%"), "translateX(-50%)")
    case TopRight => (("top", "0"), ("right", "0"), "translate(0, 0)")
    case Right => (("top", "50%"), ("right", "0"), "translateY(-50%)")
    case BottomRight => (("bottom", "0"), ("right", "0"), "translate(0, 0)")
    case Bottom => (("bottom", "0"), ("left", "50%"), "translateX(-50%)")
    case BottomLeft => (("bottom", "0"), ("left", "0"), "translate(0, 0)")
    case Left => (("top", "50%"), ("left", "0"), "translateY(-50%)")
    case TopLeft => (("top", "0"), ("left", "0"), "translate(0, 0)")
  }

  /**
   * `applyCSS`: the element becomes absolutely positioned, one vertical and one
   * horizontal anchor are set to their offsets, a transform is set, the opposite
   * anchors and every other declaration are left as they were.
   */
  function ApplyCSS(p: RelativePosition, s: Style): (r: Style)
    ensures "position" in r && r["position"] == "absolute"
    ensures VerticalAnchor(p) in r && r[VerticalAnchor(p)] == VerticalOffset(p)
    ensures HorizontalAnchor(p) in r && r[HorizontalAnchor(p)] == HorizontalOffset(p)
    ensures "transform" in r && r["transform"] == Transform(p)
    ensures Same(s, r, if VerticalAnchor(p) == "top" then "bottom" else "top")
    ensures Same(s, r, if HorizontalAnchor(p) == "left" then "right" else "left")
    ensures forall k :: k !in Keys ==> Same(s, r, k)
  {
    var (v, h, t) := Switch(p);
    Set(Set(Set(Set(s, "position", "absolute"), v.0, v.1), h.0, h.1), "transform", t)
  }

  /** The four corners touch both of their edges and apply no shift. */
  lemma CornersSitOnTheirEdges(p: RelativePosition)
    requires p in {TopRight, BottomRight, BottomLeft, TopLeft}
    ensures VerticalOffset(p) == "0" && HorizontalOffset(p) == "0" && Transform(p) == "translate(0, 0)"
  {
  }

  /** Two different positions never produce the same declarations. */
  lemma PositionsAreDistinguishable(p: RelativePosition, q: RelativePosition)
    requires p != q
    ensures (VerticalAnchor(p), VerticalOffset(p), HorizontalAnchor(p), HorizontalOffset(p), Transform(p))
         != (VerticalAnchor(q), VerticalOffset(q), HorizontalAnchor(q), HorizontalOffset(q), Transform(q))
  {
  }
}

=== FILE: runtime.dfy ===
/**
 * The running page as one object: the provider cells, notifiers, views and DOM
 * elements it has created, the hook trace, the fresh-closure and UUID counters,
 * and the `ProviderObserver` singleton. Every method changes these fields step by
 * step as the library code does, and is proved to leave exactly the state (and
 * return exactly the value) of its functional twin in modules Cells, Views and
 * Propagation, about which the lemmas are stated.
 */
module Runtime {
  import opened Values
  import opened Styles
  import opened Dom
  import opened Observer
  import opened World
  import Cells
  import Views
  import Propagation
  import Scaffold

  class Page {
    const prog: Program
    const observer: ProviderObserver
    var cells: seq<Cell>
    var notifiers: seq<NotifierObj>
    var views: seq<ViewNode>
    var dom: seq<Element>
    var trace: seq<Event>
    var tokens: nat
    var uids: nat

    function State(): World
      reads this, observer
    {
      World(cells, notifiers, views, dom, observer.State(), trace, tokens, uids)
    }

    /** A page whose document is `document`, before any provider or view exists. */
    constructor (p: Program, o: ProviderObserver, document: seq<Element>)
      ensures prog == p && observer == o
      ensures State() == World([], [], [], document, o.State(), [], 0, 0)
    {
      prog := p;
      observer := o;
      cells := [];
      notifiers := [];
      views := [];
      dom := document;
      trace := [];
      tokens := 0;
      uids := 0;
    }

    // -------------------------------------------------------------------------
    // Provider
    // -------------------------------------------------------------------------

    method CreateProvider(f: Factory, name: string, randomName: string) returns (c: CellRef)
      modifies this
      ensures Cells.CreateProvider(old(State()), f, name, randomName) == (State(), c)
    {
      c := |cells|;
      cells := cells + [Cell(if name != "" then name else randomName, Plain(f), Null, false, [], map[], true)];
    }

    method Read(c: CellRef, fuel: nat) returns (out: Outcome<Value>)
      modifies this, observer
      ensures Cells.Read(prog, old(State()), c, fuel) == Res(State(), out)
      decreases fuel, 1
    {
      if c >= |cells| {
        return Throw(Cells.NotAProvider);
      }
      match cells[c].kind
      case NotifierBacked(n) =>
        cells := cells[c := cells[c].(value := NotifierInst(n))];
        out := Ok(NotifierInst(n));
      case Plain(f) =>
        if cells[c].initialized {
          out := Ok(cells[c].value);
        } else if fuel == 0 {
          out := Throw(RangeError);
        } else {
          out := RunFactory(c, f, fuel);
        }
    }

    /** The first `read` of a plain provider: its factory runs and the value it yields is stored. */
    method RunFactory(c: CellRef, f: Factory, fuel: nat) returns (out: Outcome<Value>)
      requires c < |cells| && fuel > 0
      modifies this, observer
      ensures Cells.RunFactory(prog, old(State()), c, f, fuel) == Res(State(), out)
      decreases fuel, 0
    {
      trace := trace + [FactoryRun(c)];
      var s := RunSteps(c, f.steps, fuel - 1);
      out := FactoryResult(c, f, s);
    }

    /** The end of a factory run whose statements gave `s`. */
    method FactoryResult(c: CellRef, f: Factory, s: Outcome<seq<Value>>) returns (out: Outcome<Value>)
      requires c < |cells|
      modifies this
      ensures Cells.FactoryResult(prog, Res(old(State()), s), c, f) == Res(State(), out)
    {
      if s.Throw? {
        out := Throw(s.error);
      } else if f.throws {
        out := Throw(Thrown("factory"));
      } else {
        var v := prog.results(f.result)(s.value);
        cells := cells[c := cells[c].(value := v, initialized := true)];
        out := Ok(v);
      }
    }

    /** The factory body of cell `c`, statement by statement. */
    method RunSteps(c: CellRef, steps: seq<RefStep>, fuel: nat) returns (out: Outcome<seq<Value>>)
      requires c < |cells|
      modifies this, observer
      ensures Cells.RunSteps(prog, old(State()), c, steps, [], fuel) == Res(State(), out)
      decreases fuel, 2
    {
      var vals := [];
      var i := 0;
      while i < |steps|
        invariant 0 <= i <= |steps| && c < |cells|
        invariant Cells.RunSteps(prog, State(), c, steps[i..], vals, fuel) == Cells.RunSteps(prog, old(State()), c, steps, [], fuel)
      {
        assert steps[i..][1..] == steps[i + 1..];
        match steps[i] {
          case RefRead(other) =>
            var rd := Read(other, fuel);
            if rd.Throw? {
              return Throw(rd.error);
            }
            vals := vals + [rd.value];
          case RefWatch(parent, combine) =>
            var wt := RefWatch(c, parent, combine);
            if wt.Throw? {
              return Throw(wt.error);
            }
        }
        i := i + 1;
      }
      out := Ok(vals);
    }

    method RefWatch(c: CellRef, parent: CellRef, combine: nat) returns (out: Outcome<Unit>)
      requires c < |cells|
      modifies this, observer
      ensures Cells.RefWatch(old(State()), c, parent, combine) == Res(State(), out)
    {
      observer.AddDependency(c, parent);
      if parent >= |cells| {
        return Throw(Cells.NotAProvider);
      }
      var l := Propagate(tokens, c, combine);
      cells := cells[parent := cells[parent].(listeners := SetAdd(cells[parent].listeners, l))];
      tokens := tokens + 1;
      cells := cells[c := cells[c].(deps := cells[c].deps[parent := Link(parent, l)])];
      out := Ok(Unit);
    }

    method Subscribe(c: CellRef, l: Listener)
      modifies this
      ensures Cells.Subscribe(old(State()), c, l) == State()
    {
      if c < |cells| {
        cells := cells[c := cells[c].(listeners := SetAdd(cells[c].listeners, l))];
      }
    }

    method Unwatch(c: CellRef, l: Listener)
      modifies this
      ensures Cells.Unwatch(old(State()), c, l) == State()
    {
      if c < |cells| {
        cells := cells[c := cells[c].(listeners := SetDelete(cells[c].listeners, l))];
      }
    }

    method UnsubscribedDependency(c: CellRef, parent: CellRef)
      modifies this, observer
      ensures Cells.UnsubscribedDependency(old(State()), c, parent) == State()
    {
      if c < |cells| && parent in cells[c].deps {
        var link := cells[c].deps[parent];
        Unwatch(link.parent, link.listener);
        cells := cells[c := cells[c].(deps := cells[c].deps - {parent})];
        if cells[c].logOn {
          observer.DeleteDependency(c, parent);
        }
      }
    }

    method SetIsActivedLog(c: CellRef, on: bool)
      modifies this
      ensures Cells.SetIsActivedLog(old(State()), c, on) == State()
    {
      if c < |cells| {
        cells := cells[c := cells[c].(logOn := on)];
      }
    }

    method Update(c: CellRef, f: UpdateFn, fuel: nat) returns (out: Outcome<Unit>)
      modifies this, observer
      ensures Propagation.Update(prog, old(State()), c, f, fuel) == Res(State(), out)
      decreases fuel, 2
    {
      if c >= |cells| {
        return Throw(Cells.NotAProvider);
      }
      var rd := Read(c, fuel);
      if rd.Throw? {
        return Throw(rd.error);
      }
      if UpdateThrows(prog, f, rd.value) {
        return Throw(Propagation.UpdateFnError);
      }
      var next := ApplyUpdate(prog, f, rd.value);
      if cells[c].logOn {
        observer.LogUpdate(cells[c].name, rd.value, next, prog.isLarge);
      }
      cells := cells[c := cells[c].(value := next)];
      trace := trace + [Stored(c, next)];
      out := Notify(c, next, cells[c].listeners, fuel);
    }

    /** `notifyListeners`: the `forEach` over the listener set. */
    method Notify(c: CellRef, v: Value, ls: seq<Listener>, fuel: nat) returns (out: Outcome<Unit>)
      modifies this, observer
      ensures Propagation.Notify(prog, old(State()), c, v, ls, fuel) == Res(State(), out)
      decreases fuel, 1
    {
      for i := 0 to |ls|
        invariant Propagation.Notify(prog, State(), c, v, ls[i..], fuel) == Propagation.Notify(prog, old(State()), c, v, ls, fuel)
      {
        assert ls[i..][1..] == ls[i + 1..];
        trace := trace + [Fired(c, ls[i], v)];
        var f := Fire(ls[i], v, fuel);
        if f.Throw? {
          return f;
        }
      }
      out := Ok(Unit);
    }

    method Fire(l: Listener, v: Value, fuel: nat) returns (out: Outcome<Unit>)
      modifies this, observer
      ensures Propagation.Fire(prog, old(State()), l, v, fuel) == Res(State(), out)
      decreases fuel, 0
    {
      match l
      case Record(tag) =>
        trace := trace + [Received(tag, v)];
        out := Ok(Unit);
      case Throwing(_) =>
        out := Throw(Propagation.ListenerError);
      case Rebuild(_, scope) =>
        out := Rebuild(scope, fuel);
      case _ =>
        if fuel == 0 {
          return Throw(RangeError);
        }
        out := FireLink(l, v, fuel - 1);
    }

    /** A call of a listener the library links providers with, when there is fuel left for it. */
    method FireLink(l: Listener, v: Value, fuel: nat) returns (out: Outcome<Unit>)
      requires l.Propagate? || l.Bridge?
      modifies this, observer
      ensures Propagation.Fire(prog, old(State()), l, v, fuel + 1) == Res(State(), out)
      decreases fuel, 4
    {
      if l.Propagate? {
        out := Update(l.child, CombineWith(l.combine, v), fuel);
      } else {
        out := Bridged(l.notifierProvider, fuel);
      }
    }

    method Bridged(np: CellRef, fuel: nat) returns (out: Outcome<Unit>)
      modifies this, observer
      ensures Propagation.Bridged(prog, old(State()), np, fuel) == Res(State(), out)
      decreases fuel, 3
    {
      out := Update(np, Identity, fuel);
      if out.Throw? {
        return;
      }
      var rd := Read(np, fuel);
      if rd.Throw? {
        return Throw(rd.error);
      }
      out := Notify(np, rd.value, cells[np].listeners, fuel);
    }

    method Watch(c: CellRef, l: Listener, immediate: bool, fuel: nat) returns (out: Outcome<Unit>)
      modifies this, observer
      ensures Propagation.Watch(prog, old(State()), c, l, immediate, fuel) == Res(State(), out)
    {
      if c >= |cells| {
        return Throw(Cells.NotAProvider);
      }
      Subscribe(c, l);
      if !immediate {
        return Ok(Unit);
      }
      var rd := Read(c, fuel);
      if rd.Throw? {
        return Throw(rd.error);
      }
      trace := trace + [Fired(c, l, rd.value)];
      out := Fire(l, rd.value, fuel);
    }

    method RefUpdate(c: CellRef, f: UpdateFn, fuel: nat) returns (out: Outcome<Unit>)
      modifies this, observer
      ensures Propagation.RefUpdate(prog, old(State()), c, f, fuel) == Res(State(), out)
    {
      var before := Read(c, fuel);
      if before.Throw? {
        return Throw(before.error);
      }
      out := Update(c, f, fuel);
      if out.Throw? {
        return;
      }
      var after := Read(c, fuel);
      if after.Throw? {
        return Throw(after.error);
      }
      if cells[c].logOn {
        observer.LogUpdate(cells[c].name, before.value, after.value, prog.isLarge);
      }
      out := Ok(Unit);
    }

    // -------------------------------------------------------------------------
    // Notifier and NotifierProvider
    // -------------------------------------------------------------------------

    method NewNotifier(className: string, build: nat, throws: bool, randomName: string) returns (n: NotifierRef)
      modifies this
      ensures Propagation.NewNotifier(old(State()), className, build, throws, randomName) == (State(), n)
    {
      var c := CreateProvider(Factory([], build, throws), className, randomName);
      n := |notifiers|;
      notifiers := notifiers + [NotifierObj(className, c)];
    }

    method NotifierState(n: NotifierRef, fuel: nat) returns (out: Outcome<Value>)
      modifies this, observer
      ensures Propagation.NotifierState(prog, old(State()), n, fuel) == Res(State(), out)
    {
      out := Read(if n < |notifiers| then notifiers[n].cell else |cells|, fuel);
    }

    method NotifierUpdate(n: NotifierRef, f: nat, fuel: nat) returns (out: Outcome<Unit>)
      modifies this, observer
      ensures Propagation.NotifierUpdate(prog, old(State()), n, f, fuel) == Res(State(), out)
    {
      out := Update(if n < |notifiers| then notifiers[n].cell else |cells|, Apply(f), fuel);
    }

    method NotifierWatch(n: NotifierRef, l: Listener, fuel: nat) returns (out: Outcome<Unit>)
      modifies this, observer
      ensures Propagation.NotifierWatch(prog, old(State()), n, l, fuel) == Res(State(), out)
    {
      out := Watch(if n < |notifiers| then notifiers[n].cell else |cells|, l, true, fuel);
    }

    method NewNotifierProvider(className: string, build: nat, throws: bool, randomName: string, fuel: nat) returns (out: Outcome<CellRef>)
      modifies this, observer
      ensures Propagation.NewNotifierProvider(prog, old(State()), className, build, throws, randomName, fuel) == Res(State(), out)
    {
      ghost var w := State();
      var np := |cells|;
      cells := cells + [Cell("", NotifierBacked(|notifiers|), Null, false, [], map[], true)];
      ghost var w1 := State();
      assert w1 == w.(cells := w.cells + [Cell("", NotifierBacked(|w.notifiers|), Null, false, [], map[], true)]);
      var n := NewNotifier(className, build, throws, randomName);
      ghost var w2 := State();
      assert (w2, n) == Propagation.NewNotifier(w1, className, build, throws, randomName);
      SetIsActivedLog(np, false);
      ghost var w3 := State();
      assert w3 == Cells.SetIsActivedLog(w2, np, false);
      var l := Bridge(tokens, np);
      tokens := tokens + 1;
      ghost var w4 := State();
      assert w4 == w3.(tokens := w3.tokens + 1);
      var wt := NotifierWatch(n, l, fuel);
      out := if wt.Throw? then Throw(wt.error) else Ok(np);
      assert Propagation.NewNotifierProvider(prog, w, className, build, throws, randomName, fuel) == Res(State(), out) by {
        assert Res(State(), wt) == Propagation.NotifierWatch(prog, w4, n, l, fuel);
        assert l == Bridge(w3.tokens, np);
      }
    }

    // -------------------------------------------------------------------------
    // View construction
    // -------------------------------------------------------------------------

    method NewBaseView() returns (out: Outcome<ViewRef>)
      modifies this
      ensures Views.NewBaseView(old(State())) == Res(State(), out)
    {
      dom := dom + [Blank("div")];
      dom := dom + [Blank("div")];
      uids := uids + 1;
      out := Throw(TypeError("View"));
    }

    method NewView(k: Kind) returns (out: Outcome<ViewRef>)
      modifies this
      ensures Views.NewView(old(State()), k) == Res(State(), out)
    {
      if k.ScaffoldView? {
        var check := Scaffold.CheckHeader(Views.HeaderCheck(State(), k.header));
        if check.Throw? {
          return Throw(check.error);
        }
      }
      var e := |dom|;
      dom := dom + [Blank("div")];
      var cache := |dom|;
      dom := dom + [Blank("div")];
      var v := |views|;
      views := views + [ViewNode(k, uids, e, cache, NoChild)];
      uids := uids + 1;
      assert State() == old(State()).(dom := CreateElement(CreateElement(old(dom), "div").0, "div").0, views := views, uids := uids);
      if k.ScopeView? || k.LimitedScopeView? {
        var s := IterateProviders(v, k.providers);
        out := if s.Throw? then Throw(s.error) else Ok(v);
      } else {
        out := Ok(v);
      }
    }

    /** `_iterateProviders`: the `forEach` over the providers array. */
    method IterateProviders(v: ViewRef, ps: seq<CellRef>) returns (out: Outcome<Unit>)
      modifies this
      ensures Views.IterateProviders(old(State()), v, ps) == Res(State(), out)
    {
      for i := 0 to |ps|
        invariant Views.IterateProviders(State(), v, ps[i..]) == Views.IterateProviders(old(State()), v, ps)
      {
        assert ps[i..][1..] == ps[i + 1..];
        if ps[i] >= |cells| {
          return Throw(Cells.NotAProvider);
        }
        ghost var w := State();
        Subscribe(ps[i], Listener.Rebuild(tokens, v));
        tokens := tokens + 1;
        assert State() == Cells.Subscribe(w, ps[i], Listener.Rebuild(w.tokens, v)).(tokens := w.tokens + 1);
        Views.IterateProvidersStep(w, v, ps[i..]);
      }
      out := Ok(Unit);
    }

    method Instantiate(spec: Spec) returns (out: Outcome<ViewRef>)
      modifies this
      ensures Views.Instantiate(old(State()), spec) == Res(State(), out)
      decreases spec
    {
      match spec
      case Existing(v) =>
        out := Ok(v);
      case NewLeaf(className, tag, style, text) =>
        out := NewView(Custom(className, tag, style, text, NoBody, None));
      case NewColumn(children, hCenter) =>
        var cs := InstantiateAll(children);
        if cs.Throw? {
          return Throw(cs.error);
        }
        out := NewView(ColumnView(Views.Somes(cs.value), hCenter));
    }

    method InstantiateAll(specs: seq<Spec>) returns (out: Outcome<seq<ViewRef>>)
      modifies this
      ensures Views.InstantiateAll(old(State()), specs) == Res(State(), out)
      decreases specs
    {
      if specs == [] {
        return Ok([]);
      }
      var first := Instantiate(specs[0]);
      if first.Throw? {
        return Throw(first.error);
      }
      var rest := InstantiateAll(specs[1..]);
      out := if rest.Throw? then rest else Ok([first.value] + rest.value);
    }

    method InstantiateOpts(specs: seq<Option<Spec>>) returns (out: Outcome<seq<Option<ViewRef>>>)
      modifies this
      ensures Views.InstantiateOpts(old(State()), specs) == Res(State(), out)
      decreases |specs|
    {
      if specs == [] {
        return Ok([]);
      }
      var first: Option<ViewRef> := None;
      if specs[0].Some? {
        var i := Instantiate(specs[0].value);
        if i.Throw? {
          return Throw(i.error);
        }
        first := Some(i.value);
      }
      var rest := InstantiateOpts(specs[1..]);
      out := if rest.Throw? then rest else Ok([first] + rest.value);
    }

    // -------------------------------------------------------------------------
    // build
    // -------------------------------------------------------------------------

    /** `providers.map(p => p.read())`. */
    method ReadAll(ps: seq<CellRef>, fuel: nat) returns (out: Outcome<seq<Value>>)
      modifies this, observer
      ensures Views.ReadAll(prog, old(State()), ps, [], fuel) == Res(State(), out)
    {
      var vals := [];
      for i := 0 to |ps|
        invariant Views.ReadAll(prog, State(), ps[i..], vals, fuel) == Views.ReadAll(prog, old(State()), ps, [], fuel)
      {
        assert ps[i..][1..] == ps[i + 1..];
        var rd := Read(ps[i], fuel);
        if rd.Throw? {
          return Throw(rd.error);
        }
        vals := vals + [rd.value];
      }
      out := Ok(vals);
    }

    method Build(v: ViewRef, fuel: nat) returns (out: Outcome<ViewChild>)
      requires v < |views|
      modifies this, observer
      ensures Views.Build(prog, old(State()), v, fuel) == Res(State(), out)
    {
      trace := trace + [HookRan(v, Hook.Build)];
      match views[v].kind
      case Custom(_, _, _, _, body, _) =>
        out := BuildBody(body);
      case ColumnView(children, _) =>
        out := Ok(Many(children));
      case HeaderView(child, _) =>
        out := Ok(One(child));
      case PaddingView(_, child) =>
        out := Ok(One(child));
      case MarginView(_, child) =>
        out := Ok(One(child));
      case ScaffoldView(header, child, footer) =>
        var col := NewView(ColumnView(Views.Somes(Scaffold.Children(header, child, footer)), false));
        out := match col case Throw(err) => Throw(err) case Ok(c) => Ok(One(c));
      case ScopeView(_, _) =>
        out := Ok(NoChild);
      case LimitedScopeView(providers, builder) =>
        var vals := ReadAll(providers, fuel);
        if vals.Throw? {
          return Throw(vals.error);
        }
        var i := Instantiate(prog.builders(builder)(vals.value));
        out := if i.Throw? then Throw(i.error) else Ok(One(i.value));
    }

    /** What an application view's `build` constructs from its body. */
    method BuildBody(body: Body) returns (out: Outcome<ViewChild>)
      modifies this
      ensures
        var w := old(State());
        Res(State(), out) ==
          match body
          case NoBody => Res(w, Ok(NoChild))
          case SingleBody(spec) =>
            var i := Views.Instantiate(w, spec);
            Res(i.w, if i.out.Throw? then Throw(i.out.error) else Ok(One(i.out.value)))
          case ArrayBody(specs) =>
            var i := Views.InstantiateOpts(w, specs);
            Res(i.w, if i.out.Throw? then Throw(i.out.error) else Ok(Many(i.out.value)))
    {
      match body
      case NoBody =>
        out := Ok(NoChild);
      case SingleBody(spec) =>
        var i := Instantiate(spec);
        out := if i.Throw? then Throw(i.error) else Ok(One(i.value));
      case ArrayBody(specs) =>
        var i := InstantiateOpts(specs);
        out := if i.Throw? then Throw(i.error) else Ok(Many(i.value));
    }

    // -------------------------------------------------------------------------
    // assemble
    // -------------------------------------------------------------------------

    method AssembleWrap(v: ViewRef) returns (out: Outcome<ElemRef>)
      requires v < |views|
      modifies this
      ensures Views.AssembleWrap(old(State()), v) == Res(State(), out)
    {
      var k := views[v].kind;
      trace := trace + [HookRan(v, CreateWrapView)];
      if Views.Broken(k) == Some(CreateWrapView) {
        return Throw(TypeError(Views.HookName(CreateWrapView)));
      }
      var e := |dom|;
      dom := dom + [Blank(Views.WrapTag(k))];
      dom := dom[e := Views.StyledElement(k, dom[e])];
      trace := trace + [HookRan(v, StyledView)];
      if Views.Broken(k) == Some(StyledView) {
        return Throw(TypeError(Views.HookName(StyledView)));
      }
      trace := trace + [HookRan(v, EmbedScript)];
      if Views.Broken(k) == Some(EmbedScript) {
        return Throw(TypeError(Views.HookName(EmbedScript)));
      }
      out := Ok(e);
    }

    method Assemble(v: ViewRef, fuel: nat) returns (out: Outcome<ElemRef>)
      modifies this, observer
      ensures Views.Assemble(prog, old(State()), v, fuel) == Res(State(), out)
      decreases fuel, 0
    {
      if v >= |views| {
        return Throw(Views.NotAView);
      }
      if fuel == 0 {
        return Throw(RangeError);
      }
      trace := trace + [HookRan(v, Initialize)];
      trace := trace + [HookRan(v, PreBuild)];
      ghost var w1 := State();
      assert w1 == Emit(Emit(old(State()), HookRan(v, Initialize)), HookRan(v, PreBuild));
      var b := Build(v, fuel - 1);
      ghost var rb := Views.Build(prog, w1, v, fuel - 1);
      assert rb == Res(State(), b);
      if b.Throw? {
        return Throw(b.error);
      }
      views := views[v := views[v].(child := b.value)];
      assert State() == SetView(rb.w, v, rb.w.views[v].(child := rb.out.value));
      out := Wrapped(v, fuel - 1);
    }

    method Wrapped(v: ViewRef, fuel: nat) returns (out: Outcome<ElemRef>)
      requires v < |views|
      modifies this, observer
      ensures Views.Wrapped(prog, old(State()), v, fuel) == Res(State(), out)
      decreases fuel, 3
    {
      trace := trace + [HookRan(v, PostBuild)];
      trace := trace + [HookRan(v, Terminate)];
      var wrap := AssembleWrap(v);
      if wrap.Throw? {
        return Throw(wrap.error);
      }
      var copy := |dom|;
      dom := dom + [dom[wrap.value].(children := [], parent := None)];
      trace := trace + [HookRan(v, EmbedScript)];
      views := views[v := views[v].(cache := copy)];
      var vd := ViewData(v, views[v].child, views[v].cache, fuel);
      if vd.Throw? {
        return Throw(vd.error);
      }
      out := Ok(views[v].elem);
    }

    method ViewData(v: ViewRef, child: ViewChild, e: ElemRef, fuel: nat) returns (out: Outcome<Unit>)
      requires v < |views| && e < |dom|
      modifies this, observer
      ensures Views.ViewData(prog, old(State()), v, child, e, fuel) == Res(State(), out)
      decreases fuel, 2
    {
      match child
      case NoChild =>
        Finish(v, e);
        out := Ok(Unit);
      case One(c) =>
        var a := Assemble(c, fuel);
        if a.Throw? {
          return Throw(a.error);
        }
        dom := AppendChild(dom, e, a.value);
        Finish(v, e);
        out := Ok(Unit);
      case Many(cs) =>
        out := Multi(e, cs, fuel);
        if out.Throw? {
          return;
        }
        Finish(v, e);
        out := Ok(Unit);
    }

    method Finish(v: ViewRef, e: ElemRef)
      requires v < |views| && e < |dom|
      modifies this
      ensures Views.Finish(old(State()), v, e) == State()
    {
      views := views[v := views[v].(elem := e)];
      dom := Stamp(dom, e, Uuid(views[v].uid), ClassName(views[v].kind));
    }

    /** `assembleMultiView`: the `forEach` over the children array. */
    method Multi(e: ElemRef, cs: seq<Option<ViewRef>>, fuel: nat) returns (out: Outcome<Unit>)
      modifies this, observer
      ensures Views.Multi(prog, old(State()), e, cs, fuel) == Res(State(), out)
      decreases fuel, 1
    {
      for i := 0 to |cs|
        invariant Views.Multi(prog, State(), e, cs[i..], fuel) == Views.Multi(prog, old(State()), e, cs, fuel)
      {
        assert cs[i..][1..] == cs[i + 1..];
        if cs[i].Some? {
          var a := Assemble(cs[i].value, fuel);
          if a.Throw? {
            return Throw(a.error);
          }
          dom := AppendChild(dom, e, a.value);
        }
      }
      out := Ok(Unit);
    }

    // -------------------------------------------------------------------------
    // rebuild, assembleComplete, dispose
    // -------------------------------------------------------------------------

    method Rebuild(v: ViewRef, fuel: nat) returns (out: Outcome<Unit>)
      modifies this, observer
      ensures Views.Rebuild(prog, old(State()), v, fuel) == Res(State(), out)
    {
      if v >= |views| {
        return Throw(Views.NotAView);
      }
      trace := trace + [HookRan(v, PreBuild)];
      var live := GetElementById(dom, Views.ViewId(State(), v));
      if live.None? {
        return Ok(Unit);
      }
      out := RebuildLive(v, live.value, fuel);
    }

    method RebuildLive(v: ViewRef, t: ElemRef, fuel: nat) returns (out: Outcome<Unit>)
      requires v < |views| && t < |dom|
      modifies this, observer
      ensures Views.RebuildLive(prog, old(State()), v, t, fuel) == Res(State(), out)
    {
      var b := Build(v, fuel);
      if b.Throw? {
        return Throw(b.error);
      }
      views := views[v := views[v].(child := b.value)];
      if views[v].cache >= |dom| {  // the model's guard, as in Views.RebuildLive
        return Throw(Views.NotAView);
      }
      out := ViewData(v, views[v].child, views[v].cache, fuel);
      if out.Throw? {
        return;
      }
      out := Replace(v, t, fuel);
    }

    method Replace(v: ViewRef, t: ElemRef, fuel: nat) returns (out: Outcome<Unit>)
      requires v < |views| && t < |dom|
      modifies this
      ensures Views.Replace(old(State()), v, t, fuel) == Res(State(), out)
    {
      RemoveAllChildren(t);
      out := AppendViews(t, views[v].child);
      if out.Throw? {
        return;
      }
      trace := trace + [HookRan(v, PostBuild)];
      out := AssembleComplete(v, fuel);
    }

    /** `while (t.firstChild) t.removeChild(t.firstChild)`. */
    method RemoveAllChildren(t: ElemRef)
      requires t < |dom|
      modifies this
      ensures State() == old(State()).(dom := Dom.RemoveAllChildren(old(dom), t))
    {
      while dom[t].children != []
        invariant |dom| == |old(dom)|
        invariant Dom.RemoveAllChildren(dom, t) == Dom.RemoveAllChildren(old(dom), t)
        invariant State() == old(State()).(dom := dom)
        decreases |dom[t].children|
      {
        dom := RemoveFirstChild(dom, t);
      }
    }

    method AppendViews(t: ElemRef, child: ViewChild) returns (out: Outcome<Unit>)
      modifies this
      ensures Views.AppendViews(old(State()), t, child) == Res(State(), out)
    {
      match child
      case NoChild =>
        out := Ok(Unit);
      case One(c) =>
        if c >= |views| {
          return Throw(Views.NotAView);
        }
        dom := AppendChild(dom, t, views[c].elem);
        out := Ok(Unit);
      case Many(cs) =>
        out := AppendAll(t, cs);
    }

    /** The `forEach` appending each array child's element. */
    method AppendAll(t: ElemRef, cs: seq<Option<ViewRef>>) returns (out: Outcome<Unit>)
      modifies this
      ensures Views.AppendAll(old(State()), t, cs) == Res(State(), out)
    {
      for i := 0 to |cs|
        invariant Views.AppendAll(State(), t, cs[i..]) == Views.AppendAll(old(State()), t, cs)
      {
        assert cs[i..][1..] == cs[i + 1..];
        if cs[i].None? || cs[i].value >= |views| {
          return Throw(Views.NotAView);
        }
        dom := AppendChild(dom, t, views[cs[i].value].elem);
      }
      out := Ok(Unit);
    }

    method AssembleComplete(v: ViewRef, fuel: nat) returns (out: Outcome<Unit>)
      modifies this
      ensures Views.AssembleComplete(old(State()), v, fuel) == Res(State(), out)
      decreases fuel, 0
    {
      if v >= |views| {
        return Throw(Views.NotAView);
      }
      if fuel == 0 {
        return Throw(RangeError);
      }
      out := CompleteAll(Views.ChildList(views[v].child), fuel - 1);
    }

    /** The `forEach` of `assembleComplete` over the children. */
    method CompleteAll(cs: seq<Option<ViewRef>>, fuel: nat) returns (out: Outcome<Unit>)
      modifies this
      ensures Views.CompleteAll(old(State()), cs, fuel) == Res(State(), out)
      decreases fuel, 1
    {
      for i := 0 to |cs|
        invariant Views.CompleteAll(State(), cs[i..], fuel) == Views.CompleteAll(old(State()), cs, fuel)
      {
        assert cs[i..][1..] == cs[i + 1..];
        if cs[i].Some? {
          out := AssembleComplete(cs[i].value, fuel);
          if out.Throw? {
            return;
          }
          trace := trace + [HookRan(cs[i].value, Hook.AssembleComplete)];
        }
      }
      out := Ok(Unit);
    }

    method Dispose(v: ViewRef, fuel: nat) returns (out: Outcome<Unit>)
      modifies this
      ensures Views.Dispose(old(State()), v, fuel) == Res(State(), out)
      decreases fuel, 0
    {
      if v >= |views| {
        return Throw(Views.NotAView);
      }
      if fuel == 0 {
        return Throw(RangeError);
      }
      out := DisposeAll(Views.ChildList(views[v].child), fuel - 1);
      if out.Throw? {
        return;
      }
      trace := trace + [HookRan(v, Hook.Dispose)];
      out := Ok(Unit);
    }

    /** The `forEach` of `dispose` over the children. */
    method DisposeAll(cs: seq<Option<ViewRef>>, fuel: nat) returns (out: Outcome<Unit>)
      modifies this
      ensures Views.DisposeAll(old(State()), cs, fuel) == Res(State(), out)
      decreases fuel, 1
    {
      for i := 0 to |cs|
        invariant Views.DisposeAll(State(), cs[i..], fuel) == Views.DisposeAll(old(State()), cs, fuel)
      {
        assert cs[i..][1..] == cs[i + 1..];
        if cs[i].None? {
          return Throw(Views.NotAView);
        }
        out := Dispose(cs[i].value, fuel);
        if out.Throw? {
          return;
        }
      }
      out := Ok(Unit);
    }

    // -------------------------------------------------------------------------
    // assembleView
    // -------------------------------------------------------------------------

    method AssembleView(v: ViewRef, fuel: nat, idName: string := Views.DefaultContainerId) returns (out: Outcome<ElemRef>)
      modifies this, observer
      ensures Views.AssembleView(prog, old(State()), v, fuel, idName) == Res(State(), out)
    {
      var a := Assemble(v, fuel);
      if a.Throw? {
        return Throw(a.error);
      }
      var container := GetElementById(dom, IdOf(idName));
      if container.Some? {
        dom := AppendChild(dom, container.value, a.value);
      }
      var c := AssembleComplete(v, fuel);
      out := if c.Throw? then Throw(c.error) else Ok(a.value);
    }
  }
}

=== FILE: scaffold.dfy ===
/** The `Scaffold` component: its header check, its styling and the children its build lays out. */
module Scaffold {
  import opened Values
  import opened Styles

  /**
   * The children `build` pushes, in order: the header if present, the child, the
   * footer if present. `drawer` and `floatingActionButton` take no part.
   */
  function Children<V>(header: Option<V>, child: V, footer: Option<V>): (cs: seq<V>)
    ensures 1 <= |cs| <= 3
    ensures |cs| == 1 + (if header.Some? then 1 else 0) + (if footer.Some? then 1 else 0)
    ensures cs[if header.Some? then 1 else 0] == child
    ensures header.Some? ==> cs[0] == header.value
    ensures footer.Some? ==> cs[|cs| - 1] == footer.value
  {
    var withHeader := if header.Some? then [header.value] else [];
    var withChild := withHeader + [child];
    if footer.Some? then withChild + [footer.value] else withChild
  }

  /** The constructor check: a present header must be a `Header`; otherwise a TypeError. */
  function CheckHeader(header: Option<bool>): (r: Outcome<Unit>)
    ensures r.Throw? <==> header == Some(false)
    ensures r.Throw? ==> r.error.TypeError?
  {
    if header.Some? && !header.value then Throw(TypeError("Scaffold header")) else Ok(Unit)
  }

  /** `styledView`: the scaffold fills its container; nothing else changes. */
  function StyledView(s: Style): (r: Style)
    ensures "width" in r && r["width"] == "100%" && "height" in r && r["height"] == "100%"
    ensures forall k :: k != "width" && k != "height" ==> Same(s, r, k)
  {
    Set(Set(s, "width", "100%"), "height", "100%")
  }
}

=== FILE: scope_props.dfy ===
/**
 * Properties of `ProviderScope` and `LimitedProviderScope`: what construction
 * subscribes, what a scope shows, what its `rebuild` does to the live page, and
 * what a limited scope's builder receives.
 */
module ScopeProps {
  import opened Values
  import opened Dom
  import opened Observer
  import opened World
  import Cells
  import opened Views
  import ViewProps

  // ---------------------------------------------------------------------------
  // Construction
  // ---------------------------------------------------------------------------

  /** One step of `_iterateProviders`: entry `c` gets the scope's listener with the next token. */
  function SubscribeNext(w: World, v: ViewRef, c: CellRef): (r: World)
    requires c < |w.cells|
    ensures r.cells == w.cells[c := w.cells[c].(listeners := SetAdd(w.cells[c].listeners, Listener.Rebuild(w.tokens, v)))]
    ensures r.tokens == w.tokens + 1
  {
    Cells.Subscribe(w, c, Listener.Rebuild(w.tokens, v)).(tokens := w.tokens + 1)
  }

  /** One turn of `_iterateProviders`, in terms of `SubscribeNext`. */
  lemma IterateProvidersNext(w: World, v: ViewRef, ps: seq<CellRef>)
    requires ps != [] && ps[0] < |w.cells|
    ensures IterateProviders(w, v, ps) == IterateProviders(SubscribeNext(w, v, ps[0]), v, ps[1..])
  {
    Views.IterateProvidersStep(w, v, ps);
  }

  /** `_iterateProviders` succeeds exactly when every entry is a provider, and adds no cell. */
  lemma {:induction false} IterateProvidersOk(w: World, v: ViewRef, ps: seq<CellRef>)
    ensures var r := IterateProviders(w, v, ps);
      && (r.out.Ok? <==> forall i :: 0 <= i < |ps| ==> ps[i] < |w.cells|)
      && |r.w.cells| == |w.cells|
    decreases |ps|
  {
    if ps != [] && ps[0] < |w.cells| {
      IterateProvidersNext(w, v, ps);
      IterateProvidersOk(SubscribeNext(w, v, ps[0]), v, ps[1..]);
      assert forall i :: 1 <= i < |ps| ==> ps[i] == ps[1..][i - 1];
    }
  }

  /** `_iterateProviders` changes nothing but listener sets, and only those of its entries. */
  lemma {:induction false} IterateProvidersFrame(w: World, v: ViewRef, ps: seq<CellRef>)
    ensures var r := IterateProviders(w, v, ps);
      && |r.w.cells| == |w.cells|
      && (forall c :: 0 <= c < |w.cells| ==> r.w.cells[c] == w.cells[c].(listeners := r.w.cells[c].listeners))
      && (forall c :: 0 <= c < |w.cells| && c !in ps ==> r.w.cells[c] == w.cells[c])
    decreases |ps|
  {
    if ps != [] && ps[0] < |w.cells| {
      var w1 := SubscribeNext(w, v, ps[0]);
      IterateProvidersNext(w, v, ps);
      IterateProvidersFrame(w1, v, ps[1..]);
      forall c | 0 <= c < |w.cells| && c !in ps
        ensures IterateProviders(w, v, ps).w.cells[c] == w.cells[c]
      {
        assert c !in ps[1..];
      }
    }
  }

  /** `_iterateProviders` removes no listener. */
  lemma {:induction false} IterateProvidersKeeps(w: World, v: ViewRef, ps: seq<CellRef>, c: CellRef, l: Listener)
    requires c < |w.cells| && l in w.cells[c].listeners
    ensures var r := IterateProviders(w, v, ps);
      c < |r.w.cells| && l in r.w.cells[c].listeners
    decreases |ps|
  {
    if ps != [] && ps[0] < |w.cells| {
      var w1 := SubscribeNext(w, v, ps[0]);
      IterateProvidersNext(w, v, ps);
      IterateProvidersKeeps(w1, v, ps[1..], c, l);
    }
  }

  /**
   * Every listener `_iterateProviders` adds is the scope's own, with one of the
   * tokens it consumed, on the entry that token was drawn for.
   */
  lemma {:induction false} IterateProvidersOnlyScope(w: World, v: ViewRef, ps: seq<CellRef>, c: CellRef, l: Listener)
    requires var r := IterateProviders(w, v, ps);
      c < |w.cells| && c < |r.w.cells| && l in r.w.cells[c].listeners && l !in w.cells[c].listeners
    ensures l.Rebuild? && l.scope == v && w.tokens <= l.token < w.tokens + |ps| && ps[l.token - w.tokens] == c
    decreases |ps|
  {
    if ps != [] && ps[0] < |w.cells| {
      var w1 := SubscribeNext(w, v, ps[0]);
      IterateProvidersNext(w, v, ps);
      if l in w1.cells[c].listeners {
        assert c == ps[0] && l == Listener.Rebuild(w.tokens, v);
      } else {
        IterateProvidersOnlyScope(w1, v, ps[1..], c, l);
        assert ps[l.token - w.tokens] == ps[1..][l.token - w1.tokens];
      }
    }
  }

  /** How many entries of `ps`, from the start, are handles of existing cells. */
  function ProviderPrefix(n: nat, ps: seq<CellRef>): (k: nat)
    ensures k <= |ps| && forall i :: 0 <= i < k ==> ps[i] < n
    ensures k < |ps| ==> ps[k] >= n
  {
    if ps == [] || ps[0] >= n then 0 else 1 + ProviderPrefix(n, ps[1..])
  }

  /**
   * The i-th entry holds the scope's listener with the i-th fresh token, for every
   * entry before the first one that is not a provider.
   */
  lemma {:induction false} IterateProvidersAdds(w: World, v: ViewRef, ps: seq<CellRef>, i: nat)
    requires i < ProviderPrefix(|w.cells|, ps)
    ensures var r := IterateProviders(w, v, ps);
      ps[i] < |r.w.cells| && Listener.Rebuild(w.tokens + i, v) in r.w.cells[ps[i]].listeners
    decreases |ps|
  {
    assert ps[0] < |w.cells|;
    IterateProvidersNext(w, v, ps);
    if i == 0 {
      AddsFirst(w, v, ps);
    } else {
      var w1 := SubscribeNext(w, v, ps[0]);
      PrefixTail(|w.cells|, ps);
      IterateProvidersAdds(w1, v, ps[1..], i - 1);
      assert ps[i] == ps[1..][i - 1];
    }
  }

  /** The first entry keeps the listener it gets in the first turn. */
  lemma AddsFirst(w: World, v: ViewRef, ps: seq<CellRef>)
    requires ps != [] && ps[0] < |w.cells|
    ensures var r := IterateProviders(SubscribeNext(w, v, ps[0]), v, ps[1..]);
      ps[0] < |r.w.cells| && Listener.Rebuild(w.tokens, v) in r.w.cells[ps[0]].listeners
  {
    var w1 := SubscribeNext(w, v, ps[0]);
    assert Listener.Rebuild(w.tokens, v) in w1.cells[ps[0]].listeners;
    IterateProvidersKeeps(w1, v, ps[1..], ps[0], Listener.Rebuild(w.tokens, v));
  }

  /** The valid prefix of a list whose first entry is valid is one longer than that of its tail. */
  lemma PrefixTail(n: nat, ps: seq<CellRef>)
    requires ps != [] && ps[0] < n
    ensures ProviderPrefix(n, ps) == 1 + ProviderPrefix(n, ps[1..])
  { }

  /**
   * `new ProviderScope({providers, child})` and `new LimitedProviderScope(...)`: the
   * new view is the next handle exactly when every entry is a provider; each entry
   * then holds that view's rebuild listener, one fresh token per entry, and nothing
   * has run.
   */
  lemma ScopeConstructionSubscribes(w: World, k: Kind)
    requires k.ScopeView? || k.LimitedScopeView?
    ensures var r := NewView(w, k);
      && (r.out.Ok? <==> forall i :: 0 <= i < |k.providers| ==> k.providers[i] < |w.cells|)
      && r.w.trace == w.trace
      && (r.out.Ok? ==> r.out.value == |w.views| && r.w.tokens == w.tokens + |k.providers|)
      && (r.out.Ok? ==> forall i :: 0 <= i < |k.providers| ==>
            Rebuild(w.tokens + i, |w.views|) in r.w.cells[k.providers[i]].listeners)
  {
    var ws := ScopeShell(w, k);
    var s := IterateProviders(ws, |w.views|, k.providers);
    assert NewView(w, k).w == s.w && (NewView(w, k).out.Ok? <==> s.out.Ok?) && (s.out.Ok? ==> NewView(w, k).out == Ok(|w.views|)) by {
      ScopeNewView(w, k);
    }
    if forall i :: 0 <= i < |k.providers| ==> k.providers[i] < |w.cells| {
      IterateProvidersAddsAll(ws, |w.views|, k.providers);
    }
    IterateProvidersOk(ws, |w.views|, k.providers);
  }

  /** When every entry is a provider, `_iterateProviders` subscribes to each of them, tokens in order. */
  lemma IterateProvidersAddsAll(w: World, v: ViewRef, ps: seq<CellRef>)
    requires forall i :: 0 <= i < |ps| ==> ps[i] < |w.cells|
    ensures var r := IterateProviders(w, v, ps);
      forall i :: 0 <= i < |ps| ==> ps[i] < |r.w.cells| && Rebuild(w.tokens + i, v) in r.w.cells[ps[i]].listeners
  {
    var n := ProviderPrefix(|w.cells|, ps);
    assert n == |ps|;
    forall i | 0 <= i < |ps|
      ensures var r := IterateProviders(w, v, ps); ps[i] < |r.w.cells| && Rebuild(w.tokens + i, v) in r.w.cells[ps[i]].listeners
    {
      IterateProvidersAdds(w, v, ps, i);
    }
  }

  /** A scope's view, with its two elements, before `_iterateProviders` runs. */
  function ScopeShell(w: World, k: Kind): (r: World)
    ensures r.cells == w.cells && r.tokens == w.tokens && r.trace == w.trace
  {
    var (d1, e) := CreateElement(w.dom, "div");
    var (d2, cache) := CreateElement(d1, "div");
    w.(dom := d2, views := w.views + [ViewNode(k, w.uids, e, cache, NoChild)], uids := w.uids + 1)
  }

  /** Constructing a scope is `_iterateProviders` on the new view. */
  lemma ScopeNewView(w: World, k: Kind)
    requires k.ScopeView? || k.LimitedScopeView?
    ensures var s := IterateProviders(ScopeShell(w, k), |w.views|, k.providers);
            NewView(w, k) == Res(s.w, if s.out.Throw? then Throw(s.out.error) else Ok(|w.views|))
  { }

  // ---------------------------------------------------------------------------
  // What a ProviderScope shows
  // ---------------------------------------------------------------------------

  /**
   * `ProviderScope` does not override `build`, so assembling it yields a copy of
   * an empty `div`: the `child` it was given is never shown.
   */
  lemma ScopeShowsNothing(p: Program, w: World, v: ViewRef, fuel: nat)
    requires v < |w.views| && w.views[v].kind.ScopeView? && fuel >= 1
    ensures var n := |w.dom|;
            var styled := StyledElement(w.views[v].kind, Blank("div"));
            && styled.children == []
            && Assemble(p, w, v, fuel)
                 == Res(w.(views := w.views[v := w.views[v].(child := NoChild, cache := n + 1, elem := n + 1)],
                           dom := w.dom + [styled, styled.(idAttr := Uuid(w.views[v].uid), viewClass := "ProviderScope")],
                           trace := w.trace + ViewProps.AssembleHooks(v)), Ok(n + 1))
  {
    var n := |w.dom|;
    var styled := StyledElement(w.views[v].kind, Blank("div"));
    var w2 := w.(views := w.views[v := w.views[v].(child := NoChild)],
                 trace := w.trace + [HookRan(v, Initialize)] + [HookRan(v, PreBuild)] + [HookRan(v, Hook.Build)]);
    assert w2.dom == w.dom && w2.views[v].kind == w.views[v].kind && w2.views[v].uid == w.views[v].uid;
    assert w2.views[v := w2.views[v].(cache := n + 1, elem := n + 1)]
        == w.views[v := w.views[v].(child := NoChild, cache := n + 1, elem := n + 1)];
    ViewProps.LeafHooksInOrder(w.trace, v);
    ScopeBuilds(p, w, v, fuel);
    ScopeWrapped(p, w2, v, fuel - 1);
  }

  /** The part of `ScopeShowsNothing` up to `build`, which returns undefined. */
  lemma ScopeBuilds(p: Program, w: World, v: ViewRef, fuel: nat)
    requires v < |w.views| && w.views[v].kind.ScopeView? && fuel >= 1
    ensures Assemble(p, w, v, fuel)
              == Wrapped(p, w.(views := w.views[v := w.views[v].(child := NoChild)],
                               trace := w.trace + [HookRan(v, Initialize)] + [HookRan(v, PreBuild)] + [HookRan(v, Hook.Build)]),
                         v, fuel - 1)
  {
    var w1 := Emit(Emit(w, HookRan(v, Initialize)), HookRan(v, PreBuild));
    var wb := Emit(w1, HookRan(v, Hook.Build));
    assert w1.views[v].kind == w.views[v].kind;
    assert Views.Build(p, w1, v, fuel - 1) == Res(wb, Ok(NoChild));
  }

  /** The part of `ScopeShowsNothing` after `build`: the wrapper, its copy, and no child. */
  lemma ScopeWrapped(p: Program, w: World, v: ViewRef, fuel: nat)
    requires v < |w.views| && w.views[v].kind.ScopeView? && w.views[v].child == NoChild
    ensures var n := |w.dom|;
            var styled := StyledElement(w.views[v].kind, Blank("div"));
            Wrapped(p, w, v, fuel)
              == Res(w.(views := w.views[v := w.views[v].(cache := n + 1, elem := n + 1)],
                        dom := w.dom + [styled, styled.(idAttr := Uuid(w.views[v].uid), viewClass := "ProviderScope")],
                        trace := w.trace + [HookRan(v, PostBuild)] + [HookRan(v, Terminate)] + [HookRan(v, CreateWrapView)]
                                 + [HookRan(v, StyledView)] + [HookRan(v, EmbedScript)] + [HookRan(v, EmbedScript)]), Ok(n + 1))
  {
    ScopeWrap(p, w, v, fuel);
    ScopeFinish(w, v);
  }

  /** The wrapper and its copy of a scope; with no child, `assembleViewData` only finishes. */
  lemma ScopeWrap(p: Program, w: World, v: ViewRef, fuel: nat)
    requires v < |w.views| && w.views[v].kind.ScopeView? && w.views[v].child == NoChild
    ensures var n := |w.dom|;
            var styled := StyledElement(w.views[v].kind, Blank("div"));
            var w5 := w.(views := w.views[v := w.views[v].(cache := n + 1)],
                         dom := w.dom + [styled, styled],
                         trace := w.trace + [HookRan(v, PostBuild)] + [HookRan(v, Terminate)] + [HookRan(v, CreateWrapView)]
                                  + [HookRan(v, StyledView)] + [HookRan(v, EmbedScript)] + [HookRan(v, EmbedScript)]);
            Wrapped(p, w, v, fuel) == Res(Finish(w5, v, n + 1), Ok(n + 1))
  {
    var n := |w.dom|;
    var k := w.views[v].kind;
    var styled := StyledElement(k, Blank("div"));
    var w3 := Emit(Emit(w, HookRan(v, PostBuild)), HookRan(v, Terminate));
    var d := w3.dom + [styled];
    var wa := Emit(Emit(Emit(w3, HookRan(v, CreateWrapView)).(dom := d), HookRan(v, StyledView)), HookRan(v, EmbedScript));
    assert AssembleWrap(w3, v) == Res(wa, Ok(n));
    assert CloneNode(wa.dom, n) == (d + [styled], n + 1);
    var w4 := Emit(wa.(dom := d + [styled]), HookRan(v, EmbedScript));
    var w5 := SetView(w4, v, w4.views[v].(cache := n + 1));
    assert w5 == w.(views := w.views[v := w.views[v].(cache := n + 1)],
                         dom := w.dom + [styled, styled],
                         trace := w.trace + [HookRan(v, PostBuild)] + [HookRan(v, Terminate)] + [HookRan(v, CreateWrapView)]
                                  + [HookRan(v, StyledView)] + [HookRan(v, EmbedScript)] + [HookRan(v, EmbedScript)]);
    assert ViewData(p, w5, v, NoChild, n + 1, fuel) == Res(Finish(w5, v, n + 1), Ok(Unit));
  }

  /** `_view` of a scope is its stamped copy. */
  lemma ScopeFinish(w: World, v: ViewRef)
    requires v < |w.views| && w.views[v].kind.ScopeView?
    ensures var n := |w.dom|;
            var styled := StyledElement(w.views[v].kind, Blank("div"));
            var w5 := w.(views := w.views[v := w.views[v].(cache := n + 1)],
                         dom := w.dom + [styled, styled],
                         trace := w.trace + [HookRan(v, PostBuild)] + [HookRan(v, Terminate)] + [HookRan(v, CreateWrapView)]
                                  + [HookRan(v, StyledView)] + [HookRan(v, EmbedScript)] + [HookRan(v, EmbedScript)]);
            Finish(w5, v, n + 1)
              == w.(views := w.views[v := w.views[v].(cache := n + 1, elem := n + 1)],
                    dom := w.dom + [styled, styled.(idAttr := Uuid(w.views[v].uid), viewClass := "ProviderScope")],
                    trace := w.trace + [HookRan(v, PostBuild)] + [HookRan(v, Terminate)] + [HookRan(v, CreateWrapView)]
                             + [HookRan(v, StyledView)] + [HookRan(v, EmbedScript)] + [HookRan(v, EmbedScript)])
  {
    var n := |w.dom|;
    var styled := StyledElement(w.views[v].kind, Blank("div"));
    var w5 := w.(views := w.views[v := w.views[v].(cache := n + 1)],
                         dom := w.dom + [styled, styled],
                         trace := w.trace + [HookRan(v, PostBuild)] + [HookRan(v, Terminate)] + [HookRan(v, CreateWrapView)]
                                  + [HookRan(v, StyledView)] + [HookRan(v, EmbedScript)] + [HookRan(v, EmbedScript)]);
    var f := Finish(w5, v, n + 1);
    assert f.views == w.views[v := w.views[v].(cache := n + 1, elem := n + 1)];
    assert f.dom == w.dom + [styled, styled.(idAttr := Uuid(w.views[v].uid), viewClass := "ProviderScope")];
  }

  /**
   * `rebuild` of a `ProviderScope` whose element is live: preBuild, build and
   * postBuild run, the live element is emptied and stays empty (build returns
   * undefined), `_view` becomes `viewCache`, and no provider changes.
   */
  lemma ScopeRebuildEmpties(p: Program, w: World, v: ViewRef, t: ElemRef, fuel: nat)
    requires v < |w.views| && w.views[v].kind.ScopeView? && fuel >= 1
    requires GetElementById(w.dom, ViewId(w, v)) == Some(t)
    requires w.views[v].cache < |w.dom|
    ensures var r := Views.Rebuild(p, w, v, fuel);
      && r.out == Ok(Unit)
      && r.w.dom[t].children == []
      && r.w.views[v].child == NoChild
      && r.w.views[v].elem == w.views[v].cache
      && r.w.cells == w.cells
      && r.w.trace == w.trace + [HookRan(v, PreBuild), HookRan(v, Hook.Build), HookRan(v, PostBuild)]
  {
    var w1 := Emit(w, HookRan(v, PreBuild));
    assert ViewId(w1, v) == ViewId(w, v);
    assert Views.Rebuild(p, w, v, fuel) == RebuildLive(p, w1, v, t, fuel);
    ScopeRebuildLive(p, w1, v, t, fuel);
    Regroup(w.trace, [HookRan(v, PreBuild)], [HookRan(v, Hook.Build), HookRan(v, PostBuild)],
            [HookRan(v, PreBuild), HookRan(v, Hook.Build), HookRan(v, PostBuild)]);
  }

  /** The part of `ScopeRebuildEmpties` after preBuild, once the live element `t` is found. */
  lemma ScopeRebuildLive(p: Program, w: World, v: ViewRef, t: ElemRef, fuel: nat)
    requires v < |w.views| && w.views[v].kind.ScopeView? && fuel >= 1
    requires t < |w.dom| && w.views[v].cache < |w.dom|
    ensures var r := RebuildLive(p, w, v, t, fuel);
      && r.out == Ok(Unit)
      && r.w.dom[t].children == []
      && r.w.views[v].child == NoChild
      && r.w.views[v].elem == w.views[v].cache
      && r.w.cells == w.cells
      && r.w.trace == w.trace + [HookRan(v, Hook.Build), HookRan(v, PostBuild)]
  {
    var b := Views.Build(p, w, v, fuel);
    assert b == Res(Emit(w, HookRan(v, Hook.Build)), Ok(NoChild));
    var w2 := SetView(b.w, v, b.w.views[v].(child := NoChild));
    var cache := w.views[v].cache;
    var fin := Finish(w2, v, cache);
    assert ViewData(p, w2, v, NoChild, cache, fuel) == Res(fin, Ok(Unit));
    var w3 := SetDom(fin, RemoveAllChildren(fin.dom, t));
    assert AppendViews(w3, t, NoChild) == Res(w3, Ok(Unit));
    var w4 := Emit(w3, HookRan(v, PostBuild));
    assert Views.AssembleComplete(w4, v, fuel) == Res(w4, Ok(Unit));
    assert RebuildLive(p, w, v, t, fuel) == Res(w4, Ok(Unit));
    Regroup(w.trace, [HookRan(v, Hook.Build)], [HookRan(v, PostBuild)], [HookRan(v, Hook.Build), HookRan(v, PostBuild)]);
  }

  // ---------------------------------------------------------------------------
  // LimitedProviderScope
  // ---------------------------------------------------------------------------

  /** Whether every entry of `ps` is a provider that has already been read. */
  predicate AllInitialized(w: World, ps: seq<CellRef>)
  {
    forall i :: 0 <= i < |ps| ==> ps[i] < |w.cells| && w.cells[ps[i]].kind.Plain? && w.cells[ps[i]].initialized
  }

  /** The stored values of the entries of `ps`, in array order. */
  function CurrentValues(w: World, ps: seq<CellRef>): (vals: seq<Value>)
    requires forall i :: 0 <= i < |ps| ==> ps[i] < |w.cells|
    ensures |vals| == |ps| && forall i :: 0 <= i < |ps| ==> vals[i] == w.cells[ps[i]].value
  {
    if ps == [] then [] else [w.cells[ps[0]].value] + CurrentValues(w, ps[1..])
  }

  /**
   * `providers.map(p => p.read())` over providers already read: nothing runs and
   * nothing changes, and the values come back in array order after `acc`.
   */
  lemma {:induction false} ReadAllInitialized(p: Program, w: World, ps: seq<CellRef>, acc: seq<Value>, fuel: nat)
    requires AllInitialized(w, ps)
    ensures ReadAll(p, w, ps, acc, fuel) == Res(w, Ok(acc + CurrentValues(w, ps)))
    decreases |ps|
  {
    if ps != [] {
      var x := w.cells[ps[0]].value;
      ReadAllFirst(p, w, ps, acc, fuel);
      AllInitializedTail(w, ps);
      ReadAllInitialized(p, w, ps[1..], acc + [x], fuel);
      assert CurrentValues(w, ps) == [x] + CurrentValues(w, ps[1..]);
      Regroup(acc, [x], CurrentValues(w, ps[1..]), CurrentValues(w, ps));
    } else {
      assert acc + CurrentValues(w, ps) == acc;
    }
  }

  /** Reading a provider that has already been read changes nothing, so the map moves on. */
  lemma ReadAllFirst(p: Program, w: World, ps: seq<CellRef>, acc: seq<Value>, fuel: nat)
    requires ps != [] && ps[0] < |w.cells| && w.cells[ps[0]].kind.Plain? && w.cells[ps[0]].initialized
    ensures ReadAll(p, w, ps, acc, fuel) == ReadAll(p, w, ps[1..], acc + [w.cells[ps[0]].value], fuel)
  {
    assert Cells.Read(p, w, ps[0], fuel) == Res(w, Ok(w.cells[ps[0]].value));
  }

  lemma AllInitializedTail(w: World, ps: seq<CellRef>)
    requires ps != [] && AllInitialized(w, ps)
    ensures AllInitialized(w, ps[1..])
  {
    forall i | 0 <= i < |ps[1..]| ensures ps[1..][i] == ps[i + 1] { }
  }

  /**
   * `build` of a `LimitedProviderScope` whose providers have been read: the builder
   * is called once, with the providers' current values in array order, and the
   * view it returns is the scope's single child.
   */
  lemma LimitedScopeBuild(p: Program, w: World, v: ViewRef, fuel: nat)
    requires v < |w.views| && w.views[v].kind.LimitedScopeView?
    requires AllInitialized(w, w.views[v].kind.providers)
    ensures var k := w.views[v].kind;
            var w1 := Emit(w, HookRan(v, Hook.Build));
            var i := Instantiate(w1, p.builders(k.builder)(CurrentValues(w, k.providers)));
            Views.Build(p, w, v, fuel) == Res(i.w, if i.out.Throw? then Throw(i.out.error) else Ok(One(i.out.value)))
  {
    var k := w.views[v].kind;
    var w1 := Emit(w, HookRan(v, Hook.Build));
    assert AllInitialized(w1, k.providers);
    ReadAllInitialized(p, w1, k.providers, [], fuel);
    assert CurrentValues(w1, k.providers) == CurrentValues(w, k.providers);
    assert [] + CurrentValues(w, k.providers) == CurrentValues(w, k.providers);
    LimitedBuildAfterReads(p, w, v, fuel);
  }

  /** The steps of a limited scope's `build` once the providers have been read. */
  lemma LimitedBuildAfterReads(p: Program, w: World, v: ViewRef, fuel: nat)
    requires v < |w.views| && w.views[v].kind.LimitedScopeView?
    ensures var k := w.views[v].kind;
            var vals := ReadAll(p, Emit(w, HookRan(v, Hook.Build)), k.providers, [], fuel);
            vals.out.Ok? ==>
              var i := Instantiate(vals.w, p.builders(k.builder)(vals.out.value));
              Views.Build(p, w, v, fuel) == Res(i.w, if i.out.Throw? then Throw(i.out.error) else Ok(One(i.out.value)))
  {
    var w1 := Emit(w, HookRan(v, Hook.Build));
    assert w1.views[v].kind == w.views[v].kind;
  }
}

=== FILE: styles.dfy ===
/** Inline style declarations of an element, as a map from CSS property name to value. */
module Styles {

  type Style = map<string, string>

  /** A string-valued prop: left out (undefined), explicitly null, or given. */
  datatype Prop = PropUndefined | PropNull | Given(s: string)

  /**
   * What the style object stores when a prop is assigned to a declaration: the
   * string itself; null becomes the empty string.
   */
  function CssText(p: Prop): string
  {
    match p
    case Given(s) => s
    case _ => ""
  }

  /** Declaration `key` of `r` holds `value`; an empty value means the declaration is absent. */
  predicate Declared(r: Style, key: string, value: string)
  {
    if value == "" then key !in r else key in r && r[key] == value
  }

  /** Declaration `key` is the same in `s` and `r`. */
  predicate Same(s: Style, r: Style, key: string)
  {
    (key in s <==> key in r) && (key in s ==> s[key] == r[key])
  }

  /**
   * `element.style[key] = value`. Assigning the empty string (or null, which
   * the style object turns into the empty string) removes the declaration.
   */
  function Set(s: Style, key: string, value: string): (r: Style)
    ensures value != "" ==> key in r && r[key] == value
    ensures value == "" ==> key !in r
    ensures forall k :: k != key ==> (k in r <==> k in s) && (k in r ==> r[k] == s[k])
  {
    if value == "" then s - {key} else s[key := value]
  }

  /** Applies every declaration of `decls` on top of `s`, in the order given. */
  function SetAll(s: Style, decls: seq<(string, string)>): (r: Style)
    decreases |decls|
  {
    if decls == [] then s else SetAll(Set(s, decls[0].0, decls[0].1), decls[1..])
  }

  /** The property names of a list of declarations are pairwise distinct. */
  predicate DistinctKeys(decls: seq<(string, string)>)
  {
    forall i, j :: 0 <= i < j < |decls| ==> decls[i].0 != decls[j].0
  }

  /**
   * Applying declarations with distinct names sets each of them and leaves
   * every other declaration alone.
   */
  lemma {:induction false} SetAllEffect(s: Style, decls: seq<(string, string)>)
    requires DistinctKeys(decls)
    ensures forall i :: 0 <= i < |decls| ==> Declared(SetAll(s, decls), decls[i].0, decls[i].1)
    ensures forall k :: (forall i :: 0 <= i < |decls| ==> decls[i].0 != k) ==> Same(s, SetAll(s, decls), k)
    decreases |decls|
  {
    if decls != [] {
      var s1 := Set(s, decls[0].0, decls[0].1);
      var rest := decls[1..];
      assert DistinctKeys(rest) by {
        forall i, j | 0 <= i < j < |rest| ensures rest[i].0 != rest[j].0 {
          assert rest[i] == decls[i + 1] && rest[j] == decls[j + 1];
        }
      }
      SetAllEffect(s1, rest);
      assert SetAll(s, decls) == SetAll(s1, rest);
      forall i | 0 <= i < |decls| ensures Declared(SetAll(s, decls), decls[i].0, decls[i].1) {
        if i == 0 {
          assert forall j :: 0 <= j < |rest| ==> rest[j].0 != decls[0].0 by {
            forall j | 0 <= j < |rest| ensures rest[j].0 != decls[0].0 {
              assert rest[j] == decls[j + 1];
            }
          }
          assert Same(s1, SetAll(s1, rest), decls[0].0);
        } else {
          assert decls[i] == rest[i - 1];
        }
      }
      forall k | (forall i :: 0 <= i < |decls| ==> decls[i].0 != k) ensures Same(s, SetAll(s, decls), k) {
        assert forall j :: 0 <= j < |rest| ==> rest[j].0 != k by {
          forall j | 0 <= j < |rest| ensures rest[j].0 != k {
            assert rest[j] == decls[j + 1];
          }
        }
        assert decls[0].0 != k;
        assert Same(s, s1, k);
        assert Same(s1, SetAll(s1, rest), k);
      }
    }
  }
}

=== FILE: values.dfy ===
/**
 * Values that provider cells hold, handles into the arenas that stand for
 * JavaScript object references, and the outcome of a call that may throw.
 */
module Values {

  datatype Option<+T> = None | Some(value: T)

  /** `o ?? d` for an optional argument: the given value, or the default when it was left out. */
  function Or<T>(o: Option<T>, d: T): T
  {
    if o.Some? then o.value else d
  }

  /** No element occurs twice. */
  predicate Distinct<T(==)>(s: seq<T>)
  {
    forall i, j :: 0 <= i < j < |s| ==> s[i] != s[j]
  }

  /** Regrouping a concatenation: `(a + b) + c == a + d` when `d == b + c`. */
  lemma Regroup<T>(a: seq<T>, b: seq<T>, c: seq<T>, d: seq<T>)
    requires d == b + c
    ensures (a + b) + c == a + d
  { }

  /** Appending two entries one by one appends the pair. */
  lemma AppendPair<T>(a: seq<T>, x: T, y: T) ensures a + [x] + [y] == a + [x, y] { }

  /** Regrouping two appended entries: `a + [x] + [y] + b == a + d` when `d == [x, y] + b`. */
  lemma RegroupPair<T>(a: seq<T>, x: T, y: T, b: seq<T>, d: seq<T>)
    requires d == [x, y] + b
    ensures a + [x] + [y] + b == a + d
  { }

  lemma DistinctCons<T>(s: seq<T>)
    requires s != []
    ensures Distinct(s) <==> s[0] !in s[1..] && Distinct(s[1..])
  {
    if s[0] !in s[1..] && Distinct(s[1..]) {
      forall i, j | 0 <= i < j < |s| ensures s[i] != s[j] {
        if i == 0 {
          assert s[j] == s[1..][j - 1];
        } else {
          assert s[i] == s[1..][i - 1] && s[j] == s[1..][j - 1];
        }
      }
    }
    if Distinct(s) {
      forall y | y in s[1..] ensures y != s[0] {
        var j :| 0 <= j < |s[1..]| && s[1..][j] == y;
        assert s[j + 1] == y;
      }
    }
  }

  /**
   * `Set.prototype.add` on an insertion-ordered set kept as a sequence: appends `x`
   * unless it is already a member.
   */
  function SetAdd<T(==,!new)>(s: seq<T>, x: T): (r: seq<T>)
    ensures forall y :: y in r <==> y in s || y == x
    ensures Distinct(s) ==> Distinct(r)
    ensures x in s ==> r == s
    ensures x !in s ==> r == s + [x]
  {
    if x in s then s else s + [x]
  }

  /** `Set.prototype.delete`: removes `x`, keeping the order of the other members. */
  function SetDelete<T(==,!new)>(s: seq<T>, x: T): (r: seq<T>)
    ensures forall y :: y in r <==> y in s && y != x
    ensures Distinct(s) ==> Distinct(r)
    ensures x !in s ==> r == s
    ensures |r| <= |s|
  {
    if s == [] then []
    else if s[0] == x then (DistinctCons(s); SetDelete(s[1..], x))
    else
      var rest := SetDelete(s[1..], x);
      DistinctCons(s);
      DistinctCons([s[0]] + rest);
      assert ([s[0]] + rest)[1..] == rest;
      [s[0]] + rest
  }

  /** Deleting a member that was just added restores the set. */
  lemma {:induction false} SetDeleteAdded<T(!new)>(s: seq<T>, x: T)
    requires x !in s
    ensures SetDelete(SetAdd(s, x), x) == s
  {
    if s != [] {
      assert (s + [x])[1..] == s[1..] + [x];
      SetDeleteAdded(s[1..], x);
      assert s == [s[0]] + s[1..];
    }
  }

  /** A JavaScript value as the reactive core sees it. */
  datatype Value =
    | Undefined
    | Null
    | Bool(b: bool)
    | Num(n: int)
    | Str(s: string)
      /** An object of class `className`; `propsId` is its truthy `props.id`, or "" when it has none. */
    | Obj(className: string, propsId: string, fields: seq<Value>)
      /** A `Notifier` instance, by its handle in the notifier arena. */
    | NotifierInst(notifier: nat)

  /** What a JavaScript call may throw. */
  datatype JsError =
      /** "Maximum call stack size exceeded": the recursion went deeper than the fuel allows. */
    | RangeError
      /** A type error; `what` names the hook or operation that raised it. */
    | TypeError(what: string)
      /** An `Error` thrown by user code or by a forbidden entry point; `origin` says where. */
    | Thrown(origin: string)

  /** The result of a call: a returned value, or an exception that propagates to the caller. */
  datatype Outcome<+T> = Ok(value: T) | Throw(error: JsError)

  /** The unit value of calls that return nothing. */
  datatype Unit = Unit
}

=== FILE: view_props.dfy ===
/**
 * Properties of the `View` lifecycle: what `build` of an application view can
 * do, the order of the hooks in `assemble`, the check of the wrapper hooks, the
 * order in which children's elements are appended, and the post-order of
 * `assembleComplete` and `dispose` over the tree of views.
 */
module ViewProps {
  import opened Values
  import opened Dom
  import opened Observer
  import opened World
  import opened Views

  // ---------------------------------------------------------------------------
  // Construction from a `build` result
  // ---------------------------------------------------------------------------

  /** Constructing leaves and columns, as an application `build` does, never throws. */
  lemma {:induction false} InstantiateNeverThrows(w: World, spec: Spec)
    ensures Instantiate(w, spec).out.Ok?
    decreases spec
  {
    match spec
    case Existing(_) =>
    case NewLeaf(_, _, _, _) =>
    case NewColumn(children, _) =>
      InstantiateAllNeverThrows(w, children);
  }

  lemma {:induction false} InstantiateAllNeverThrows(w: World, specs: seq<Spec>)
    ensures InstantiateAll(w, specs).out.Ok?
    decreases specs
  {
    if specs != [] {
      InstantiateNeverThrows(w, specs[0]);
      InstantiateAllNeverThrows(Instantiate(w, specs[0]).w, specs[1..]);
    }
  }

  lemma {:induction false} InstantiateOptsNeverThrows(w: World, specs: seq<Option<Spec>>)
    ensures InstantiateOpts(w, specs).out.Ok?
    decreases |specs|
  {
    if specs != [] {
      var first := if specs[0].None? then Res(w, Ok(None)) else
        var i := Instantiate(w, specs[0].value);
        Res(i.w, if i.out.Throw? then Throw(i.out.error) else Ok(Some(i.out.value)));
      if specs[0].Some? {
        InstantiateNeverThrows(w, specs[0].value);
      }
      InstantiateOptsNeverThrows(first.w, specs[1..]);
    }
  }

  /** `build` of an application view returns; only the wrapper hooks can make its `assemble` throw. */
  lemma BuildCustomReturns(p: Program, w: World, v: ViewRef, fuel: nat)
    requires v < |w.views| && w.views[v].kind.Custom?
    ensures Views.Build(p, w, v, fuel).out.Ok?
  {
    var w1 := Emit(w, HookRan(v, Hook.Build));
    match w.views[v].kind.body
    case NoBody =>
    case SingleBody(spec) => InstantiateNeverThrows(w1, spec);
    case ArrayBody(specs) => InstantiateOptsNeverThrows(w1, specs);
  }

  // ---------------------------------------------------------------------------
  // assemble
  // ---------------------------------------------------------------------------

  /** An application view with no `build` result whose hooks all return elements. */
  predicate Leaf(k: Kind)
  {
    k.Custom? && k.body.NoBody? && k.broken.None?
  }

  /** The hooks `assemble` runs on the view itself, in order; a leaf runs no others. */
  function AssembleHooks(v: ViewRef): seq<Event>
  {
    [HookRan(v, Initialize), HookRan(v, PreBuild), HookRan(v, Hook.Build), HookRan(v, PostBuild), HookRan(v, Terminate),
     HookRan(v, CreateWrapView), HookRan(v, StyledView), HookRan(v, EmbedScript), HookRan(v, EmbedScript)]
  }

  /**
   * The world after `assemble` of a leaf: the hooks have run in order, the styled
   * wrapper and its copy stamped with the view's UUID and class name are the two
   * new elements, and the copy is both `viewCache` and `_view`.
   */
  function LeafAssembled(w: World, v: ViewRef): World
    requires v < |w.views| && w.views[v].kind.Custom?
  {
    var n := |w.dom|;
    var k := w.views[v].kind;
    var styled := StyledElement(k, Blank(k.tag));
    w.(views := w.views[v := w.views[v].(child := NoChild, cache := n + 1, elem := n + 1)],
       dom := w.dom + [styled, styled.(idAttr := Uuid(w.views[v].uid), viewClass := ClassName(k))],
       trace := w.trace + AssembleHooks(v))
  }

  /**
   * `assemble` of a leaf: the hooks run in order (embedScriptToView twice, on the
   * wrapper and on its copy); two elements are created, the styled wrapper and its
   * copy; the copy carries the view's UUID and class name and becomes both
   * `viewCache` and `_view`, and is returned.
   */
  lemma LeafAssembleEffect(p: Program, w: World, v: ViewRef, fuel: nat)
    requires v < |w.views| && Leaf(w.views[v].kind) && fuel >= 1
    ensures Assemble(p, w, v, fuel) == Res(LeafAssembled(w, v), Ok(|w.dom| + 1))
  {
    var n := |w.dom|;
    var k := w.views[v].kind;
    var styled := StyledElement(k, Blank(k.tag));
    var w1 := Emit(Emit(w, HookRan(v, Initialize)), HookRan(v, PreBuild));
    var wb := Emit(w1, HookRan(v, Hook.Build));
    assert w1.views[v].kind == w.views[v].kind;
    assert Views.Build(p, w1, v, fuel - 1) == Res(wb, Ok(NoChild));
    var w2 := SetView(wb, v, wb.views[v].(child := NoChild));
    var w3 := Emit(Emit(w2, HookRan(v, PostBuild)), HookRan(v, Terminate));
    var d := w3.dom + [styled];
    var wa := Emit(Emit(Emit(w3, HookRan(v, CreateWrapView)).(dom := d), HookRan(v, StyledView)), HookRan(v, EmbedScript));
    assert AssembleWrap(w3, v) == Res(wa, Ok(n));
    assert CloneNode(wa.dom, n) == (d + [styled], n + 1);
    var w4 := Emit(wa.(dom := d + [styled]), HookRan(v, EmbedScript));
    var w5 := SetView(w4, v, w4.views[v].(cache := n + 1));
    assert ViewData(p, w5, v, NoChild, n + 1, fuel - 1) == Res(Finish(w5, v, n + 1), Ok(Unit));
    assert Wrapped(p, w2, v, fuel - 1) == Res(Finish(w5, v, n + 1), Ok(n + 1));
    var f := Finish(w5, v, n + 1);
    LeafHooksInOrder(w.trace, v);
    assert f.trace == LeafAssembled(w, v).trace;
    assert f.views == LeafAssembled(w, v).views;
    assert f.dom == LeafAssembled(w, v).dom;
  }

  /** The nine hooks `assemble` of a leaf emits one by one are `AssembleHooks`. */
  lemma LeafHooksInOrder(t: seq<Event>, v: ViewRef)
    ensures t + [HookRan(v, Initialize)] + [HookRan(v, PreBuild)] + [HookRan(v, Hook.Build)] + [HookRan(v, PostBuild)]
              + [HookRan(v, Terminate)] + [HookRan(v, CreateWrapView)] + [HookRan(v, StyledView)] + [HookRan(v, EmbedScript)]
              + [HookRan(v, EmbedScript)]
            == t + AssembleHooks(v)
  { }

  /**
   * `checkHTMLElement`: an application view whose `createWrapView`, `styledView` or
   * `embedScriptToView` does not return an element makes `assemble` throw a
   * TypeError naming that hook, whatever its `build` returns.
   */
  lemma BrokenHookThrows(p: Program, w: World, v: ViewRef, fuel: nat)
    requires v < |w.views| && w.views[v].kind.Custom? && fuel >= 1
    requires w.views[v].kind.broken.Some? && w.views[v].kind.broken.value in {CreateWrapView, StyledView, EmbedScript}
    ensures Assemble(p, w, v, fuel).out == Throw(TypeError(HookName(w.views[v].kind.broken.value)))
  {
    var w1 := Emit(Emit(w, HookRan(v, Initialize)), HookRan(v, PreBuild));
    BuildCustomReturns(p, w1, v, fuel - 1);
    var b := Views.Build(p, w1, v, fuel - 1);
    var w2 := SetView(b.w, v, b.w.views[v].(child := b.out.value));
    var w3 := Emit(Emit(w2, HookRan(v, PostBuild)), HookRan(v, Terminate));
    assert AssembleWrap(w3, v).out.Throw?;
  }

  // ---------------------------------------------------------------------------
  // Appending children
  // ---------------------------------------------------------------------------

  /** Removing an element that does not occur changes nothing. */
  lemma {:induction false} WithoutAbsent(s: seq<ElemRef>, x: ElemRef)
    requires x !in s
    ensures Without(s, x) == s
  {
    if s != [] {
      WithoutAbsent(s[1..], x);
      assert s == [s[0]] + s[1..];
    }
  }

  /** `p.appendChild(c)` for a `c` that is not yet a child of `p` makes it the last one. */
  lemma AppendChildAppends(dom: seq<Element>, p: ElemRef, c: ElemRef)
    requires p < |dom| && c < |dom| && p != c && c !in dom[p].children
    ensures AppendChild(dom, p, c)[p].children == dom[p].children + [c]
  {
    if dom[c].parent.Some? && dom[c].parent.value == p {
      WithoutAbsent(dom[p].children, c);
    }
  }

  /** The elements of a list of children depend on the views only. */
  lemma {:induction false} ElemsOfAllViews(w: World, w': World, cs: seq<Option<ViewRef>>)
    requires w.views == w'.views
    ensures ElemsOfAll(w, cs) == ElemsOfAll(w', cs)
    decreases |cs|
  {
    if cs != [] {
      ElemsOfAllViews(w, w', cs[1..]);
    }
  }

  /** Every entry is present, and the entries' elements are distinct and other than `t`. */
  predicate Appendable(w: World, t: ElemRef, cs: seq<Option<ViewRef>>)
  {
    && (forall i :: 0 <= i < |cs| ==> cs[i].Some? && cs[i].value < |w.views|)
    && (forall x :: x in ElemsOfAll(w, cs) ==> x < |w.dom| && x != t)
    && Distinct(ElemsOfAll(w, cs))
  }

  /** What remains to append after the first entry still satisfies the conditions. */
  lemma AppendableTail(w: World, w1: World, t: ElemRef, cs: seq<Option<ViewRef>>)
    requires cs != [] && t < |w.dom| && Appendable(w, t, cs)
    requires forall x :: x in ElemsOfAll(w, cs) ==> x !in w.dom[t].children
    requires w1.views == w.views && |w1.dom| == |w.dom|
    requires w1.dom[t].children == w.dom[t].children + [w.views[cs[0].value].elem]
    ensures Appendable(w1, t, cs[1..])
    ensures forall x :: x in ElemsOfAll(w1, cs[1..]) ==> x !in w1.dom[t].children
  {
    var es := ElemsOfAll(w, cs);
    assert es == [w.views[cs[0].value].elem] + ElemsOfAll(w, cs[1..]);
    ElemsOfAllViews(w, w1, cs[1..]);
    DistinctCons(es);
    assert es[1..] == ElemsOfAll(w, cs[1..]);
    forall x | x in ElemsOfAll(w1, cs[1..]) ensures x < |w1.dom| && x != t && x !in w1.dom[t].children {
      assert x in es;
    }
  }

  /** The appends at the end of `rebuild`: the children's elements follow the existing ones, in array order. */
  lemma {:induction false} AppendAllInOrder(w: World, t: ElemRef, cs: seq<Option<ViewRef>>)
    requires t < |w.dom| && Appendable(w, t, cs)
    requires forall x :: x in ElemsOfAll(w, cs) ==> x !in w.dom[t].children
    ensures var r := AppendAll(w, t, cs);
            r.out == Ok(Unit) && r.w.dom[t].children == w.dom[t].children + ElemsOfAll(w, cs)
    decreases |cs|
  {
    if cs != [] {
      var c := w.views[cs[0].value].elem;
      assert ElemsOfAll(w, cs) == [c] + ElemsOfAll(w, cs[1..]);
      assert c in ElemsOfAll(w, cs);
      AppendChildAppends(w.dom, t, c);
      var w1 := SetDom(w, AppendChild(w.dom, t, c));
      assert AppendAll(w, t, cs) == AppendAll(w1, t, cs[1..]);
      AppendableTail(w, w1, t, cs);
      AppendAllInOrder(w1, t, cs[1..]);
      ElemsOfAllViews(w, w1, cs[1..]);
      Regroup(w.dom[t].children, [c], ElemsOfAll(w, cs[1..]), ElemsOfAll(w, cs));
    }
  }

  /**
   * The end of `rebuild` on the live element `t`: afterwards `t`'s children are
   * exactly the elements of the new children, in order, and postBuild runs next.
   */
  lemma ReplaceChildren(w: World, v: ViewRef, t: ElemRef, fuel: nat)
    requires v < |w.views| && t < |w.dom|
    requires Appendable(w, t, ChildList(w.views[v].child))
    ensures var r := Replace(w, v, t, fuel);
            && r.w.dom[t].children == ElemsOf(w, w.views[v].child)
            && |r.w.trace| > |w.trace| && r.w.trace[|w.trace|] == HookRan(v, PostBuild)
  {
    var w3 := SetDom(w, RemoveAllChildren(w.dom, t));
    var child := w.views[v].child;
    ElemsOfAllViews(w, w3, ChildList(child));
    match child
    case NoChild =>
    case One(c) =>
      assert ElemsOfAll(w, [Some(c)]) == [w.views[c].elem];
      assert w.views[c].elem in ElemsOfAll(w, ChildList(child));
      AppendChildAppends(w3.dom, t, w.views[c].elem);
    case Many(cs) =>
      AppendAllInOrder(w3, t, cs);
  }

  /** `p.appendChild(c)` for a `c` without a parent makes it the last child of `p`. */
  lemma AppendDetached(dom: seq<Element>, p: ElemRef, c: ElemRef)
    requires p < |dom| && c < |dom| && p != c && dom[c].parent.None?
    ensures AppendChild(dom, p, c)[p].children == dom[p].children + [c]
    ensures forall x :: 0 <= x < |dom| && x != p && x != c ==> AppendChild(dom, p, c)[x] == dom[x]
  {
  }

  /** Each present entry is a leaf view. */
  predicate LeafEntries(w: World, cs: seq<Option<ViewRef>>)
  {
    forall i :: 0 <= i < |cs| && cs[i].Some? ==> cs[i].value < |w.views| && Leaf(w.views[cs[i].value].kind)
  }

  /** No view occurs twice among the present entries. */
  predicate DistinctEntries(cs: seq<Option<ViewRef>>)
  {
    forall i, j :: 0 <= i < j < |cs| && cs[i].Some? ==> cs[i] != cs[j]
  }

  /** The hooks the present entries run, entry after entry. */
  function AssembleHooksAll(cs: seq<Option<ViewRef>>): seq<Event>
  {
    if cs == [] then [] else (if cs[0].Some? then AssembleHooks(cs[0].value) else []) + AssembleHooksAll(cs[1..])
  }

  /** The world after `assemble` of a leaf and the append of its element to `e`. */
  function LeafAppended(w: World, e: ElemRef, v: ViewRef): World
    requires v < |w.views| && w.views[v].kind.Custom?
  {
    var a := LeafAssembled(w, v);
    a.(dom := AppendChild(a.dom, e, |w.dom| + 1))
  }

  /** The world after `assembleMultiView` over leaf entries, computed entry by entry. */
  function LeavesAppended(w: World, e: ElemRef, cs: seq<Option<ViewRef>>): World
    decreases |cs|
  {
    if cs == [] then w
    else if cs[0].Some? && cs[0].value < |w.views| && w.views[cs[0].value].kind.Custom? then
      LeavesAppended(LeafAppended(w, e, cs[0].value), e, cs[1..])
    else LeavesAppended(w, e, cs[1..])
  }

  /** Dropping the first entry keeps the conditions on the rest. */
  lemma EntriesTail(w: World, w1: World, cs: seq<Option<ViewRef>>)
    requires cs != [] && LeafEntries(w, cs)
    requires |w1.views| == |w.views| && forall u :: 0 <= u < |w.views| ==> w1.views[u].kind == w.views[u].kind
    ensures LeafEntries(w1, cs[1..])
  {
    forall i | 0 <= i < |cs[1..]| && cs[1..][i].Some?
      ensures cs[1..][i].value < |w1.views| && Leaf(w1.views[cs[1..][i].value].kind)
    {
      assert cs[1..][i] == cs[i + 1];
    }
  }

  /** `assembleMultiView` over leaves never throws, and leaves the world `LeavesAppended` describes. */
  lemma {:induction false} MultiLeaves(p: Program, w: World, e: ElemRef, cs: seq<Option<ViewRef>>, fuel: nat)
    requires fuel >= 1 && e < |w.dom| && LeafEntries(w, cs)
    ensures Multi(p, w, e, cs, fuel) == Res(LeavesAppended(w, e, cs), Ok(Unit))
    decreases |cs|, 1
  {
    if cs != [] {
      if cs[0].None? {
        EntriesTail(w, w, cs);
        MultiLeaves(p, w, e, cs[1..], fuel);
      } else {
        MultiLeaf(p, w, e, cs, fuel);
      }
    }
  }

  /** The turn of a present entry in `MultiLeaves`. */
  lemma {:induction false} MultiLeaf(p: Program, w: World, e: ElemRef, cs: seq<Option<ViewRef>>, fuel: nat)
    requires fuel >= 1 && e < |w.dom| && LeafEntries(w, cs) && cs != [] && cs[0].Some?
    ensures Multi(p, w, e, cs, fuel) == Res(LeavesAppended(w, e, cs), Ok(Unit))
    decreases |cs|, 0
  {
    var v := cs[0].value;
    var w1 := LeafAppended(w, e, v);
    MultiFirst(p, w, e, cs, fuel);
    LeafAppendedEffect(w, e, v);
    EntriesTail(w, w1, cs);
    MultiLeaves(p, w1, e, cs[1..], fuel);
    LeavesAppendedFirst(w, e, cs);
  }

  /** `assembleMultiView` after a present leaf entry: the leaf is assembled and appended, then the rest. */
  lemma MultiFirst(p: Program, w: World, e: ElemRef, cs: seq<Option<ViewRef>>, fuel: nat)
    requires fuel >= 1 && e < |w.dom| && cs != [] && cs[0].Some? && cs[0].value < |w.views| && Leaf(w.views[cs[0].value].kind)
    ensures Multi(p, w, e, cs, fuel) == Multi(p, LeafAppended(w, e, cs[0].value), e, cs[1..], fuel)
  {
    var v := cs[0].value;
    LeafAssembleEffect(p, w, v, fuel);
    var a := LeafAssembled(w, v);
    assert SetDom(a, AppendChild(a.dom, e, |w.dom| + 1)) == LeafAppended(w, e, v);
  }

  /**
   * `assembleMultiView` over leaves: each present entry is assembled completely
   * before the next one starts, falsy entries are skipped, and the entries'
   * elements are appended to `e` in array order. Views not in the array are untouched.
   */
  lemma {:induction false} MultiLeavesInOrder(p: Program, w: World, e: ElemRef, cs: seq<Option<ViewRef>>, fuel: nat)
    requires fuel >= 1 && e < |w.dom| && LeafEntries(w, cs) && DistinctEntries(cs)
    ensures var r := Multi(p, w, e, cs, fuel);
            && r.out == Ok(Unit)
            && r.w.dom[e].children == w.dom[e].children + ElemsOfAll(r.w, cs)
            && r.w.trace == w.trace + AssembleHooksAll(cs)
            && r.w.cells == w.cells && |r.w.views| == |w.views|
            && forall u :: 0 <= u < |w.views| && Some(u) !in cs ==> r.w.views[u] == w.views[u]
  {
    MultiLeaves(p, w, e, cs, fuel);
    LeavesAppendedInOrder(w, e, cs);
    LeavesAppendedTrace(w, e, cs);
    LeavesAppendedFrame(w, e, cs);
  }

  /** What `LeavesAppended` leaves alone: the cells, the views not in the array, and the elements before `e`'s. */
  lemma {:induction false} LeavesAppendedFrame(w: World, e: ElemRef, cs: seq<Option<ViewRef>>)
    requires e < |w.dom|
    ensures var r := LeavesAppended(w, e, cs);
            && |w.dom| <= |r.dom| && r.cells == w.cells && |r.views| == |w.views|
            && forall u :: 0 <= u < |w.views| && Some(u) !in cs ==> r.views[u] == w.views[u]
    decreases |cs|
  {
    if cs != [] {
      if cs[0].Some? && cs[0].value < |w.views| && w.views[cs[0].value].kind.Custom? {
        LeavesAppendedFrame(LeafAppended(w, e, cs[0].value), e, cs[1..]);
      } else {
        LeavesAppendedFrame(w, e, cs[1..]);
      }
    }
  }

  /** `LeavesAppended` runs the leaves' hooks entry after entry. */
  lemma {:induction false} LeavesAppendedTrace(w: World, e: ElemRef, cs: seq<Option<ViewRef>>)
    requires LeafEntries(w, cs)
    ensures LeavesAppended(w, e, cs).trace == w.trace + AssembleHooksAll(cs)
    decreases |cs|, 1
  {
    if cs != [] {
      if cs[0].Some? {
        LeafTrace(w, e, cs);
      } else {
        SkipTrace(w, e, cs);
      }
    }
  }

  /** The turn of an absent entry in `LeavesAppendedTrace`. */
  lemma {:induction false} SkipTrace(w: World, e: ElemRef, cs: seq<Option<ViewRef>>)
    requires LeafEntries(w, cs) && cs != [] && cs[0].None?
    ensures LeavesAppended(w, e, cs).trace == w.trace + AssembleHooksAll(cs)
    decreases |cs|, 0
  {
    assert LeavesAppended(w, e, cs) == LeavesAppended(w, e, cs[1..]);
    assert AssembleHooksAll(cs) == AssembleHooksAll(cs[1..]);
    EntriesTail(w, w, cs);
    LeavesAppendedTrace(w, e, cs[1..]);
  }

  /** The turn of a present entry in `LeavesAppendedTrace`. */
  lemma {:induction false} LeafTrace(w: World, e: ElemRef, cs: seq<Option<ViewRef>>)
    requires LeafEntries(w, cs) && cs != [] && cs[0].Some?
    ensures LeavesAppended(w, e, cs).trace == w.trace + AssembleHooksAll(cs)
    decreases |cs|, 0
  {
    var v := cs[0].value;
    var w1 := LeafAppended(w, e, v);
    LeafAppendedShape(w, e, v);
    EntriesTail(w, w1, cs);
    LeavesAppendedTrace(w1, e, cs[1..]);
    LeavesAppendedFirst(w, e, cs);
    HooksAllFirst(cs);
    Regroup(w.trace, AssembleHooks(v), AssembleHooksAll(cs[1..]), AssembleHooksAll(cs));
  }

  /** `LeafAppended` runs the leaf's hooks and keeps the number and kinds of the views. */
  lemma LeafAppendedShape(w: World, e: ElemRef, v: ViewRef)
    requires v < |w.views| && w.views[v].kind.Custom?
    ensures var w1 := LeafAppended(w, e, v);
            && w1.trace == w.trace + AssembleHooks(v) && |w1.views| == |w.views|
            && (forall u :: 0 <= u < |w.views| ==> w1.views[u].kind == w.views[u].kind)
  { }

  /** The hooks of a list whose first entry is present: that entry's, then the rest's. */
  lemma HooksAllFirst(cs: seq<Option<ViewRef>>)
    requires cs != [] && cs[0].Some?
    ensures AssembleHooksAll(cs) == AssembleHooks(cs[0].value) + AssembleHooksAll(cs[1..])
  { }

  /** Dropping the first entry keeps the entries distinct, and the first one does not recur. */
  lemma DistinctTail(cs: seq<Option<ViewRef>>)
    requires cs != [] && DistinctEntries(cs)
    ensures DistinctEntries(cs[1..]) && (cs[0].Some? ==> cs[0] !in cs[1..])
  {
    forall i, j | 0 <= i < j < |cs[1..]| && cs[1..][i].Some? ensures cs[1..][i] != cs[1..][j] {
      assert cs[1..][i] == cs[i + 1] && cs[1..][j] == cs[j + 1];
    }
    if cs[0].Some? {
      forall j | 0 <= j < |cs[1..]| ensures cs[1..][j] != cs[0] {
        assert cs[1..][j] == cs[j + 1];
      }
    }
  }

  /** `LeafAppended` appends the leaf's new element, the second of the two it creates, to `e`. */
  lemma LeafAppendedEffect(w: World, e: ElemRef, v: ViewRef)
    requires v < |w.views| && w.views[v].kind.Custom? && e < |w.dom|
    ensures var w1 := LeafAppended(w, e, v);
            && |w1.dom| == |w.dom| + 2 && |w1.views| == |w.views|
            && w1.dom[e].children == w.dom[e].children + [|w.dom| + 1]
            && w1.views[v].elem == |w.dom| + 1
            && (forall u :: 0 <= u < |w.views| ==> w1.views[u].kind == w.views[u].kind)
  {
    var n := |w.dom|;
    var k := w.views[v].kind;
    var styled := StyledElement(k, Blank(k.tag));
    var dom := w.dom + [styled, styled.(idAttr := Uuid(w.views[v].uid), viewClass := ClassName(k))];
    AppendDetached(dom, e, n + 1);
  }

  /** `LeavesAppended` appends the entries' elements to `e` in array order. */
  lemma {:induction false} LeavesAppendedInOrder(w: World, e: ElemRef, cs: seq<Option<ViewRef>>)
    requires e < |w.dom| && LeafEntries(w, cs) && DistinctEntries(cs)
    ensures var r := LeavesAppended(w, e, cs);
            e < |r.dom| && r.dom[e].children == w.dom[e].children + ElemsOfAll(r, cs)
    decreases |cs|, 1
  {
    if cs != [] {
      if cs[0].None? {
        SkipInOrder(w, e, cs);
      } else {
        LeafInOrder(w, e, cs);
      }
    }
  }

  /** The turn of an absent entry in `LeavesAppendedInOrder`. */
  lemma {:induction false} SkipInOrder(w: World, e: ElemRef, cs: seq<Option<ViewRef>>)
    requires e < |w.dom| && LeafEntries(w, cs) && DistinctEntries(cs) && cs != [] && cs[0].None?
    ensures var r := LeavesAppended(w, e, cs);
            e < |r.dom| && r.dom[e].children == w.dom[e].children + ElemsOfAll(r, cs)
    decreases |cs|, 0
  {
    var r := LeavesAppended(w, e, cs[1..]);
    assert LeavesAppended(w, e, cs) == r;
    assert ElemsOfAll(r, cs) == ElemsOfAll(r, cs[1..]);
    DistinctTail(cs);
    EntriesTail(w, w, cs);
    LeavesAppendedInOrder(w, e, cs[1..]);
  }

  /** The turn of a present entry in `LeavesAppendedInOrder`. */
  lemma {:induction false} LeafInOrder(w: World, e: ElemRef, cs: seq<Option<ViewRef>>)
    requires e < |w.dom| && LeafEntries(w, cs) && DistinctEntries(cs) && cs != [] && cs[0].Some?
    ensures var r := LeavesAppended(w, e, cs);
            e < |r.dom| && r.dom[e].children == w.dom[e].children + ElemsOfAll(r, cs)
    decreases |cs|, 0
  {
    var v := cs[0].value;
    var w1 := LeafAppended(w, e, v);
    DistinctTail(cs);
    LeafAppendedShape(w, e, v);
    LeafAppendedEffect(w, e, v);
    EntriesTail(w, w1, cs);
    LeavesAppendedInOrder(w1, e, cs[1..]);
    LeavesAppendedFrame(w1, e, cs[1..]);
    LeavesAppendedFirst(w, e, cs);
    var r := LeavesAppended(w1, e, cs[1..]);
    assert r.views[v] == w1.views[v];
    ElemsOfAllFirst(r, cs);
    Regroup(w.dom[e].children, [|w.dom| + 1], ElemsOfAll(r, cs[1..]), ElemsOfAll(r, cs));
  }

  /** The elements of a list whose first entry is a present view. */
  lemma ElemsOfAllFirst(w: World, cs: seq<Option<ViewRef>>)
    requires cs != [] && cs[0].Some? && cs[0].value < |w.views|
    ensures ElemsOfAll(w, cs) == [w.views[cs[0].value].elem] + ElemsOfAll(w, cs[1..])
  { }

  /** `LeavesAppended` after a present leaf entry: the leaf's turn, then the rest. */
  lemma LeavesAppendedFirst(w: World, e: ElemRef, cs: seq<Option<ViewRef>>)
    requires cs != [] && cs[0].Some? && cs[0].value < |w.views| && w.views[cs[0].value].kind.Custom?
    ensures LeavesAppended(w, e, cs) == LeavesAppended(LeafAppended(w, e, cs[0].value), e, cs[1..])
  { }

  /** The elements of a list of children depend only on the entries' views. */
  lemma {:induction false} ElemsOfAllAgree(w: World, w': World, cs: seq<Option<ViewRef>>)
    requires |w.views| == |w'.views|
    requires forall u :: Some(u) in cs && u < |w.views| ==> w'.views[u].elem == w.views[u].elem
    ensures ElemsOfAll(w, cs) == ElemsOfAll(w', cs)
    decreases |cs|
  {
    if cs != [] {
      assert cs[0] in cs;
      forall u | Some(u) in cs[1..] && u < |w.views| ensures w'.views[u].elem == w.views[u].elem {
        assert Some(u) in cs;
      }
      ElemsOfAllAgree(w, w', cs[1..]);
    }
  }

  /** A column's world once its own hooks have run: `viewChild` set, the wrapper and its copy created. */
  function ColumnWrapped(w: World, v: ViewRef): World
    requires v < |w.views| && w.views[v].kind.ColumnView?
  {
    var k := w.views[v].kind;
    var styled := StyledElement(k, Blank("div"));
    w.(views := w.views[v := w.views[v].(child := Many(k.children), cache := |w.dom| + 1)],
       dom := w.dom + [styled, styled],
       trace := w.trace + AssembleHooks(v))
  }

  /**
   * `assemble` of a `Column`: its own hooks run, then `assembleMultiView` fills the
   * copy of the wrapper with the children, and the copy, stamped, is returned.
   */
  lemma ColumnAssemble(p: Program, w: World, v: ViewRef, fuel: nat)
    requires v < |w.views| && w.views[v].kind.ColumnView? && fuel >= 2
    ensures var cs := w.views[v].kind.children;
            var copy := |w.dom| + 1;
            var m := Multi(p, ColumnWrapped(w, v), copy, cs, fuel - 1);
            Assemble(p, w, v, fuel)
              == if m.out.Throw? then Res(m.w, Throw(m.out.error)) else Res(Finish(m.w, v, copy), Ok(copy))
  {
    var cs := w.views[v].kind.children;
    var n := |w.dom|;
    var styled := StyledElement(w.views[v].kind, Blank("div"));
    var w2 := w.(views := w.views[v := w.views[v].(child := Many(cs))],
                 trace := w.trace + [HookRan(v, Initialize)] + [HookRan(v, PreBuild)] + [HookRan(v, Hook.Build)]);
    var w5 := w2.(views := w2.views[v := w2.views[v].(cache := n + 1)],
                  dom := w2.dom + [styled, styled],
                  trace := w2.trace + [HookRan(v, PostBuild)] + [HookRan(v, Terminate)] + [HookRan(v, CreateWrapView)]
                           + [HookRan(v, StyledView)] + [HookRan(v, EmbedScript)] + [HookRan(v, EmbedScript)]);
    assert w5 == ColumnWrapped(w, v) by {
      assert w2.views[v := w2.views[v].(cache := n + 1)] == w.views[v := w.views[v].(child := Many(cs), cache := n + 1)];
      LeafHooksInOrder(w.trace, v);
    }
    ColumnBuilds(p, w, v, fuel);
    ColumnWrap(p, w2, v, fuel - 1);
  }

  /** The part of `ColumnAssemble` up to `build`, which returns the children. */
  lemma ColumnBuilds(p: Program, w: World, v: ViewRef, fuel: nat)
    requires v < |w.views| && w.views[v].kind.ColumnView? && fuel >= 1
    ensures Assemble(p, w, v, fuel)
              == Wrapped(p, w.(views := w.views[v := w.views[v].(child := Many(w.views[v].kind.children))],
                               trace := w.trace + [HookRan(v, Initialize)] + [HookRan(v, PreBuild)] + [HookRan(v, Hook.Build)]),
                         v, fuel - 1)
  {
    var w1 := Emit(Emit(w, HookRan(v, Initialize)), HookRan(v, PreBuild));
    var wb := Emit(w1, HookRan(v, Hook.Build));
    assert w1.views[v].kind == w.views[v].kind;
    assert Views.Build(p, w1, v, fuel - 1) == Res(wb, Ok(Many(w.views[v].kind.children)));
  }

  /** The part of `ColumnAssemble` after `build`: the wrapper, its copy, then `assembleMultiView`. */
  lemma ColumnWrap(p: Program, w: World, v: ViewRef, fuel: nat)
    requires v < |w.views| && w.views[v].kind.ColumnView? && w.views[v].child == Many(w.views[v].kind.children)
    ensures var cs := w.views[v].kind.children;
            var n := |w.dom|;
            var styled := StyledElement(w.views[v].kind, Blank("div"));
            var w5 := w.(views := w.views[v := w.views[v].(cache := n + 1)],
                         dom := w.dom + [styled, styled],
                         trace := w.trace + [HookRan(v, PostBuild)] + [HookRan(v, Terminate)] + [HookRan(v, CreateWrapView)]
                                  + [HookRan(v, StyledView)] + [HookRan(v, EmbedScript)] + [HookRan(v, EmbedScript)]);
            var m := Multi(p, w5, n + 1, cs, fuel);
            Wrapped(p, w, v, fuel)
              == if m.out.Throw? then Res(m.w, Throw(m.out.error)) else Res(Finish(m.w, v, n + 1), Ok(n + 1))
  {
    var cs := w.views[v].kind.children;
    var n := |w.dom|;
    var styled := StyledElement(w.views[v].kind, Blank("div"));
    var w3 := Emit(Emit(w, HookRan(v, PostBuild)), HookRan(v, Terminate));
    var d := w3.dom + [styled];
    var wa := Emit(Emit(Emit(w3, HookRan(v, CreateWrapView)).(dom := d), HookRan(v, StyledView)), HookRan(v, EmbedScript));
    assert AssembleWrap(w3, v) == Res(wa, Ok(n));
    assert CloneNode(wa.dom, n) == (d + [styled], n + 1);
    var w4 := Emit(wa.(dom := d + [styled]), HookRan(v, EmbedScript));
    var w5 := SetView(w4, v, w4.views[v].(cache := n + 1));
    assert w5.views[v].child == Many(cs) && w5.views[v].cache == n + 1;
    assert w5 == w.(views := w.views[v := w.views[v].(cache := n + 1)],
                    dom := w.dom + [styled, styled],
                    trace := w.trace + [HookRan(v, PostBuild)] + [HookRan(v, Terminate)] + [HookRan(v, CreateWrapView)]
                             + [HookRan(v, StyledView)] + [HookRan(v, EmbedScript)] + [HookRan(v, EmbedScript)]);
    var m := Multi(p, w5, n + 1, cs, fuel);
    assert ViewData(p, w5, v, Many(cs), n + 1, fuel)
      == if m.out.Throw? then Res(m.w, Throw(m.out.error)) else Res(Finish(m.w, v, n + 1), Ok(Unit));
  }

  /** After its own hooks, a column of leaves fills its copy with the leaves' elements in order. */
  lemma ColumnLeavesFilled(p: Program, w: World, v: ViewRef, fuel: nat)
    requires v < |w.views| && w.views[v].kind.ColumnView? && fuel >= 2
    requires LeafEntries(w, w.views[v].kind.children) && DistinctEntries(w.views[v].kind.children)
    ensures var cs := w.views[v].kind.children;
            var copy := |w.dom| + 1;
            var m := Multi(p, ColumnWrapped(w, v), copy, cs, fuel - 1);
            && m.out.Ok? && copy < |m.w.dom| && v < |m.w.views|
            && var fin := Finish(m.w, v, copy);
               && fin.dom[copy].children == ElemsOfAll(fin, cs)
               && fin.trace == w.trace + AssembleHooks(v) + AssembleHooksAll(cs)
  {
    var cs := w.views[v].kind.children;
    var copy := |w.dom| + 1;
    var w5 := ColumnWrapped(w, v);
    EntriesTail(w, w5, [None] + cs);
    assert ([None] + cs)[1..] == cs;
    MultiLeavesInOrder(p, w5, copy, cs, fuel - 1);
    var m := Multi(p, w5, copy, cs, fuel - 1);
    var fin := Finish(m.w, v, copy);
    assert Some(v) !in cs by {
      forall i | 0 <= i < |cs| ensures cs[i] != Some(v) {
        if cs[i].Some? {
          assert Leaf(w.views[cs[i].value].kind);
        }
      }
    }
    ElemsOfAllAgree(m.w, fin, cs);
  }

  /**
   * `assemble` of a `Column` of leaves: the column's own hooks run first (build,
   * the wrapper and its copy), then each child is assembled in array order, and
   * the element returned holds the children's elements, in that order.
   */
  lemma ColumnOfLeaves(p: Program, w: World, v: ViewRef, fuel: nat)
    requires v < |w.views| && w.views[v].kind.ColumnView? && fuel >= 2
    requires LeafEntries(w, w.views[v].kind.children) && DistinctEntries(w.views[v].kind.children)
    ensures var cs := w.views[v].kind.children;
            var r := Assemble(p, w, v, fuel);
            && r.out.Ok?
            && r.w.dom[r.out.value].children == ElemsOfAll(r.w, cs)
            && r.w.trace == w.trace + AssembleHooks(v) + AssembleHooksAll(cs)
  {
    ColumnAssemble(p, w, v, fuel);
    ColumnLeavesFilled(p, w, v, fuel);
  }

  // ---------------------------------------------------------------------------
  // assembleComplete and dispose over the tree of views
  // ---------------------------------------------------------------------------

  /** A tree of views as `viewChild` links it: a view and its child entries (absent for a falsy entry). */
  datatype ViewTree = ViewTree(view: ViewRef, kids: seq<Option<ViewTree>>)

  /** `t` is the tree the `viewChild` links spell out from `t.view`. */
  predicate Shaped(views: seq<ViewNode>, t: ViewTree)
    decreases t
  {
    && t.view < |views|
    && var cs := ChildList(views[t.view].child);
       && |cs| == |t.kids|
       && forall i :: 0 <= i < |t.kids| ==>
            && (t.kids[i].None? <==> cs[i].None?)
            && (t.kids[i].Some? ==> t.kids[i].value.view == cs[i].value && Shaped(views, t.kids[i].value))
  }

  /** The recursion depth a traversal of `t` needs. */
  predicate Deep(t: ViewTree, fuel: nat)
    decreases t
  {
    fuel >= 1 && forall i :: 0 <= i < |t.kids| && t.kids[i].Some? ==> Deep(t.kids[i].value, fuel - 1)
  }

  /**
   * The order of `onAssembleComplete` calls below `t`: for each present entry in
   * turn, its own subtree first and then the entry itself; `t` itself is not called.
   */
  function Completions(t: ViewTree): seq<Event>
    decreases t, 1
  {
    CompletionsFrom(t, 0)
  }

  function CompletionsFrom(t: ViewTree, i: nat): seq<Event>
    requires i <= |t.kids|
    decreases t, 0, |t.kids| - i
  {
    if i == |t.kids| then []
    else
      (if t.kids[i].Some? then Completions(t.kids[i].value) + [HookRan(t.kids[i].value.view, Hook.AssembleComplete)] else [])
      + CompletionsFrom(t, i + 1)
  }

  /** `assembleComplete` calls `onAssembleComplete` on every descendant, in post-order. */
  lemma {:induction false} AssembleCompleteIsPostOrder(w: World, t: ViewTree, fuel: nat)
    requires Shaped(w.views, t) && Deep(t, fuel)
    ensures Views.AssembleComplete(w, t.view, fuel) == Res(w.(trace := w.trace + Completions(t)), Ok(Unit))
    decreases t, 1
  {
    CompleteAllIsPostOrder(w, t, 0, fuel - 1);
  }

  lemma {:induction false} CompleteAllIsPostOrder(w: World, t: ViewTree, i: nat, fuel: nat)
    requires Shaped(w.views, t) && Deep(t, fuel + 1) && i <= |t.kids|
    ensures CompleteAll(w, ChildList(w.views[t.view].child)[i..], fuel)
            == Res(w.(trace := w.trace + CompletionsFrom(t, i)), Ok(Unit))
    decreases t, 0, |t.kids| - i
  {
    var cs := ChildList(w.views[t.view].child);
    if i < |t.kids| {
      assert cs[i..][0] == cs[i] && cs[i..][1..] == cs[i + 1..];
      if t.kids[i].None? {
        CompleteAllIsPostOrder(w, t, i + 1, fuel);
      } else {
        var k := t.kids[i].value;
        AssembleCompleteIsPostOrder(w, k, fuel);
        var w1 := w.(trace := w.trace + Completions(k) + [HookRan(k.view, Hook.AssembleComplete)]);
        CompleteAllIsPostOrder(w1, t, i + 1, fuel);
        assert w1.(trace := w1.trace + CompletionsFrom(t, i + 1)) == w.(trace := w.trace + CompletionsFrom(t, i));
      }
    }
  }

  /** No entry anywhere in `t` is falsy. */
  predicate Full(t: ViewTree)
    decreases t
  {
    forall i :: 0 <= i < |t.kids| ==> t.kids[i].Some? && Full(t.kids[i].value)
  }

  /** The entries from `i` on are present and full. */
  predicate FullFrom(t: ViewTree, i: nat)
  {
    forall j :: i <= j < |t.kids| ==> t.kids[j].Some? && Full(t.kids[j].value)
  }

  /** The order of `onDispose` calls for `t`: every child's subtree in turn, then `t` itself. */
  function Disposals(t: ViewTree): seq<Event>
    requires Full(t)
    decreases t, 1
  {
    DisposalsFrom(t, 0) + [HookRan(t.view, Hook.Dispose)]
  }

  function DisposalsFrom(t: ViewTree, i: nat): seq<Event>
    requires i <= |t.kids| && FullFrom(t, i)
    decreases t, 0, |t.kids| - i
  {
    if i == |t.kids| then [] else Disposals(t.kids[i].value) + DisposalsFrom(t, i + 1)
  }

  /**
   * `dispose` calls `onDispose` on the whole subtree in post-order, the view itself
   * last; a falsy entry anywhere in the subtree makes it throw.
   */
  lemma {:induction false} DisposeIsPostOrder(w: World, t: ViewTree, fuel: nat)
    requires Shaped(w.views, t) && Deep(t, fuel)
    ensures Full(t) ==> Views.Dispose(w, t.view, fuel) == Res(w.(trace := w.trace + Disposals(t)), Ok(Unit))
    ensures !Full(t) ==> Views.Dispose(w, t.view, fuel).out.Throw?
    decreases t, 1
  {
    DisposeAllIsPostOrder(w, t, 0, fuel - 1);
  }

  lemma {:induction false} DisposeAllIsPostOrder(w: World, t: ViewTree, i: nat, fuel: nat)
    requires Shaped(w.views, t) && Deep(t, fuel + 1) && i <= |t.kids|
    ensures FullFrom(t, i) ==> DisposeAll(w, ChildList(w.views[t.view].child)[i..], fuel)
                               == Res(w.(trace := w.trace + DisposalsFrom(t, i)), Ok(Unit))
    ensures !FullFrom(t, i) ==> DisposeAll(w, ChildList(w.views[t.view].child)[i..], fuel).out.Throw?
    decreases t, 0, |t.kids| - i
  {
    var cs := ChildList(w.views[t.view].child);
    if i < |t.kids| {
      assert cs[i..][0] == cs[i] && cs[i..][1..] == cs[i + 1..];
      if t.kids[i].Some? {
        var k := t.kids[i].value;
        DisposeIsPostOrder(w, k, fuel);
        if Full(k) {
          var w1 := w.(trace := w.trace + Disposals(k));
          DisposeAllIsPostOrder(w1, t, i + 1, fuel);
          assert FullFrom(t, i) <==> FullFrom(t, i + 1);
          if FullFrom(t, i) {
            assert w1.(trace := w1.trace + DisposalsFrom(t, i + 1)) == w.(trace := w.trace + DisposalsFrom(t, i));
          }
        }
      }
    }
  }
}

=== FILE: views.dfy ===
/**
 * The `View` lifecycle (view.ts), the view classes of the core with their hooks
 * (padding.ts, margin.ts, scaffold.ts, providerScope.ts, limitedProviderScope.ts,
 * and the `Column` and `Header` a scaffold is made of), and `assembleView`.
 */
module Views {
  import opened Values
  import opened Styles
  import opened Dom
  import opened Observer
  import opened World
  import Cells
  import Padding
  import Margin
  import Scaffold

  /** What a lifecycle call on a handle outside the view arena throws. */
  const NotAView := TypeError("view")

  /** The container id `assembleView` uses when none is given. */
  const DefaultContainerId := "fTutteS-Container"

  // ---------------------------------------------------------------------------
  // Hooks per class
  // ---------------------------------------------------------------------------

  /** `createWrapView`: the tag of the wrapper element. */
  function WrapTag(k: Kind): string
  {
    if k.Custom? then k.tag else "div"
  }

  /** `styledView` of each class, on the wrapper's style. */
  function StyledStyle(k: Kind, s: Style): Style
  {
    match k
    case Custom(_, _, style, _, _, _) => s + style
    case ColumnView(_, hCenter) =>
      var s1 := Set(Set(s, "display", "flex"), "flexDirection", "column");
      if hCenter then Set(s1, "alignItems", "center") else s1
    case HeaderView(_, sticky) =>
      var s1 := if sticky then Set(Set(s, "position", "sticky"), "top", "0") else s;
      Set(s1, "zIndex", "999")
    case PaddingView(sides, _) => Padding.StyledView(s, sides)
    case MarginView(sides, _) => Margin.StyledView(s, sides)
    case ScaffoldView(_, _, _) => Scaffold.StyledView(s)
    case ScopeView(_, _) => s
    case LimitedScopeView(_, _) => s
  }

  /** `styledView` on the whole wrapper element: its style, and the text a leaf shows. */
  function StyledElement(k: Kind, e: Element): (r: Element)
    ensures r.children == e.children && r.parent == e.parent && r.tag == e.tag && r.idAttr == e.idAttr
  {
    e.(style := StyledStyle(k, e.style), text := if k.Custom? && k.text != "" then k.text else e.text)
  }

  /** The wrapper hook a view's class breaks by returning something that is not an element. */
  function Broken(k: Kind): Option<Hook>
  {
    if k.Custom? then k.broken else None
  }

  /** The hook names `checkHTMLElement` puts at the head of its message. */
  function HookName(h: Hook): string
  {
    match h
    case CreateWrapView => "createWrapView"
    case StyledView => "styledView"
    case EmbedScript => "embedScriptToView"
    case _ => ""
  }

  // ---------------------------------------------------------------------------
  // Construction
  // ---------------------------------------------------------------------------

  /**
   * `new View()` itself: the field initialisers run (a UUID and two `div`s), and then
   * the constructor throws a TypeError because the class is `View`.
   */
  function NewBaseView(w: World): (r: Res<ViewRef>)
    ensures r.out.Throw? && r.out.error.TypeError?
    ensures r.w.views == w.views && |r.w.dom| == |w.dom| + 2 && r.w.uids == w.uids + 1
  {
    var (d1, _) := CreateElement(w.dom, "div");
    var (d2, _) := CreateElement(d1, "div");
    Res(w.(dom := d2, uids := w.uids + 1), Throw(TypeError("View")))
  }

  /**
   * `new K(props)` for a view class: a scaffold whose header is present but not a
   * `Header` throws before anything is allocated; otherwise the view gets a fresh
   * UUID, a `_view` and a `viewCache` `div`, and a scope then subscribes to its
   * providers.
   */
  function NewView(w: World, k: Kind): (r: Res<ViewRef>)
    ensures Grows(w, r.w) && r.w.trace == w.trace
    ensures r.out.Ok? ==> r.out.value == |w.views| && |r.w.views| == |w.views| + 1
    ensures r.out.Ok? ==> r.w.views[r.out.value] == ViewNode(k, w.uids, |w.dom|, |w.dom| + 1, NoChild)
    ensures r.out.Throw? && k.ScaffoldView? ==> r.w == w
    ensures !(k.ScaffoldView? || k.ScopeView? || k.LimitedScopeView?) ==> r.out.Ok?
    ensures !(k.ScopeView? || k.LimitedScopeView?) ==> r.w.cells == w.cells && r.w.tokens == w.tokens
  {
    if k.ScaffoldView? && Scaffold.CheckHeader(HeaderCheck(w, k.header)).Throw? then
      Res(w, Throw(Scaffold.CheckHeader(HeaderCheck(w, k.header)).error))
    else
      var (d1, e) := CreateElement(w.dom, "div");
      var (d2, cache) := CreateElement(d1, "div");
      var v := |w.views|;
      var w1 := w.(dom := d2, views := w.views + [ViewNode(k, w.uids, e, cache, NoChild)], uids := w.uids + 1);
      if k.ScopeView? || k.LimitedScopeView? then
        var s := IterateProviders(w1, v, k.providers);
        Res(s.w, if s.out.Throw? then Throw(s.out.error) else Ok(v))
      else Res(w1, Ok(v))
  }

  /** Whether a present header is a `Header`. */
  function HeaderCheck(w: World, header: Option<ViewRef>): Option<bool>
  {
    if header.None? then None
    else Some(header.value < |w.views| && w.views[header.value].kind.HeaderView?)
  }

  /**
   * `_iterateProviders`: in array order, each provider gets a fresh listener
   * `() => this.rebuild()` with `immediate: false`, so nothing fires. A handle that is
   * not a provider throws, keeping the subscriptions made before it.
   */
  function IterateProviders(w: World, v: ViewRef, ps: seq<CellRef>): (r: Res<Unit>)
    ensures Grows(w, r.w) && r.w.trace == w.trace
    ensures r.w.views == w.views && r.w.dom == w.dom && r.w.uids == w.uids && r.w.obs == w.obs
    ensures r.out.Ok? ==> r.w.tokens == w.tokens + |ps|
    decreases |ps|
  {
    if ps == [] then Res(w, Ok(Unit))
    else if ps[0] >= |w.cells| then Res(w, Throw(Cells.NotAProvider))
    else
      var w1 := Cells.Subscribe(w, ps[0], Listener.Rebuild(w.tokens, v)).(tokens := w.tokens + 1);
      IterateProviders(w1, v, ps[1..])
  }

  /** One turn of `_iterateProviders`. */
  lemma IterateProvidersStep(w: World, v: ViewRef, ps: seq<CellRef>)
    requires ps != [] && ps[0] < |w.cells|
    ensures IterateProviders(w, v, ps) == IterateProviders(Cells.Subscribe(w, ps[0], Listener.Rebuild(w.tokens, v)).(tokens := w.tokens + 1), v, ps[1..])
  {
    assert ps != [] && !(ps[0] >= |w.cells|);
  }

  /** Constructs what a spec describes: children before their column, in order. */
  function Instantiate(w: World, spec: Spec): (r: Res<ViewRef>)
    ensures Grows(w, r.w) && r.w.trace == w.trace
    ensures spec.Existing? ==> r == Res(w, Ok(spec.v))
    decreases spec
  {
    match spec
    case Existing(v) => Res(w, Ok(v))
    case NewLeaf(className, tag, style, text) => NewView(w, Custom(className, tag, style, text, NoBody, None))
    case NewColumn(children, hCenter) =>
      var cs := InstantiateAll(w, children);
      if cs.out.Throw? then Res(cs.w, Throw(cs.out.error))
      else NewView(cs.w, ColumnView(Somes(cs.out.value), hCenter))
  }

  function InstantiateAll(w: World, specs: seq<Spec>): (r: Res<seq<ViewRef>>)
    ensures Grows(w, r.w) && r.w.trace == w.trace
    ensures r.out.Ok? ==> |r.out.value| == |specs|
    decreases specs
  {
    if specs == [] then Res(w, Ok([]))
    else
      var first := Instantiate(w, specs[0]);
      if first.out.Throw? then Res(first.w, Throw(first.out.error))
      else
        var rest := InstantiateAll(first.w, specs[1..]);
        if rest.out.Throw? then rest else Res(rest.w, Ok([first.out.value] + rest.out.value))
  }

  /** An array with falsy entries: present entries are constructed, absent ones stay absent. */
  function InstantiateOpts(w: World, specs: seq<Option<Spec>>): (r: Res<seq<Option<ViewRef>>>)
    ensures Grows(w, r.w) && r.w.trace == w.trace
    ensures r.out.Ok? ==> |r.out.value| == |specs|
    ensures r.out.Ok? ==> forall i :: 0 <= i < |specs| ==> (r.out.value[i].None? <==> specs[i].None?)
    decreases |specs|
  {
    if specs == [] then Res(w, Ok([]))
    else
      var first := if specs[0].None? then Res(w, Ok(None)) else
        var i := Instantiate(w, specs[0].value);
        Res(i.w, if i.out.Throw? then Throw(i.out.error) else Ok(Some(i.out.value)));
      if first.out.Throw? then Res(first.w, Throw(first.out.error))
      else
        var rest := InstantiateOpts(first.w, specs[1..]);
        if rest.out.Throw? then rest else Res(rest.w, Ok([first.out.value] + rest.out.value))
  }

  function Somes(vs: seq<ViewRef>): (r: seq<Option<ViewRef>>)
    ensures |r| == |vs| && forall i :: 0 <= i < |vs| ==> r[i] == Some(vs[i])
  {
    if vs == [] then [] else [Some(vs[0])] + Somes(vs[1..])
  }

  // ---------------------------------------------------------------------------
  // build
  // ---------------------------------------------------------------------------

  /**
   * `providers.map(p => p.read())`: reads in array order; the first exception stops
   * the map.
   */
  function ReadAll(p: Program, w: World, ps: seq<CellRef>, acc: seq<Value>, fuel: nat): (r: Res<seq<Value>>)
    ensures Grows(w, r.w)
    ensures r.out.Ok? ==> |r.out.value| == |acc| + |ps| && acc <= r.out.value
    decreases |ps|
  {
    if ps == [] then Res(w, Ok(acc))
    else
      var rd := Cells.Read(p, w, ps[0], fuel);
      if rd.out.Throw? then Res(rd.w, Throw(rd.out.error))
      else ReadAll(p, rd.w, ps[1..], acc + [rd.out.value], fuel)
  }

  /**
   * `build` of each class. Padding, margin and header return their child, a column
   * its children, a scaffold a new `Column` of its header, child and footer, and a
   * limited scope what its builder makes of the providers' values. `ProviderScope`
   * does not override `build`, so it returns undefined and its `child` is never shown.
   */
  function Build(p: Program, w: World, v: ViewRef, fuel: nat): (r: Res<ViewChild>)
    requires v < |w.views|
    ensures Grows(w, r.w) && |r.w.trace| > |w.trace| && r.w.trace[|w.trace|] == HookRan(v, Hook.Build)
  {
    var w1 := Emit(w, HookRan(v, Hook.Build));
    match w1.views[v].kind
    case Custom(_, _, _, _, body, _) =>
      (match body
       case NoBody => Res(w1, Ok(NoChild))
       case SingleBody(spec) =>
         var i := Instantiate(w1, spec);
         Res(i.w, if i.out.Throw? then Throw(i.out.error) else Ok(One(i.out.value)))
       case ArrayBody(specs) =>
         var i := InstantiateOpts(w1, specs);
         Res(i.w, if i.out.Throw? then Throw(i.out.error) else Ok(Many(i.out.value))))
    case ColumnView(children, _) => Res(w1, Ok(Many(children)))
    case HeaderView(child, _) => Res(w1, Ok(One(child)))
    case PaddingView(_, child) => Res(w1, Ok(One(child)))
    case MarginView(_, child) => Res(w1, Ok(One(child)))
    case ScaffoldView(header, child, footer) =>
      var col := NewView(w1, ColumnView(Somes(Scaffold.Children(header, child, footer)), false));
      Res(col.w, Ok(One(col.out.value)))
    case ScopeView(_, _) => Res(w1, Ok(NoChild))
    case LimitedScopeView(providers, builder) =>
      var vals := ReadAll(p, w1, providers, [], fuel);
      if vals.out.Throw? then Res(vals.w, Throw(vals.out.error))
      else
        var i := Instantiate(vals.w, p.builders(builder)(vals.out.value));
        Res(i.w, if i.out.Throw? then Throw(i.out.error) else Ok(One(i.out.value)))
  }

  // ---------------------------------------------------------------------------
  // assemble
  // ---------------------------------------------------------------------------

  /**
   * `assembleWrapView`: createWrapView, styledView and embedScriptToView in turn,
   * each checked by `checkHTMLElement`, which throws a TypeError named after the
   * first hook that did not return an element.
   */
  function AssembleWrap(w: World, v: ViewRef): (r: Res<ElemRef>)
    requires v < |w.views|
    ensures Grows(w, r.w) && r.w.views == w.views && r.w.cells == w.cells
    ensures r.out.Ok? ==> r.out.value == |w.dom| && |r.w.dom| == |w.dom| + 1
    ensures r.out.Ok? <==> Broken(w.views[v].kind).None? || Broken(w.views[v].kind).value !in {CreateWrapView, StyledView, EmbedScript}
    ensures r.out.Throw? ==> r.out.error == TypeError(HookName(Broken(w.views[v].kind).value))
  {
    var k := w.views[v].kind;
    var w1 := Emit(w, HookRan(v, CreateWrapView));
    if Broken(k) == Some(CreateWrapView) then Res(w1, Throw(TypeError(HookName(CreateWrapView))))
    else
      var (d, e) := CreateElement(w1.dom, WrapTag(k));
      var w2 := Emit(w1.(dom := d[e := StyledElement(k, d[e])]), HookRan(v, StyledView));
      if Broken(k) == Some(StyledView) then Res(w2, Throw(TypeError(HookName(StyledView))))
      else
        var w3 := Emit(w2, HookRan(v, EmbedScript));
        if Broken(k) == Some(EmbedScript) then Res(w3, Throw(TypeError(HookName(EmbedScript))))
        else Res(w3, Ok(e))
  }

  /**
   * When `r` succeeds it returns the element of view `v` (`_view`), stamped with
   * the id and class name `v` had in `w`.
   */
  predicate ElementOf(w: World, r: Res<ElemRef>, v: ViewRef)
  {
    r.out.Ok? ==>
      && v < |w.views| && v < |r.w.views| && r.out.value == r.w.views[v].elem && r.out.value < |r.w.dom|
      && r.w.dom[r.out.value].idAttr == Uuid(w.views[v].uid)
      && r.w.dom[r.out.value].viewClass == ClassName(w.views[v].kind)
  }

  /**
   * `assemble`: initialize, preBuild, build (its result stored as `viewChild`),
   * postBuild, terminate; then the wrapper, whose copy (`cloneNode`, passed through
   * embedScriptToView once more) becomes `viewCache`; then the children are
   * assembled into that copy, which becomes `_view` and is returned.
   */
  function Assemble(p: Program, w: World, v: ViewRef, fuel: nat): (r: Res<ElemRef>)
    ensures Grows(w, r.w)
    ensures v >= |w.views| ==> r == Res(w, Throw(NotAView))
    ensures ElementOf(w, r, v)
    decreases fuel, 0
  {
    if v >= |w.views| then Res(w, Throw(NotAView))
    else if fuel == 0 then Res(w, Throw(RangeError))
    else
      var w1 := Emit(Emit(w, HookRan(v, Initialize)), HookRan(v, PreBuild));
      var b := Build(p, w1, v, fuel - 1);
      if b.out.Throw? then Res(b.w, Throw(b.out.error))
      else Wrapped(p, SetView(b.w, v, b.w.views[v].(child := b.out.value)), v, fuel - 1)
  }

  /**
   * The part of `assemble` after `build`: postBuild, terminate, the wrapper and its
   * copy, and the children assembled into the copy.
   */
  function Wrapped(p: Program, w: World, v: ViewRef, fuel: nat): (r: Res<ElemRef>)
    requires v < |w.views|
    ensures Grows(w, r.w)
    ensures ElementOf(w, r, v)
    decreases fuel, 3
  {
    var w3 := Emit(Emit(w, HookRan(v, PostBuild)), HookRan(v, Terminate));
    var wrap := AssembleWrap(w3, v);
    if wrap.out.Throw? then Res(wrap.w, Throw(wrap.out.error))
    else
      var (d, copy) := CloneNode(wrap.w.dom, wrap.out.value);
      var w4 := Emit(wrap.w.(dom := d), HookRan(v, EmbedScript));
      var w5 := SetView(w4, v, w4.views[v].(cache := copy));
      var vd := ViewData(p, w5, v, w5.views[v].child, w5.views[v].cache, fuel);
      if vd.out.Throw? then Res(vd.w, Throw(vd.out.error))
      else Res(vd.w, Ok(vd.w.views[v].elem))
  }

  /**
   * `assembleViewData(child, e)`: a single child is assembled and appended to `e`,
   * an array is handled by `assembleMultiView`, and undefined adds nothing; in
   * every case `e` becomes `_view` and is stamped with the view's id and class name.
   */
  function ViewData(p: Program, w: World, v: ViewRef, child: ViewChild, e: ElemRef, fuel: nat): (r: Res<Unit>)
    requires v < |w.views| && e < |w.dom|
    ensures Grows(w, r.w)
    ensures r.out.Ok? ==> r.w.views[v].elem == e
    ensures r.out.Ok? ==> r.w.dom[e].idAttr == Uuid(w.views[v].uid) && r.w.dom[e].viewClass == ClassName(w.views[v].kind)
    decreases fuel, 2
  {
    match child
    case NoChild => Res(Finish(w, v, e), Ok(Unit))
    case One(c) =>
      var a := Assemble(p, w, c, fuel);
      if a.out.Throw? then Res(a.w, Throw(a.out.error))
      else Res(Finish(SetDom(a.w, AppendChild(a.w.dom, e, a.out.value)), v, e), Ok(Unit))
    case Many(cs) =>
      var m := Multi(p, w, e, cs, fuel);
      if m.out.Throw? then Res(m.w, Throw(m.out.error))
      else Res(Finish(m.w, v, e), Ok(Unit))
  }

  /** `_view = e`, then `attributeId` and `attributeViewNameToDataset`. */
  function Finish(w: World, v: ViewRef, e: ElemRef): (r: World)
    requires v < |w.views| && e < |w.dom|
    ensures Grows(w, r) && r.trace == w.trace && r.cells == w.cells
    ensures r.views == w.views[v := w.views[v].(elem := e)]
    ensures r.dom == Stamp(w.dom, e, Uuid(w.views[v].uid), ClassName(w.views[v].kind))
  {
    var w1 := SetView(w, v, w.views[v].(elem := e));
    SetDom(w1, Stamp(w1.dom, e, Uuid(w1.views[v].uid), ClassName(w1.views[v].kind)))
  }

  /** `assembleMultiView`: in array order, each present child is assembled and appended; falsy entries are skipped. */
  function Multi(p: Program, w: World, e: ElemRef, cs: seq<Option<ViewRef>>, fuel: nat): (r: Res<Unit>)
    ensures Grows(w, r.w)
    decreases fuel, 1, |cs|
  {
    if cs == [] then Res(w, Ok(Unit))
    else if cs[0].None? then Multi(p, w, e, cs[1..], fuel)
    else
      var a := Assemble(p, w, cs[0].value, fuel);
      if a.out.Throw? then Res(a.w, Throw(a.out.error))
      else Multi(p, SetDom(a.w, AppendChild(a.w.dom, e, a.out.value)), e, cs[1..], fuel)
  }

  // ---------------------------------------------------------------------------
  // rebuild, assembleComplete, dispose
  // ---------------------------------------------------------------------------

  /** `this._view.id`. */
  function ViewId(w: World, v: ViewRef): DomId
    requires v < |w.views|
  {
    if w.views[v].elem < |w.dom| then w.dom[w.views[v].elem].idAttr else NoId
  }

  /**
   * `rebuild`: preBuild; when no live element carries `_view.id` nothing else
   * happens. Otherwise build runs again, its result is assembled into `viewCache`,
   * the live element is emptied, and the new children's elements are appended in
   * order (a falsy array entry throws here), then postBuild and assembleComplete.
   */
  function Rebuild(p: Program, w: World, v: ViewRef, fuel: nat): (r: Res<Unit>)
    ensures Grows(w, r.w)
    ensures v >= |w.views| ==> r == Res(w, Throw(NotAView))
    ensures v < |w.views| && GetElementById(w.dom, ViewId(w, v)).None? ==> r == Res(Emit(w, HookRan(v, PreBuild)), Ok(Unit))
  {
    if v >= |w.views| then Res(w, Throw(NotAView))
    else
      var w1 := Emit(w, HookRan(v, PreBuild));
      var live := GetElementById(w1.dom, ViewId(w1, v));
      if live.None? then Res(w1, Ok(Unit)) else RebuildLive(p, w1, v, live.value, fuel)
  }

  /** The part of `rebuild` after the live element `t` was found: build and assemble the new children. */
  function RebuildLive(p: Program, w: World, v: ViewRef, t: ElemRef, fuel: nat): (r: Res<Unit>)
    requires v < |w.views| && t < |w.dom|
    ensures Grows(w, r.w)
  {
    var b := Build(p, w, v, fuel);
    if b.out.Throw? then Res(b.w, Throw(b.out.error))
    else
      var w2 := SetView(b.w, v, b.w.views[v].(child := b.out.value));
      // A guard of the model only: `viewCache` always names an element of the
      // arena, so the source has no such case.
      if w2.views[v].cache >= |w2.dom| then Res(w2, Throw(NotAView))
      else
        var vd := ViewData(p, w2, v, w2.views[v].child, w2.views[v].cache, fuel);
        if vd.out.Throw? then Res(vd.w, Throw(vd.out.error))
        else Replace(vd.w, v, t, fuel)
  }

  /**
   * The end of `rebuild`: the live element `t` is emptied, the new children's
   * elements are appended in order, then postBuild and assembleComplete run.
   */
  function Replace(w: World, v: ViewRef, t: ElemRef, fuel: nat): (r: Res<Unit>)
    requires v < |w.views| && t < |w.dom|
    ensures Grows(w, r.w)
  {
    var w3 := SetDom(w, RemoveAllChildren(w.dom, t));
    var ap := AppendViews(w3, t, w3.views[v].child);
    if ap.out.Throw? then Res(ap.w, Throw(ap.out.error))
    else AssembleComplete(Emit(ap.w, HookRan(v, PostBuild)), v, fuel)
  }

  /** The elements of the views a child value names. */
  function ElemsOf(w: World, child: ViewChild): seq<ElemRef>
  {
    match child
    case NoChild => []
    case One(c) => if c < |w.views| then [w.views[c].elem] else []
    case Many(cs) => ElemsOfAll(w, cs)
  }

  function ElemsOfAll(w: World, cs: seq<Option<ViewRef>>): seq<ElemRef>
  {
    if cs == [] then []
    else (if cs[0].Some? && cs[0].value < |w.views| then [w.views[cs[0].value].elem] else []) + ElemsOfAll(w, cs[1..])
  }

  /**
   * The appends at the end of `rebuild`: a single child's element, or each array
   * entry's element in order; `child.view` of a falsy entry throws.
   */
  function AppendViews(w: World, t: ElemRef, child: ViewChild): (r: Res<Unit>)
    ensures Grows(w, r.w) && r.w.trace == w.trace && r.w.views == w.views && r.w.cells == w.cells
  {
    match child
    case NoChild => Res(w, Ok(Unit))
    case One(c) =>
      if c >= |w.views| then Res(w, Throw(NotAView))
      else Res(SetDom(w, AppendChild(w.dom, t, w.views[c].elem)), Ok(Unit))
    case Many(cs) => AppendAll(w, t, cs)
  }

  function AppendAll(w: World, t: ElemRef, cs: seq<Option<ViewRef>>): (r: Res<Unit>)
    ensures Grows(w, r.w) && r.w.trace == w.trace && r.w.views == w.views && r.w.cells == w.cells
    decreases |cs|
  {
    if cs == [] then Res(w, Ok(Unit))
    else if cs[0].None? || cs[0].value >= |w.views| then Res(w, Throw(NotAView))
    else AppendAll(SetDom(w, AppendChild(w.dom, t, w.views[cs[0].value].elem)), t, cs[1..])
  }

  /**
   * `assembleComplete`: for a single child, or each present array entry in order,
   * the child's own subtree completes first and then its `onAssembleComplete` runs.
   * Only the trace changes.
   */
  function AssembleComplete(w: World, v: ViewRef, fuel: nat): (r: Res<Unit>)
    ensures r.w == w.(trace := r.w.trace) && w.trace <= r.w.trace
    ensures v >= |w.views| ==> r == Res(w, Throw(NotAView))
    decreases fuel, 0
  {
    if v >= |w.views| then Res(w, Throw(NotAView))
    else if fuel == 0 then Res(w, Throw(RangeError))
    else CompleteAll(w, ChildList(w.views[v].child), fuel - 1)
  }

  /** The children a traversal visits: none, the single child, or the array's entries. */
  function ChildList(child: ViewChild): seq<Option<ViewRef>>
  {
    match child
    case NoChild => []
    case One(c) => [Some(c)]
    case Many(cs) => cs
  }

  function CompleteAll(w: World, cs: seq<Option<ViewRef>>, fuel: nat): (r: Res<Unit>)
    ensures r.w == w.(trace := r.w.trace) && w.trace <= r.w.trace
    decreases fuel, 1, |cs|
  {
    if cs == [] then Res(w, Ok(Unit))
    else if cs[0].None? then CompleteAll(w, cs[1..], fuel)
    else
      var sub := AssembleComplete(w, cs[0].value, fuel);
      if sub.out.Throw? then sub
      else CompleteAll(Emit(sub.w, HookRan(cs[0].value, Hook.AssembleComplete)), cs[1..], fuel)
  }

  /**
   * `dispose` (private, with no caller in the library): every child, array entries
   * included without a falsy check, is disposed first; `onDispose` runs last.
   */
  function Dispose(w: World, v: ViewRef, fuel: nat): (r: Res<Unit>)
    ensures r.w == w.(trace := r.w.trace) && w.trace <= r.w.trace
    ensures v >= |w.views| ==> r == Res(w, Throw(NotAView))
    decreases fuel, 0
  {
    if v >= |w.views| then Res(w, Throw(NotAView))
    else if fuel == 0 then Res(w, Throw(RangeError))
    else
      var sub := DisposeAll(w, ChildList(w.views[v].child), fuel - 1);
      if sub.out.Throw? then sub else Res(Emit(sub.w, HookRan(v, Hook.Dispose)), Ok(Unit))
  }

  function DisposeAll(w: World, cs: seq<Option<ViewRef>>, fuel: nat): (r: Res<Unit>)
    ensures r.w == w.(trace := r.w.trace) && w.trace <= r.w.trace
    decreases fuel, 1, |cs|
  {
    if cs == [] then Res(w, Ok(Unit))
    else if cs[0].None? then Res(w, Throw(NotAView))
    else
      var sub := Dispose(w, cs[0].value, fuel);
      if sub.out.Throw? then sub else DisposeAll(sub.w, cs[1..], fuel)
  }

  // ---------------------------------------------------------------------------
  // assembleView
  // ---------------------------------------------------------------------------

  /**
   * `assembleView(root, idName)`: the root is assembled first; its element is
   * appended under the element with id `idName` when there is one (and silently
   * not otherwise); assembleComplete then runs once, and the element is returned.
   */
  function AssembleView(p: Program, w: World, v: ViewRef, fuel: nat, idName: string := DefaultContainerId): (r: Res<ElemRef>)
    ensures Grows(w, r.w)
  {
    Place(Assemble(p, w, v, fuel), v, idName, fuel)
  }

  /**
   * The part of `assembleView` after `assemble` returned `a`: an exception passes
   * through; otherwise the element goes under the one with id `idName`, if any,
   * and assembleComplete runs on the root.
   */
  function Place(a: Res<ElemRef>, v: ViewRef, idName: string, fuel: nat): (r: Res<ElemRef>)
    ensures Grows(a.w, r.w)
  {
    if a.out.Throw? then Res(a.w, Throw(a.out.error))
    else
      var container := GetElementById(a.w.dom, IdOf(idName));
      var w1 := if container.Some? then SetDom(a.w, AppendChild(a.w.dom, container.value, a.out.value)) else a.w;
      var c := AssembleComplete(w1, v, fuel);
      if c.out.Throw? then Res(c.w, Throw(c.out.error)) else Res(c.w, Ok(a.out.value))
  }
}

=== FILE: world.dfy ===
/**
 * The state of one page running fTutteS: the provider cells, the notifiers, the
 * view objects, the DOM surface, the observer registry, and an event trace that
 * records the order in which hooks, factories and listeners ran.
 *
 * JavaScript object references are handles into arenas (`seq`s indexed by `nat`),
 * so two handles are the same object exactly when they are equal. User code
 * (factories, update functions, builders) is referred to by ids into a `Program`.
 */
module World {
  import opened Values
  import opened Styles
  import opened Dom
  import opened BoxSides
  import opened Observer

  type ViewRef = nat
  type NotifierRef = nat

  // ---------------------------------------------------------------------------
  // User code
  // ---------------------------------------------------------------------------

  /** What a view's `build` (or a scope's `builder`) constructs: existing views or new ones. */
  datatype Spec =
    | Existing(v: ViewRef)
      /** `new` of a leaf component: wrapper tag, its style and its text. */
    | NewLeaf(className: string, tag: string, style: Style, text: string)
      /** `new Column({children})`, children constructed first, in order. */
    | NewColumn(children: seq<Spec>, hCenter: bool)

  /**
   * The closures a program supplies, by id: update functions, `ref.watch` combiners
   * `(parentValue, currentValue) => next`, factory results computed from the values
   * the factory read, `LimitedProviderScope` builders, and the observer's size check.
   * `updaterThrows` and `combinerThrows` say on which arguments an update function
   * or a combiner throws instead of returning.
   */
  datatype Program = Program(
    updaters: nat -> Value -> Value,
    updaterThrows: nat -> Value -> bool,
    combiners: nat -> (Value, Value) -> Value,
    combinerThrows: nat -> (Value, Value) -> bool,
    results: nat -> seq<Value> -> Value,
    builders: nat -> seq<Value> -> Spec,
    isLarge: Value -> bool)

  /** The function handed to `update`. */
  datatype UpdateFn =
    | Apply(id: nat)
      /** `cur => combine(parentValue, cur)`, made by a dependency link for each parent update. */
    | CombineWith(combine: nat, parentValue: Value)
      /** `cur => cur`, used by `NotifierProvider`. */
    | Identity

  function ApplyUpdate(p: Program, f: UpdateFn, cur: Value): Value
  {
    match f
    case Apply(id) => p.updaters(id)(cur)
    case CombineWith(c, pv) => p.combiners(c)(pv, cur)
    case Identity => cur
  }

  /** Whether the function handed to `update` throws on the current value. */
  predicate UpdateThrows(p: Program, f: UpdateFn, cur: Value)
  {
    match f
    case Apply(id) => p.updaterThrows(id)(cur)
    case CombineWith(c, pv) => p.combinerThrows(c)(pv, cur)
    case Identity => false
  }

  /** One statement of a factory body, in terms of its `ref`. */
  datatype RefStep =
    | RefRead(other: CellRef)
    | RefWatch(parent: CellRef, combine: nat)

  /**
   * A factory `ref => ...`: it runs `steps`, and then either throws or returns
   * `results(result)` applied to the values its `ref.read` calls produced.
   */
  datatype Factory = Factory(steps: seq<RefStep>, result: nat, throws: bool)

  // ---------------------------------------------------------------------------
  // Provider cells
  // ---------------------------------------------------------------------------

  /**
   * A listener in a cell's set. Each closure the library creates carries a fresh
   * `token`, so no two of them are ever the same set member; `Record(tag)` stands
   * for an application listener, and equal tags are the same function.
   */
  datatype Listener =
      /** The `Dependency` listener: the child is updated with `combine(parentValue, cur)`. */
    | Propagate(token: nat, child: CellRef, combine: nat)
      /** A `ProviderScope` listener: `() => scope.rebuild()`. */
    | Rebuild(token: nat, scope: ViewRef)
      /** The `NotifierProvider` listener on its notifier's cell. */
    | Bridge(token: nat, notifierProvider: CellRef)
      /** An application listener that only records the value it receives. */
    | Record(tag: nat)
      /** An application listener that throws when it is called. */
    | Throwing(tag: nat)

  /** What `read` does when the cell is not yet initialised. */
  datatype CellKind =
    | Plain(factory: Factory)
      /** A `NotifierProvider`, whose `read` returns its notifier. */
    | NotifierBacked(notifier: NotifierRef)

  /** A `Dependency` kept in `_dependencies`: the parent and the listener it registered there. */
  datatype Link = Link(parent: CellRef, listener: Listener)

  /** A `Provider` object: its name, `ProviderCore`, listener set, dependencies and log switch. */
  datatype Cell = Cell(
    name: string,
    kind: CellKind,
    value: Value,
    initialized: bool,
    listeners: seq<Listener>,
    deps: map<CellRef, Link>,
    logOn: bool)

  /** A `Notifier` object: its class name and its private provider. */
  datatype NotifierObj = NotifierObj(className: string, cell: CellRef)

  // ---------------------------------------------------------------------------
  // Views
  // ---------------------------------------------------------------------------

  /** The lifecycle hooks a view runs; the trace records each call. */
  datatype Hook =
    | Initialize | PreBuild | Build | PostBuild | Terminate
    | CreateWrapView | StyledView | EmbedScript
    | AssembleComplete | Dispose

  /** What an application view's `build` returns, rebuilt from its spec on every call. */
  datatype Body =
    | NoBody
    | SingleBody(spec: Spec)
      /** An array; `None` is a falsy entry. */
    | ArrayBody(specs: seq<Option<Spec>>)

  /** The class of a view and its props. */
  datatype Kind =
      /** An application `View` subclass; `broken` names a wrapper hook that returns a non-element. */
    | Custom(className: string, tag: string, style: Style, text: string, body: Body, broken: Option<Hook>)
    | ColumnView(children: seq<Option<ViewRef>>, hCenter: bool)
    | HeaderView(child: ViewRef, sticky: bool)
    | PaddingView(paddings: Sides, child: ViewRef)
    | MarginView(margins: Sides, child: ViewRef)
    | ScaffoldView(header: Option<ViewRef>, child: ViewRef, footer: Option<ViewRef>)
    | ScopeView(providers: seq<CellRef>, child: ViewRef)
    | LimitedScopeView(providers: seq<CellRef>, builder: nat)

  function ClassName(k: Kind): string
  {
    match k
    case Custom(c, _, _, _, _, _) => c
    case ColumnView(_, _) => "Column"
    case HeaderView(_, _) => "Header"
    case PaddingView(_, _) => "Padding"
    case MarginView(_, _) => "Margin"
    case ScaffoldView(_, _, _) => "Scaffold"
    case ScopeView(_, _) => "ProviderScope"
    case LimitedScopeView(_, _) => "LimitedProviderScope"
  }

  /** `viewChild`: what the last `build` returned. */
  datatype ViewChild = NoChild | One(v: ViewRef) | Many(vs: seq<Option<ViewRef>>)

  /** A `View` object: its class, `id` (a UUID), `_view`, `viewCache` and `viewChild`. */
  datatype ViewNode = ViewNode(kind: Kind, uid: nat, elem: ElemRef, cache: ElemRef, child: ViewChild)

  // ---------------------------------------------------------------------------
  // The world
  // ---------------------------------------------------------------------------

  /** Observable events, in the order they happened. */
  datatype Event =
    | FactoryRun(cell: CellRef)
    | Stored(cell: CellRef, value: Value)
    | Fired(cell: CellRef, listener: Listener, value: Value)
    | Received(tag: nat, value: Value)
    | HookRan(view: ViewRef, hook: Hook)

  datatype World = World(
    cells: seq<Cell>,
    notifiers: seq<NotifierObj>,
    views: seq<ViewNode>,
    dom: seq<Element>,
    obs: ObserverState,
    trace: seq<Event>,
    tokens: nat,   // the next fresh closure token
    uids: nat)     // the next fresh view UUID

  /** A new world state together with what the call returned or threw. */
  datatype Res<+T> = Res(w: World, out: Outcome<T>)

  /** Arenas only grow, and existing entries keep their identity (a cell stays a cell of the same kind). */
  predicate Grows(w: World, w': World)
  {
    && |w.cells| <= |w'.cells|
    && (forall c :: 0 <= c < |w.cells| ==> w'.cells[c].kind == w.cells[c].kind)
    && w.notifiers <= w'.notifiers
    && |w.views| <= |w'.views|
    && (forall v :: 0 <= v < |w.views| ==> w'.views[v].kind == w.views[v].kind && w'.views[v].uid == w.views[v].uid)
    && |w.dom| <= |w'.dom|
    && w.tokens <= w'.tokens && w.uids <= w'.uids
    && w.trace <= w'.trace
  }

  lemma GrowsTransitive(w1: World, w2: World, w3: World)
    requires Grows(w1, w2) && Grows(w2, w3)
    ensures Grows(w1, w3)
  {
  }

  function Emit(w: World, e: Event): (r: World)
    ensures r.trace == w.trace + [e] && Grows(w, r)
  {
    w.(trace := w.trace + [e])
  }

  function SetCell(w: World, c: CellRef, cell: Cell): (r: World)
    requires c < |w.cells| && cell.kind == w.cells[c].kind
    ensures Grows(w, r) && r.cells == w.cells[c := cell] && r.trace == w.trace
  {
    w.(cells := w.cells[c := cell])
  }

  function SetView(w: World, v: ViewRef, node: ViewNode): (r: World)
    requires v < |w.views| && node.kind == w.views[v].kind && node.uid == w.views[v].uid
    ensures Grows(w, r) && r.views == w.views[v := node] && r.trace == w.trace
  {
    w.(views := w.views[v := node])
  }

  function SetDom(w: World, dom: seq<Element>): (r: World)
    requires |w.dom| <= |dom|
    ensures Grows(w, r) && r.dom == dom && r.trace == w.trace
  {
    w.(dom := dom)
  }

  /** The cell names, as `ProviderObserver` reports them. */
  function CellNames(cells: seq<Cell>): (r: seq<string>)
    ensures |r| == |cells| && forall i :: 0 <= i < |cells| ==> r[i] == cells[i].name
  {
    if cells == [] then [] else [cells[0].name] + CellNames(cells[1..])
  }
}
